=== FILE: README.md ===
# molt-builder in Dafny

This project models the logic core of molt-builder. That is the web app where
a user designs an AI agent persona for Moltbook (a social network for AI
agents), saves it in the browser, and gets the environment variables that
deploy it. The model covers these parts:

- **the persona configuration.** The record the wizard fills in, its schema,
  and the default configuration.
- **the system-prompt assembler.** `clean`, a control-character filter plus
  trim, and `buildSystemPrompt`, which lays out the preamble, core nature,
  numbered voice rules and optional example posts.
- **the environment variables.** `buildEnvVars` fills the fixed fourteen-key
  record. The variable table's `formatEnvLine` quotes and escapes a value for
  a `.env` file; its "copy all" joins those lines, and it decides what to
  display.
- **the browser-side agent registry.** `getAgents`, `saveAgent`,
  `deleteAgent`, the round-robin accent colours and the sigil.
- **the fixed-window rate limiter** used by the API routes.
- **the builder wizard.** The per-step gate `canAdvance`, Back/Continue and
  the step dots, and the reset of name availability when the name changes.
- **the list editors.** Keyword tags, submolt selection (with the fetched
  listing), the drag-sortable voice-rule list and the example posts.
- **the small derivations of the wizard steps.** The Name step's input
  filter and availability status, the Persona step's starter texts and
  warnings, and the Capabilities step's toggles and clamps.
- **the dashboard's display helpers.** The detail panel's key mask, `.env`
  dump and summaries, and the card's truncation, pills, keyword count and
  age.

Every operation is a pure function over immutable datatypes. `localStorage`
becomes a `Slot` value, and the clock and random id suffix become
parameters. The rate limiter's store is a `map`, with `now` passed in.

One module per source file (in lower case):

- `character.dfy` models `types/character.ts`. The modelled
  `CharacterConfig` has five fields that the schema and its type do not
  declare: `replyToComments`, `replyMaxPerCycle`, `synthesisEvery`,
  `cycleIntervalHours` and `tavilyApiKey`. The Capabilities step
  (app/builder/steps/Step5Capabilities.tsx:11-16) and `buildEnvVars`
  (lib/buildEnvVars.ts:41-43) read them as possibly absent, so they are
  `Option`s here, and `SchemaValid` ignores them as the schema does.
- `prompt.dfy` models `lib/buildSystemPrompt.ts`.
- `envvars.dfy` models `lib/buildEnvVars.ts`.
- `envvartable.dfy` models `components/EnvVarTable.tsx`.
- `agentstorage.dfy` models `lib/agentStorage.ts`.
- `ratelimiter.dfy` models `lib/rateLimiter.ts`.
- `wizard.dfy` models `app/builder/page.tsx`.
- `namestep.dfy`, `persona.dfy`, `examplesstep.dfy` and `capabilities.dfy`
  model the builder steps.
- `keywordtags.dfy`, `submolts.dfy` and `voicerules.dfy` model the editor
  components.
- `agentdetail.dfy` and `agentcard.dfy` model the dashboard components.

Shared string and list machinery lives in `text.dfy`, `lists.dfy` and
`optional.dfy`:

- JavaScript's `trim` with its whitespace set.
- ASCII case mapping.
- `join`/`split`, `replace`, and decimal numbers.
- Filtering and `arrayMove`.

Two behaviours of the code are easy to misread:

- `clean` removes NUL and the control characters other than TAB, LF and CR,
  then trims. A TAB, LF or CR inside the text survives.
- `lib/agentStorage.ts` only appends. It has no upsert by name and no
  pending/ready lifecycle.

## Model

| member | source | states |
|---|---|---|
| Text.Trim | lib/buildSystemPrompt.ts:8 | the result has no leading or trailing JavaScript whitespace and is no longer than the input |
| Text.TrimBounds | lib/buildSystemPrompt.ts:8 | the trimmed text is one slice of the input with only whitespace before and after it; it is empty exactly when the input is all whitespace |
| Text.TrimFixedPoint | lib/buildSystemPrompt.ts:8 | trimming leaves a text unchanged exactly when it has no whitespace at either end |
| Text.TrimIdempotent | lib/buildSystemPrompt.ts:8 | trimming twice is trimming once |
| Text.LowerFacts | components/KeywordTagInput.tsx:23 | lower-casing gives lower-case text, is idempotent, keeps a trimmed text trimmed and keeps all-whitespace text all-whitespace |
| Text.Lower | components/KeywordTagInput.tsx:23 | the result has the input's length and maps each character by the ASCII lower-case map; Text.LowerFacts states its properties |
| Text.Upper | lib/agentStorage.ts:38 | the result has the input's length and maps each character by the ASCII upper-case map; AgentStorage.Sigil uses it on the first character |
| Text.SplitJoin | lib/buildEnvVars.ts:35-39 | splitting a join on a separator that no item contains gives the items back |
| Text.Join | lib/buildEnvVars.ts:35 | no contract of its own; Text.SplitJoin, Text.JoinCount and Text.JoinEmpty state what the joined text holds and that it splits back |
| Text.SplitCount | components/EnvVarTable.tsx:46-49 | a split has one more piece than the text has separators |
| Text.JoinCount | components/AgentDetailPanel.tsx:53-57 | a join of n items holds at least n-1 separators, and at least n when some item holds one |
| Text.JoinEmpty | components/AgentDetailPanel.tsx:40-41 | a join is empty exactly when there are no items or one empty item |
| Text.NatToString | lib/buildEnvVars.ts:41-42 | the decimal form is non-empty, all digits, with no leading zero |
| Text.ParseNatToString | lib/buildEnvVars.ts:41-42 | reading the decimal form of a natural number gives the number back |
| Text.IntToStringRoundTrip | lib/buildEnvVars.ts:41-42 | reading `String(n)` back gives `n`, for negative numbers too |
| Text.IntToString | lib/buildEnvVars.ts:41-42 | the rendering is never empty; Text.IntToStringRoundTrip states that it reads back |
| Text.ReplaceAll | app/builder/steps/Step2Persona.tsx:39 | no contract of its own; Text.ReplaceCharStep states the one-character step and Persona.ReplaceLeavesNoBrace that every occurrence is replaced |
| Character.StarterRulesFit | types/character.ts:43-47 | the default configuration's three voice rules each have 1 to 500 characters |
| Character.SchemaValid | types/character.ts:3-35 | no contract of its own; Character.DefaultConfigShape shows the default failing it and a named default passing it, and Wizard.GatesImplySchemaParts shows the wizard's gates establish its parts |
| Character.DefaultConfig | types/character.ts:39-52 | no contract of its own; Character.StarterRulesFit and Character.DefaultConfigShape state its rules, submolt and examples |
| Character.DefaultConfigShape | types/character.ts:39-52 | example: the default has three rules, the submolt `general` and no examples; its empty name fails the schema, and naming it and giving a 50-character core nature makes it valid |
| Prompt.KeepAllowed | lib/buildSystemPrompt.ts:6-7 | the filtered text has no NUL or forbidden control character, and a text without them passes through unchanged |
| Prompt.StripNul | lib/buildSystemPrompt.ts:6 | no contract of its own; Prompt.TwoFiltersAreOne states that it and Prompt.StripControl together are the one-pass reference filter |
| Prompt.StripControl | lib/buildSystemPrompt.ts:7 | no contract of its own; Prompt.TwoFiltersAreOne states that it and Prompt.StripNul together are the one-pass reference filter |
| Prompt.TwoFiltersAreOne | lib/buildSystemPrompt.ts:6-7 | removing NUL and then the control class is the same as one filter over the union |
| Prompt.Clean | lib/buildSystemPrompt.ts:4-9 | no contract of its own; Prompt.CleanSpec, Prompt.CleanFixedPoint and Prompt.CleanIdempotent compare it with the one-pass reference filter |
| Prompt.CleanSpec | lib/buildSystemPrompt.ts:4-9 | `clean` gives the filtered text minus whitespace at both ends; it is trimmed and free of forbidden characters |
| Prompt.CleanFixedPoint | lib/buildSystemPrompt.ts:4-9 | `clean` leaves a text unchanged exactly when it is trimmed and free of forbidden characters |
| Prompt.CleanIdempotent | lib/buildSystemPrompt.ts:4-9 | cleaning twice is cleaning once |
| Prompt.PersonaName | lib/buildSystemPrompt.ts:16 | the name is the cleaned name, or `Agent` when that is empty; never empty |
| Prompt.PreambleLine | lib/buildSystemPrompt.ts:23 | no contract of its own; Prompt.PromptStartsWithPreamble states that every prompt begins with it and a blank line |
| Prompt.NumberedRule | lib/buildSystemPrompt.ts:20 | no contract of its own; Prompt.NumberedRules and Prompt.PromptLinesReadBack state that entry i reads `i+1. ` and rule i cleaned |
| Prompt.NumberedRules | lib/buildSystemPrompt.ts:19-21 | one entry per rule in stored order, entry i reading `i+1. ` and the cleaned rule |
| Prompt.ValidExamples | lib/buildSystemPrompt.ts:27-29 | the surviving examples are all non-empty and no more than the posts |
| Prompt.ValidExamplesFromPosts | lib/buildSystemPrompt.ts:27-29 | every surviving example is the cleaned text of some post |
| Prompt.ValidExamplesKeepsPosts | lib/buildSystemPrompt.ts:27-29 | every post whose cleaned text is not empty survives as that text |
| Prompt.ValidExamplesMembers | lib/buildSystemPrompt.ts:27-29 | a text survives exactly when it is non-empty and some post cleans to it |
| Prompt.ValidExamplesConcat | lib/buildSystemPrompt.ts:27-29 | the filter distributes over concatenation, so the survivors keep the posts' order |
| Prompt.ValidExamplesSingle | lib/buildSystemPrompt.ts:27-29 | one post survives, as its cleaned text, exactly when that text is not empty |
| Prompt.ValidExamplesEmpty | lib/buildSystemPrompt.ts:27-31 | no example survives exactly when every post cleans to nothing |
| Prompt.JoinSpaced | lib/buildSystemPrompt.ts:32 | joining with blank lines between is joining the lines with a blank line inserted between each pair |
| Prompt.Quote | lib/buildSystemPrompt.ts:32 | the quoted example is two characters longer, starts and ends with `"`, and the text between reads back as the example |
| Prompt.Quoted | lib/buildSystemPrompt.ts:32 | one entry per surviving example, in order, entry i being example i quoted; Prompt.QuotedSingleLine keeps each on one line |
| Prompt.BuildSystemPrompt | lib/buildSystemPrompt.ts:15-37 | no contract of its own; Prompt.PromptIsLines, Prompt.PromptStartsWithPreamble and Prompt.PromptLinesReadBack state its layout |
| Prompt.PromptIsLines | lib/buildSystemPrompt.ts:15-37 | the prompt equals the reference layout joined by LF: preamble, core nature, rules header, numbered rules, then the examples section only when some example survives |
| Prompt.PromptStartsWithPreamble | lib/buildSystemPrompt.ts:23 | every prompt begins with `You are <name>. You exist on Moltbook, a social network built exclusively for AI agents.` and a blank line |
| Prompt.RuleLinePositions | lib/buildSystemPrompt.ts:19-25 | the numbered entry of rule i is layout line 6+i, whatever the rules clean to |
| Prompt.PromptLinesReadBack | lib/buildSystemPrompt.ts:15-37 | when every part is one line, splitting the prompt on LF gives the reference lines back, and line 6+i is `i+1. ` and rule i cleaned |
| EnvVars.Entries | lib/buildEnvVars.ts:3-18 | a map lists as exactly the fourteen keys, in declaration order |
| EnvVars.KeyNamesDistinct | lib/buildEnvVars.ts:3-18 | the fourteen key names are pairwise distinct |
| EnvVars.KeyNamesPlain | lib/buildEnvVars.ts:3-18 | every key name is upper-case letters and underscores, with no LF or `=` |
| EnvVars.EntriesRoundTrip | lib/buildEnvVars.ts:3-18 | listing a map loses nothing: the inverse reading of the fourteen entries gives the same map |
| EnvVars.AnthropicKey | lib/buildEnvVars.ts:31 | the key is the trimmed caller key when that is not blank, otherwise the placeholder; never empty |
| EnvVars.ListVariable | lib/buildEnvVars.ts:35-39 | a joined list is empty exactly for no entries or one empty entry, splits back when non-empty with no separator inside, and the empty list comes back as `[""]` |
| EnvVars.BuildEnvVarsFields | lib/buildEnvVars.ts:28-45 | for any configuration the two numbers parse back to the stored values or defaults 0 and 2; name, description and core nature are verbatim; `LOG_LEVEL` is `INFO`; the Anthropic key is the caller's trimmed key or the placeholder; the Moltbook and Tavily keys are the stored ones or empty |
| EnvVars.BuildEnvVars | lib/buildEnvVars.ts:28-45 | no contract of its own; EnvVars.BuildEnvVarsFields states the scalar fields for every configuration, and EnvVars.BuildEnvVarsRecoverable and EnvVars.BuildEnvVarsRecoverableRest state when each list variable splits back and when it is empty |
| EnvVars.BuildEnvVarsRecoverable | lib/buildEnvVars.ts:35-39 | for any configuration: rules, high keywords and submolts split back from their variables when the list is non-empty and no entry holds the separator; each variable is empty exactly when its list is empty or one empty entry |
| EnvVars.BuildEnvVarsRecoverableRest | lib/buildEnvVars.ts:36-38 | for any configuration: medium keywords and example posts split back under the same condition, and each variable is empty exactly when its list is empty or one empty entry |
| EnvVars.BuildEnvVarsDefaults | lib/buildEnvVars.ts:30-43 | without keys or numbers: placeholder Anthropic key, empty Moltbook and Tavily keys, `0` and `2` |
| EnvVars.BuildEnvVarsExample | lib/buildEnvVars.ts:37-39 | example: keywords `a`,`b` join to `a,b` |
| EnvVarTable.EscapeChar | components/EnvVarTable.tsx:26-30 | a character's escape has no LF and starts with a backslash exactly for backslash, quote and LF |
| EnvVarTable.NeedsQuoting | components/EnvVarTable.tsx:21 | no contract of its own; EnvVarTable.FormatEnvLineRoundTrip reads a line back in either branch it selects |
| EnvVarTable.Escape | components/EnvVarTable.tsx:26-30 | no contract of its own; EnvVarTable.EscapeIsOnePass and EnvVarTable.UnescapeEscape state that it is undone by unescaping, up to CRLF |
| EnvVarTable.EscapeIsOnePass | components/EnvVarTable.tsx:26-30 | the four successive replacements equal one left-to-right pass escaping `\`, `"` and CRLF/LF |
| EnvVarTable.UnescapeEscape | components/EnvVarTable.tsx:26-30 | unescaping the escaped value gives the value with every CRLF normalised to LF |
| EnvVarTable.FormatEnvLineSingleLine | components/EnvVarTable.tsx:20-34 | a formatted line never holds a line feed, in either branch |
| EnvVarTable.FormatEnvLine | components/EnvVarTable.tsx:20-34 | no contract of its own; EnvVarTable.FormatEnvLineSingleLine and EnvVarTable.FormatEnvLineRoundTrip state that the line is single and reads back |
| EnvVarTable.FormatEnvLineRoundTrip | components/EnvVarTable.tsx:20-34 | reading a formatted line back (split at the first `=`, unquote and unescape when quoted) gives the key and the CRLF-normalised value |
| EnvVarTable.ParseAfterKey | components/EnvVarTable.tsx:31-33 | after `key=`, a quoted rest is unquoted and unescaped, and an unquoted rest is taken as is |
| EnvVarTable.EnvLines | components/EnvVarTable.tsx:47-48 | one line per entry; EnvVarTable.CopyAllReadBack states that line i reads back as entry i |
| EnvVarTable.CopyAll | components/EnvVarTable.tsx:46-49 | no contract of its own; EnvVarTable.CopyAllReadBack states that it splits into one line per entry reading back as that entry |
| EnvVarTable.CopyAllReadBack | components/EnvVarTable.tsx:46-49 | the copied text has one line per entry, in order, each reading back as its key and normalised value |
| EnvVarTable.CopyAllEnvVars | components/EnvVarTable.tsx:46-49 | copying a built map gives fourteen lines, line i reading back as key i |
| EnvVarTable.DisplayValue | components/EnvVarTable.tsx:89-97 | the `displayValue` expression: a sensitive non-empty, non-placeholder value becomes min(length, 28) bullets; any other value is kept as is (what the page shows in its place is EnvVarTable.ShownValue) |
| EnvVarTable.IsManualKey | components/EnvVarTable.tsx:11 | no contract of its own; EnvVarTable.TableRowsOfBuiltMap shows the Anthropic row is manual and never copies |
| EnvVarTable.IsSensitiveKey | components/EnvVarTable.tsx:13 | no contract of its own; EnvVarTable.DisplayValue states what a sensitive row shows |
| EnvVarTable.IsPlaceholder | components/EnvVarTable.tsx:90 | no contract of its own; EnvVarTable.TableRowsOfBuiltMap shows the built Anthropic placeholder is one |
| EnvVarTable.IsEmptyValue | components/EnvVarTable.tsx:91 | no contract of its own; EnvVarTable.ShownValue states that such a value is replaced by a label, and EnvVarTable.TableRowsOfBuiltMap that the Anthropic row without a caller key counts as empty |
| EnvVarTable.CopyDisabled | components/EnvVarTable.tsx:186 | no contract of its own; EnvVarTable.TableRowsOfBuiltMap shows the Anthropic row never copies and an unregistered Moltbook row does not either |
| EnvVarTable.TableRowsOfBuiltMap | components/EnvVarTable.tsx:88-97 | on a built map the Anthropic row is manual, and without a caller key it is a placeholder, so its copy button is disabled |
| EnvVarTable.ShownValue | components/EnvVarTable.tsx:150-178 | the value column's text: a missing value shows "(empty)" in a row whose value holds a line feed and "(add your key in Railway)" otherwise, so an empty value always gets the second; any other value shows its displayValue; the column is never blank, and a sensitive row shows only a label or bullets |
| EnvVarTable.ShownValuesOfBuiltMap | components/EnvVarTable.tsx:150-178 | on a freshly built map the Anthropic placeholder, an unset Moltbook or search key and an empty example-post list all read "(add your key in Railway)", never "(empty)" |
| AgentStorage.GetAgents | lib/agentStorage.ts:18-26 | no window, no key or an unparsable slot reads as the empty list; otherwise the stored list |
| AgentStorage.AgentId | lib/agentStorage.ts:31 | the id starts with `agent_`, ends with `_` and the suffix, and the digits between read back as the clock reading |
| AgentStorage.SaveAgent | lib/agentStorage.ts:28-42 | the slot becomes the current list plus one new record at the end, coloured by the list's length modulo six, with the config's name, description, config, variables and sigil |
| AgentStorage.Sigil | lib/agentStorage.ts:38 | the sigil is the name's first character upper-cased, or empty for an empty name |
| AgentStorage.WithoutId | lib/agentStorage.ts:44-47 | the filter keeps exactly the records with another id |
| AgentStorage.DeleteAgent | lib/agentStorage.ts:44-47 | the slot afterwards holds exactly the records read before whose id differs, and the list unchanged when no record had the id |
| AgentStorage.WithoutIdConcat | lib/agentStorage.ts:46 | the filter distributes over concatenation, so it keeps order |
| AgentStorage.WithoutIdAbsent | lib/agentStorage.ts:44-47 | deleting changes the list exactly when some record has the id |
| AgentStorage.DeleteIdempotent | lib/agentStorage.ts:44-47 | deleting twice is deleting once |
| AgentStorage.DeleteUndoesSave | lib/agentStorage.ts:28-47 | deleting the record just saved under a fresh id gives back the list as it was read |
| AgentStorage.SaveTwiceKeepsBoth | lib/agentStorage.ts:28-42 | saving one configuration twice stores two records with that name |
| AgentStorage.SaveKeepsRoundRobin | lib/agentStorage.ts:37 | saves keep each record's colour at its position's palette entry; the first colour is amber |
| AgentStorage.UnreadableSlotOverwritten | lib/agentStorage.ts:29-46 | a save over an unreadable slot leaves only the new record, and a delete leaves an empty list |
| AgentStorage.AccentOrAmber | components/AgentDetailPanel.tsx:36-37 | a palette colour is kept and any other name falls back to amber |
| RateLimiter.Check | lib/rateLimiter.ts:26-45 | only the key's entry changes; a call is allowed exactly when the window is new or expired, or its count is under the maximum; an allowed call reports max minus the new count, and a denied one changes nothing and reports 0 |
| RateLimiter.CheckKeepsWithinLimit | lib/rateLimiter.ts:34-45 | with a maximum of at least one, no stored count exceeds it |
| RateLimiter.ExpiredWindowRestarts | lib/rateLimiter.ts:34-37 | a key with no entry, or whose window has run out, is stored with count 1 and window start `now`, and the call is allowed with `remaining` max-1 |
| RateLimiter.BoundaryIsInsideWindow | lib/rateLimiter.ts:34 | a call exactly `windowMs` after the window start is still inside it |
| RateLimiter.RunInsideWindow | lib/rateLimiter.ts:39-44 | inside one window a run allows only as many calls as remain under the maximum |
| RateLimiter.AtMostMaxPerWindow | lib/rateLimiter.ts:26-45 | calls for a fresh key within one window are allowed min(calls, max) times |
| RateLimiter.ThreePerSecondScenario | lib/rateLimiter.ts:26-45 | example: with three per second, three calls are allowed, a fourth and one exactly on the window's end are denied, and the next one opens a new window |
| Wizard.SetConfigState | app/builder/page.tsx:98-101 | outside edit mode a changed name clears availability; anything else keeps it |
| Wizard.CanAdvance | app/builder/page.tsx:19-48 | no contract of its own; Wizard.GatesImplySchemaParts, Wizard.VoiceGateStricterThanSchema and Persona.WarningsMatchGate state what each gate demands |
| Wizard.JumpEnabled | app/builder/page.tsx:132-141 | no contract of its own; Wizard.ForwardOnlyThroughGate shows a step dot only moves forward to Register in edit mode |
| Wizard.ContinueEnabled | app/builder/page.tsx:255-258 | no contract of its own; Wizard.ForwardOnlyThroughGate and Wizard.NoContinueOnLastStep state that Continue moves one step only through an open gate and never on the last step |
| Wizard.Apply | app/builder/page.tsx:131-258 | no contract of its own; Wizard.ApplyKeepsStepInRange, Wizard.ForwardOnlyThroughGate, Wizard.BackStepsDown and Wizard.NoContinueOnLastStep state how events move the step |
| Wizard.ApplyKeepsStepInRange | app/builder/page.tsx:131-258 | no page event leaves the eight steps, and configuration events do not move the step |
| Wizard.ForwardOnlyThroughGate | app/builder/page.tsx:255-258 | outside edit mode the step advances only by Continue, by one, with the gate open |
| Wizard.BackStepsDown | app/builder/page.tsx:240 | Back goes down one step and never below the first |
| Wizard.NoContinueOnLastStep | app/builder/page.tsx:255-258 | on the last step Continue does nothing |
| Wizard.RenameClosesNameGate | app/builder/page.tsx:98-101 | renaming outside edit mode closes the Name gate |
| Wizard.GatesImplySchemaParts | app/builder/page.tsx:19-48 | passing the first four gates gives a valid name, a description of 1-300 characters, a core nature of 50-2000, non-empty rules and a submolt |
| Wizard.VoiceGateStricterThanSchema | app/builder/page.tsx:33 | a rule of one space satisfies the schema but not the Voice gate |
| NameStep.FilterName | app/builder/steps/Step1Name.tsx:110-113 | the filtered name holds only word characters and leaves a name made only of them unchanged |
| NameStep.FilterNameFacts | app/builder/steps/Step1Name.tsx:110-113 | the filter is idempotent, its output needs no trim, and it changes a name exactly when the name has another character |
| NameStep.NameAfterInput | app/builder/steps/Step1Name.tsx:108-115 | in edit mode the field keeps the current name; otherwise it holds only word characters, at most 20 of them and no more than were typed, and a short enough name of word characters is kept as typed |
| NameStep.BeforeRequest | app/builder/steps/Step1Name.tsx:28-47 | nothing happens in edit mode; otherwise availability is false, and the status is idle exactly for a blank name and checking exactly for a valid trimmed name, otherwise invalid |
| NameStep.AfterReply | app/builder/steps/Step1Name.tsx:49-64 | the name is available exactly on a body with no error and `available` true; the status is available, taken or error accordingly |
| NameStep.FilteredNameStatus | app/builder/steps/Step1Name.tsx:32-47 | for a typed name the field holds at most 20 characters and the status is decided by length alone: idle when empty, invalid below 3, checking otherwise |
| NameStep.StaleReplyMarksUncheckedName | app/builder/steps/Step1Name.tsx:49-64 | as written, a reply for `abc` arriving after a rename to `abcd` marks `abcd` available unchecked |
| NameStep.CorrectedStaysJustified | app/builder/steps/Step1Name.tsx:49-64 | when a reply only counts for the current name, availability is always backed by a reply for that name |
| NameStep.CorrectedIgnoresStaleReply | app/builder/steps/Step1Name.tsx:49-64 | example: the corrected step ignores the stale reply of the finding's scenario |
| Persona.ReplaceLeavesNoBrace | app/builder/steps/Step2Persona.tsx:38-41 | replacing every `{name}` with brace-free text leaves no brace when all braces were placeholders |
| Persona.ApplyStarterFillsPlaceholders | app/builder/steps/Step2Persona.tsx:38-41 | applying a starter fills every placeholder, named or not |
| Persona.ApplyStarter | app/builder/steps/Step2Persona.tsx:38-41 | no contract of its own; Persona.ApplyStarterFillsPlaceholders states that no placeholder survives |
| Persona.PreviewStarter | app/builder/steps/Step2Persona.tsx:71 | no contract of its own; Persona.PreviewMatchesOnceNamed states it agrees with the applied text once a name is set |
| Persona.PreviewMatchesOnceNamed | app/builder/steps/Step2Persona.tsx:38-71 | once a name is set the preview equals the applied text |
| Persona.FallbacksDiffer | app/builder/steps/Step2Persona.tsx:40-71 | example: without a name the placeholder becomes `your agent` when applied but `YourAgent` in the preview |
| Persona.WarningsMatchGate | app/builder/steps/Step2Persona.tsx:34-36 | the step's gate opens exactly for non-empty text with neither warning; the warnings exclude each other and are both off for empty text |
| Persona.TooShort | app/builder/steps/Step2Persona.tsx:35 | no contract of its own; Persona.WarningsMatchGate relates it to the Persona gate |
| Persona.TooLong | app/builder/steps/Step2Persona.tsx:36 | no contract of its own; Persona.WarningsMatchGate relates it to the Persona gate |
| Capabilities.SynthesisShown | app/builder/steps/Step5Capabilities.tsx:13-14 | the shown interval is positive, and synthesis is on exactly when the stored value is that positive interval |
| Capabilities.ReplyOn | app/builder/steps/Step5Capabilities.tsx:11 | no contract of its own; Capabilities.Defaults and Capabilities.ToggleReply state its default and its toggle |
| Capabilities.ReplyMax | app/builder/steps/Step5Capabilities.tsx:12 | no contract of its own; Capabilities.Defaults and Capabilities.SetReplyMax state its default and its range |
| Capabilities.SynthesisOn | app/builder/steps/Step5Capabilities.tsx:13 | no contract of its own; Capabilities.SynthesisShown and Capabilities.ToggleSynthesis relate it to the shown interval and the toggle |
| Capabilities.CycleInterval | app/builder/steps/Step5Capabilities.tsx:15 | no contract of its own; Capabilities.Defaults and Capabilities.SetCycleInterval state its default and its range |
| Capabilities.WebSearchOn | app/builder/steps/Step5Capabilities.tsx:16 | no contract of its own; Capabilities.PlaceholderKeyIsOff and Capabilities.ToggleWebSearchOnlyReveals state when a key turns it on |
| Capabilities.KeyFieldShown | app/builder/steps/Step5Capabilities.tsx:254 | no contract of its own; Capabilities.ToggleWebSearchOnlyReveals and Capabilities.PlaceholderKeyIsOff state when the field shows |
| Capabilities.ToggleReply | app/builder/steps/Step5Capabilities.tsx:116-120 | the toggle flips replying and changes no other field |
| Capabilities.ToggleSynthesis | app/builder/steps/Step5Capabilities.tsx:166-170 | the toggle flips synthesis and changes no other field |
| Capabilities.ToggleWebSearch | app/builder/steps/Step5Capabilities.tsx:232-236 | the toggle changes only the Tavily key |
| Capabilities.Clamp | app/builder/steps/Step5Capabilities.tsx:146 | the clamp lands in range, keeps in-range values and sends others to the nearer bound |
| Capabilities.ClampIdempotent | app/builder/steps/Step5Capabilities.tsx:146 | clamping twice is clamping once |
| Capabilities.SetReplyMax | app/builder/steps/Step5Capabilities.tsx:146 | the stored maximum is in 1-5, equals the typed value when that is in range, and no other field changes |
| Capabilities.SetSynthesisEvery | app/builder/steps/Step5Capabilities.tsx:197 | the stored interval is in 2-10, equals the typed value when that is in range, and no other field changes |
| Capabilities.SetCycleInterval | app/builder/steps/Step5Capabilities.tsx:211 | the stored interval is in 1-8, equals the typed value when that is in range, and no other field changes |
| Capabilities.InputsStayInRange | app/builder/steps/Step5Capabilities.tsx:146-211 | the three inputs store values in 1-5, 2-10 and 1-8, and the synthesis input leaves synthesis on |
| Capabilities.Defaults | app/builder/steps/Step5Capabilities.tsx:11-16 | with nothing stored: replies on at 2, a 2-hour cycle, synthesis off (3 when turned on), no search and no key field |
| Capabilities.ToggleReplyTwice | app/builder/steps/Step5Capabilities.tsx:116-120 | two reply toggles restore the setting |
| Capabilities.ToggleSynthesisTwice | app/builder/steps/Step5Capabilities.tsx:166-170 | off and on again turns synthesis on at 3, losing the earlier interval |
| Capabilities.ToggleWebSearchOnlyReveals | app/builder/steps/Step5Capabilities.tsx:232-254 | from off the switch keeps the key text and shows the field without turning search on; from on it clears the key |
| Capabilities.PlaceholderKeyIsOff | app/builder/steps/Step5Capabilities.tsx:16 | a key starting with `<` leaves search off but shows the field |
| KeywordTags.NormalizeTag | components/KeywordTagInput.tsx:23 | the normalised tag is trimmed and lower case |
| KeywordTags.NormalizeEmpty | components/KeywordTagInput.tsx:23-24 | a tag normalises to empty exactly when it is all whitespace |
| KeywordTags.AddTag | components/KeywordTagInput.tsx:22-27 | the list grows by at most one and only at the end; it grows exactly when the normalised tag is non-empty, new and under the maximum, and the new entry is that tag |
| KeywordTags.AddTagKeepsGood | components/KeywordTagInput.tsx:24-25 | adding keeps the list duplicate-free, non-empty-tagged and within the maximum |
| KeywordTags.NormalizeIdempotent | components/KeywordTagInput.tsx:23 | normalising twice is normalising once |
| KeywordTags.AddTagIdempotent | components/KeywordTagInput.tsx:22-27 | adding the same text twice is adding it once |
| KeywordTags.RemoveTag | components/KeywordTagInput.tsx:29-31 | a tag is kept exactly when it was there and differs from the removed one; the removed tag is gone and the list does not grow |
| KeywordTags.RemoveUndoesAdd | components/KeywordTagInput.tsx:22-31 | removing a tag just added restores the list |
| KeywordTags.RemoveTagKeepsGood | components/KeywordTagInput.tsx:29-31 | removing keeps the list's invariant |
| KeywordTags.Backspace | components/KeywordTagInput.tsx:37-38 | no contract of its own; KeywordTags.BackspaceDropsLast states that it drops exactly the last tag |
| KeywordTags.BackspaceDropsLast | components/KeywordTagInput.tsx:37-38 | Backspace on empty input drops exactly the last tag of a good list |
| Lists.Without | components/KeywordTagInput.tsx:30 | the filter keeps exactly the entries different from the value, and shrinks when the value was present |
| Lists.WithoutConcat | components/KeywordTagInput.tsx:30 | the filter distributes over concatenation, so it keeps order |
| Lists.WithoutKeepsNoDuplicates | components/SubmoltSelector.tsx:53 | filtering a duplicate-free list keeps it duplicate-free |
| Lists.RemoveAt | components/VoiceRulesList.tsx:103-107 | removing index k shifts the later entries down by one and keeps the rest; an index out of range changes nothing |
| Lists.ReplaceAt | components/VoiceRulesList.tsx:97-101 | replacing index k changes only that entry |
| Lists.IndexOf | components/VoiceRulesList.tsx:90-91 | the index is the first occurrence, or -1 exactly when absent |
| Lists.ArrayMoveIsPermutation | components/VoiceRulesList.tsx:93-94 | the move takes each slot from a computed source and keeps the multiset |
| Lists.ArrayMoveBack | components/VoiceRulesList.tsx:93-94 | moving back from the target to the source restores the list |
| Submolts.Toggle | components/SubmoltSelector.tsx:51-57 | a selected name is removed and every other selected name stays; an unselected one is appended below the maximum and ignored at it |
| Submolts.ToggleTwiceRestores | components/SubmoltSelector.tsx:51-57 | toggling an unselected name twice below the maximum restores the selection |
| Submolts.ToggleKeepsInvariant | components/SubmoltSelector.tsx:51-57 | toggling keeps the selection duplicate-free and within the maximum |
| Submolts.AddCustom | components/SubmoltSelector.tsx:59-65 | a normalised, new, non-empty name is appended below the maximum and added to the known names when missing; otherwise nothing changes |
| Submolts.ListedName | components/SubmoltSelector.tsx:43 | no contract of its own; Submolts.ListingNames and Submolts.EmptyNameHidesSlug state how it picks the shown name |
| Submolts.ListingNames | components/SubmoltSelector.tsx:42-44 | a name is listed exactly when it is non-empty and is some entry's `name ?? slug ?? id`; no more names than entries |
| Submolts.ListingNamesConcat | components/SubmoltSelector.tsx:42-44 | the names distribute over concatenation of listings, so they keep listing order |
| Submolts.AfterListing | components/SubmoltSelector.tsx:42-45 | a listing with names replaces the known names; a failed or empty one keeps them |
| Submolts.KnownNamesNeverEmpty | components/SubmoltSelector.tsx:17-45 | starting from the fallback list, the known names never become empty |
| Submolts.EmptyNameHidesSlug | components/SubmoltSelector.tsx:43 | an empty `name` is not nullish, so it hides the slug and the entry is dropped |
| VoiceRules.Initial | components/VoiceRulesList.tsx:83-84 | the editor starts aligned, with ids `0`, `1`, … |
| VoiceRules.UpdateRule | components/VoiceRulesList.tsx:97-101 | an update changes only rule i and none of the ids |
| VoiceRules.RemoveRule | components/VoiceRulesList.tsx:103-107 | removing index i drops it from rules and ids alike, keeping the rest in order |
| VoiceRules.AddRule | components/VoiceRulesList.tsx:109-114 | at ten rules nothing happens; below, an empty rule and the clock's id are appended |
| VoiceRules.CanRemove | components/VoiceRulesList.tsx:132 | no contract of its own; VoiceRules.RuleCountBounds shows an allowed remove leaves a rule |
| VoiceRules.DragEnd | components/VoiceRulesList.tsx:86-95 | the rules and ids stay aligned; VoiceRules.DragKeepsPairs and VoiceRules.DragBackUndoes state what the move does |
| VoiceRules.DragKeepsPairs | components/VoiceRulesList.tsx:86-95 | a drag permutes the (rule, id) pairs and moves the dragged pair to the target's index |
| VoiceRules.DragBackUndoes | components/VoiceRulesList.tsx:86-95 | dragging the rule back onto the id now at its old place restores the editor |
| VoiceRules.EditsKeepAlignment | components/VoiceRulesList.tsx:97-114 | update, remove and add keep rules and ids the same length |
| VoiceRules.RuleCountBounds | components/VoiceRulesList.tsx:109-132 | adding never exceeds ten rules, and a remove the button allows leaves at least one |
| ExamplesStep.AddExample | app/builder/steps/Step3Voice.tsx:15-20 | the list grows by at most one at the end, exactly when the trimmed draft is non-empty, at most 200 long and there are fewer than five; the new entry is the trimmed draft |
| ExamplesStep.RemoveExample | app/builder/steps/Step3Voice.tsx:22-27 | removing an existing index drops exactly that example, one fewer and the others kept as a multiset; any other index changes nothing |
| ExamplesStep.EditExample | app/builder/steps/Step3Voice.tsx:62-69 | the stored text is the typed one cut to 200 characters (kept whole when it fits) and the list keeps its length |
| ExamplesStep.EditsKeepSchema | app/builder/steps/Step3Voice.tsx:15-69 | add, remove and an edit within 200 characters keep the list within the schema |
| ExamplesStep.AddedIsCleanEditedNeedNotBe | app/builder/steps/Step3Voice.tsx:15-67 | an added example is trimmed and non-empty, while an edit may store a blank one |
| ExamplesStep.RemoveUndoesAdd | app/builder/steps/Step3Voice.tsx:15-27 | removing the example just added restores the list |
| ExamplesStep.EditTouchesOne | app/builder/steps/Step3Voice.tsx:64-67 | an edit replaces exactly entry i |
| AgentDetail.LastFour | components/AgentDetailPanel.tsx:47 | the visible tail is the last min(length, 4) characters |
| AgentDetail.MaskValue | components/AgentDetailPanel.tsx:45-51 | a non-empty Moltbook key shows as eight bullets and its tail; anything else is unchanged |
| AgentDetail.MaskRevealsOnlyTail | components/AgentDetailPanel.tsx:45-51 | keys with the same last four characters mask alike, and a key over four characters never shows in full |
| AgentDetail.PanelShowsMoreThanTable | components/AgentDetailPanel.tsx:45-51 | for the same Moltbook key the table shows only bullets while the panel shows the tail |
| AgentDetail.RowValue | components/AgentDetailPanel.tsx:284-335 | the Anthropic placeholder shows as the hint, plain empty values as a dash, others verbatim; never empty |
| AgentDetail.RowsOfBuiltMap | components/AgentDetailPanel.tsx:284-335 | on a built map without a caller key the Anthropic row is the hint; the Moltbook row is a dash without a key and bullets plus its tail with one |
| AgentDetail.RawLines | components/AgentDetailPanel.tsx:54-55 | one line per entry, each starting with its key and `=`; AgentDetail.RawDumpReadBack states what the lines hold |
| AgentDetail.EnvToEnvFile | components/AgentDetailPanel.tsx:53-57 | no contract of its own; AgentDetail.RawDumpReadBack, AgentDetail.PlainDumpIsCopyAll and AgentDetail.MultiLineValueSpills state what the dump holds |
| AgentDetail.RawDumpReadBack | components/AgentDetailPanel.tsx:53-57 | with no LF in keys or values and no `=` in keys, the dump splits on LF into the raw lines, and each line cut at its first `=` gives the key and the value unchanged, quotes, spaces and `#` included |
| AgentDetail.PlainDumpIsCopyAll | components/AgentDetailPanel.tsx:53-57 | when no value needs quoting the dump equals the table's copy-all text |
| AgentDetail.MultiLineValueSpills | components/AgentDetailPanel.tsx:53-57 | a value with a line feed makes the dump longer than one line per entry, while copy-all stays at one |
| AgentDetail.AgentEnvFileSpills | components/AgentDetailPanel.tsx:53-57 | an agent with two or more rules dumps more than fourteen lines |
| AgentDetail.SummaryDash | components/AgentDetailPanel.tsx:232-241 | for non-empty items the dash shows exactly for no items or the single item `—` |
| AgentDetail.Summary | components/AgentDetailPanel.tsx:232-241 | the shown summary is never empty; AgentDetail.SummaryDash states when it is the dash |
| AgentDetail.HighKeywordSummary | components/AgentDetailPanel.tsx:40 | no contract of its own; AgentDetail.HighSummaryFirstFive states that only the first five keywords count |
| AgentDetail.SubmoltSummary | components/AgentDetailPanel.tsx:41 | no contract of its own; AgentDetail.SummaryDash states when it shows the dash |
| AgentDetail.HighSummaryFirstFive | components/AgentDetailPanel.tsx:40 | keywords after the fifth do not change the summary |
| AgentDetail.RuleCountLabel | components/AgentDetailPanel.tsx:237 | the label ends in `s` exactly when the count is not one |
| AgentDetail.RuleCountReadsBack | components/AgentDetailPanel.tsx:237 | the label's first word reads back as the count |
| AgentCard.Truncate | components/AgentCard.tsx:39-41 | the result keeps the first 150 characters and is at most 151 long; it differs from the input exactly when the input is longer than 150 and is not a 151-character text already ending in `…` (that one comes out unchanged, as the code's cut-and-append rebuilds it); a changed result is 151 long and ends in `…` |
| AgentCard.TruncateIdempotent | components/AgentCard.tsx:39-41 | truncating twice is truncating once |
| AgentCard.ShownSubmolts | components/AgentCard.tsx:42 | the pills are the first min(n, 4) submolts in order |
| AgentCard.CardHidesAtMostOne | components/AgentCard.tsx:42 | with at most five submolts, at most one is hidden, and none exactly when there are at most four |
| AgentCard.KeywordCount | components/AgentCard.tsx:43 | no contract of its own; AgentCard.KeywordCountSteps bounds how adding a tag moves it |
| AgentCard.KeywordCountSteps | components/AgentCard.tsx:43 | adding a tag moves the count by at most one, and lists within the tag limit count at most thirty |
| AgentCard.DaysSince | components/AgentCard.tsx:29-33 | the age is the whole number of days elapsed, or 0 for a future creation time |
| AgentCard.DaysSinceMonotone | components/AgentCard.tsx:29-33 | the age never decreases as time passes |
| AgentCard.AgeLabel | components/AgentCard.tsx:256 | the label has at least two characters; AgentCard.AgeLabelReadsBack states it reads back as the age |
| AgentCard.AgeLabelReadsBack | components/AgentCard.tsx:256 | the label is `today` exactly within the first day, and otherwise reads back as the day count followed by `d` |

## Left out

- I/O and browser plumbing.
  - `localStorage`, JSON encoding and `typeof window` become the `Slot`
    value and a flag.
  - A stored value that parses to JSON other than an array is not modelled;
    the slot either holds a list or is unreadable.
  - `lib/railwayStorage.ts` is not part of this model.
- The clock and randomness.
  - `Date.now()`, the ISO creation date and the `Math.random` id suffix are
    parameters, and dates are milliseconds since the epoch.
  - Id uniqueness is not guaranteed by the code, so it appears only as a
    precondition (`DeleteUndoesSave`).
  - An invalid ISO date, which makes `daysSince` NaN, is not modelled.
- Network requests.
  - The API routes (`app/api/*`) are out of scope.
  - The availability check, the submolt listing and the registration are
    modelled only through their outcomes: `Reply` and the listing `Option`.
  - The Register, Preview and Deploy steps and the pure-UI components are
    left out, since they only wire requests and render.
- Registry features that the builder page refers to but
  `lib/agentStorage.ts` does not define (`savePendingAgent` at
  app/builder/page.tsx:14, `railwayConfig` at lines 65 and 78). They are
  left out.
- Numbers.
  - The clamps take integers; `Number()` of arbitrary text, NaN and
    fractions are left out.
  - The rate limiter's `maxRequests <= 0` is modelled as written: the first
    call in a window is still allowed. The per-window bound is stated for a
    maximum of at least one.
- Text.
  - Case mapping is ASCII only.
  - Lengths count code points rather than UTF-16 units.
  - JavaScript's `trim` whitespace set is modelled exactly.
- `arrayMove` from dnd-kit is a library call. It is modelled as remove
  then insert, which is its documented behaviour.
- Concurrency between tabs or server instances is out of scope; every model
  is sequential.
- The `?? []` and `?? ''` fallbacks on lists that the configuration record
  always holds are moot in the model, because the lists are never missing.

## Findings

| source | as written | input that shows it | evidently intended | confidence | as-written member | corrected member |
|---|---|---|---|---|---|---|
| app/builder/steps/Step1Name.tsx:49-64 | the availability reply sets the flag whichever name it was requested for, and `handleSetConfig` (app/builder/page.tsx:98-101) clears it only on the rename itself | the check for `abc` is in flight; the user types on to `abcd`; the reply for `abc` (available) arrives before the debounced check of `abcd` starts, or after its reply; `abcd` is then marked available and Continue opens without `abcd` having been confirmed | a reply only counts when it is for the current name | not executed | NameStep.StaleReplyMarksUncheckedName | NameStep.CorrectedStaysJustified |

=== FILE: agentcard.dfy ===
/** The card of a saved agent on the dashboard (components/AgentCard.tsx):
    the shortened description, the submolt pills, the keyword count and the
    age. Both timestamps are milliseconds since the epoch. */
module AgentCard {
  import opened Text
  import opened Character
  import opened Submolts
  import opened KeywordTags

  const MaxDescription: nat := 150
  const MaxPills: nat := 4
  const MsPerDay: nat := 86400000


  /** `truncDesc`: a description longer than 150 characters is cut to its
      first 150 and given an ellipsis. A description of exactly 151
      characters that already ends in the ellipsis comes out unchanged. */
  function Truncate(d: string): (r: string)
    ensures |r| <= MaxDescription + 1
    ensures StartsWith(r, d[..Min(|d|, MaxDescription)])
    ensures r == d <==> |d| <= MaxDescription || (|d| == MaxDescription + 1 && d[MaxDescription] == '…')
    ensures r != d ==> |r| == MaxDescription + 1 && r[MaxDescription] == '…'
  {
    if |d| > MaxDescription then d[..MaxDescription] + "…" else d
  }

  /** A shortened description is left alone by a second shortening. */
  lemma TruncateIdempotent(d: string)
    ensures Truncate(Truncate(d)) == Truncate(d)
  {
  }

  /** `submolts`: the pills show the first four target submolts, in order. */
  function ShownSubmolts(xs: seq<string>): (r: seq<string>)
    ensures |r| == Min(|xs|, MaxPills)
    ensures forall i :: 0 <= i < |r| ==> r[i] == xs[i]
  {
    xs[..Min(|xs|, MaxPills)]
  }

  /** The builder selects at most five submolts, so a card leaves out at
      most one of them; and only past four does it leave any out. */
  lemma CardHidesAtMostOne(xs: seq<string>)
    requires |xs| <= DefaultMaxSelections
    ensures |xs| - |ShownSubmolts(xs)| <= 1
    ensures ShownSubmolts(xs) == xs <==> |xs| <= MaxPills
  {
  }

  /** `kwCount`: high- and medium-priority keywords together. */
  function KeywordCount(c: CharacterConfig): nat {
    |c.keywordsHigh| + |c.keywordsMedium|
  }

  /** Adding a tag in either list moves the count by at most one, and lists
      kept within the default tag limit count at most thirty. */
  lemma KeywordCountSteps(c: CharacterConfig, value: string)
    ensures var h := c.(keywordsHigh := AddTag(c.keywordsHigh, value, DefaultMaxTags));
      KeywordCount(c) <= KeywordCount(h) <= KeywordCount(c) + 1
    ensures var m := c.(keywordsMedium := AddTag(c.keywordsMedium, value, DefaultMaxTags));
      KeywordCount(c) <= KeywordCount(m) <= KeywordCount(c) + 1
    ensures Good(c.keywordsHigh, DefaultMaxTags) && Good(c.keywordsMedium, DefaultMaxTags) ==>
      KeywordCount(c) <= 2 * DefaultMaxTags
  {
  }

  /** `daysSince`: whole days since creation, never negative. */
  function DaysSince(nowMs: int, createdMs: int): (r: nat)
    ensures nowMs <= createdMs ==> r == 0
    ensures nowMs >= createdMs ==> r * MsPerDay <= nowMs - createdMs < (r + 1) * MsPerDay
  {
    if nowMs - createdMs < 0 then 0 else (nowMs - createdMs) / MsPerDay
  }

  /** The age never goes backwards as the clock moves on. */
  lemma DaysSinceMonotone(now1: int, now2: int, createdMs: int)
    requires now1 <= now2
    ensures DaysSince(now1, createdMs) <= DaysSince(now2, createdMs)
  {
  }

  /** The age pill: `today`, or the day count followed by `d`. */
  function AgeLabel(age: nat): (r: string)
    ensures |r| >= 2
  {
    if age == 0 then "today" else NatToString(age) + "d"
  }

  /** The card reads `today` exactly within the first day after creation
      (or for a creation time in the future); otherwise the label reads back
      as the day count. */
  lemma AgeLabelReadsBack(nowMs: int, createdMs: int)
    ensures var r := AgeLabel(DaysSince(nowMs, createdMs));
      r == "today" <==> nowMs - createdMs < MsPerDay
    ensures var age := DaysSince(nowMs, createdMs); var r := AgeLabel(age);
      age > 0 ==> r[|r| - 1] == 'd' && ParseNat(r[..|r| - 1]) == age
  {
    var age := DaysSince(nowMs, createdMs);
    var r := AgeLabel(age);
    if age > 0 {
      assert r[..|r| - 1] == NatToString(age);
      ParseNatToString(age);
      assert r != "today" by { assert r[|r| - 1] == 'd'; }
    }
  }
}

=== FILE: agentdetail.dfy ===
/** The detail panel of a saved agent (components/AgentDetailPanel.tsx): the
    masked key, the unescaped `.env` dump, the value column of its variable
    list, and the summaries of keywords, submolts and rules. */
module AgentDetail {
  import opened Text
  import opened Optional
  import opened Character
  import opened EnvVars
  import opened EnvVarTable

  /** The eight bullets that hide the Moltbook key. */
  const Bullets: string := "••••••••"

  /** `value.slice(-4)`: the last four characters, or the whole of a
      shorter value. */
  function LastFour(v: string): (r: string)
    ensures |r| == Min(|v|, 4) && EndsWith(v, r)
  {
    if |v| <= 4 then v else v[|v| - 4..]
  }

  /** `maskValue(key, value)`: a non-empty Moltbook key shows as eight
      bullets and its last four characters; everything else is unchanged. */
  function MaskValue(key: string, v: string): (r: string)
    ensures key == "MOLTBOOK_API_KEY" && v != "" ==>
      |r| == |Bullets| + Min(|v|, 4) && StartsWith(r, Bullets) && EndsWith(v, r[|Bullets|..])
    ensures key != "MOLTBOOK_API_KEY" || v == "" ==> r == v
  {
    if key == "MOLTBOOK_API_KEY" && v != "" then Bullets + LastFour(v) else v
  }

  /** The mask reveals nothing but the tail: two keys that end alike mask
      alike, whatever comes before; and a key of more than four characters
      never shows in full. */
  lemma MaskRevealsOnlyTail(a: string, b: string)
    requires |a| >= 4 && |b| >= 4 && a[|a| - 4..] == b[|b| - 4..]
    ensures MaskValue("MOLTBOOK_API_KEY", a) == MaskValue("MOLTBOOK_API_KEY", b)
    ensures |a| > 4 ==> MaskValue("MOLTBOOK_API_KEY", a)[|Bullets|..] != a
  {
    assert a != "" && b != "";
  }

  /** The panel masks where the variable table hides: for the same
      non-empty, non-placeholder Moltbook key the table shows bullets only,
      while the panel shows the last four characters after its bullets. */
  lemma PanelShowsMoreThanTable(v: string)
    requires !IsEmptyValue(v)
    ensures var t := DisplayValue("MOLTBOOK_API_KEY", v);
      forall i :: 0 <= i < |t| ==> t[i] == '•'
    ensures MaskValue("MOLTBOOK_API_KEY", v)[|Bullets|..] == LastFour(v)
  {
  }

  /** The value column of one variable: the Anthropic placeholder reads as
      a hint to set the key, the Moltbook key is masked, and an empty value
      shows as a dash. */
  function RowValue(key: string, v: string): (r: string)
    ensures r != ""
    ensures key == "ANTHROPIC_API_KEY" && v == AnthropicKeyPlaceholder ==>
      r == "⟨set your Anthropic API key here⟩"
    ensures key != "ANTHROPIC_API_KEY" && key != "MOLTBOOK_API_KEY" ==>
      (v == "" ==> r == "—") && (v != "" ==> r == v)
  {
    if key == "ANTHROPIC_API_KEY" && v == AnthropicKeyPlaceholder then "⟨set your Anthropic API key here⟩"
    else
      var shown := if key == "MOLTBOOK_API_KEY" then MaskValue(key, v) else v;
      if shown == "" then "—" else shown
  }

  /** On a freshly built map: without a caller key the Anthropic row shows
      the hint; without a registered key the Moltbook row shows a dash, and
      with one it shows bullets and the key's tail. */
  lemma RowsOfBuiltMap(c: CharacterConfig, userApiKey: Option<string>)
    ensures var m := BuildEnvVars(c, userApiKey);
      && (userApiKey.None? ==> RowValue("ANTHROPIC_API_KEY", m.anthropicApiKey) == "⟨set your Anthropic API key here⟩")
      && (c.moltbookApiKey.GetOr("") == "" ==> RowValue("MOLTBOOK_API_KEY", m.moltbookApiKey) == "—")
      && (c.moltbookApiKey.GetOr("") != "" ==>
            RowValue("MOLTBOOK_API_KEY", m.moltbookApiKey) == Bullets + LastFour(c.moltbookApiKey.value))
  {
  }

  // ---- the .env dump ----------------------------------------------------------

  /** The lines of `envToEnvFile`: `key=value`, with no quoting or escaping. */
  function RawLines(es: seq<(string, string)>): (ls: seq<string>)
    ensures |ls| == |es|
    ensures forall i :: 0 <= i < |es| ==> StartsWith(ls[i], es[i].0 + "=")
  {
    seq(|es|, i requires 0 <= i < |es| => es[i].0 + "=" + es[i].1)
  }

  /** `envToEnvFile`: the raw lines joined by LF, in entry order. */
  function EnvToEnvFile(es: seq<(string, string)>): string {
    Join(RawLines(es), "\n")
  }

  /** Where no value needs quoting, the panel's dump and the table's "copy
      all" are the same text. */
  lemma PlainDumpIsCopyAll(es: seq<(string, string)>)
    requires forall i :: 0 <= i < |es| ==> !NeedsQuoting(es[i].1)
    ensures EnvToEnvFile(es) == CopyAll(es)
  {
    assert RawLines(es) == EnvLines(es);
  }

  /** Read-back of the dump: where no key or value holds a line feed and no
      key holds `=`, the dump splits back into the raw lines, and cutting
      each line at its first `=` gives the variable's key and its value
      exactly as stored, quotes, spaces and `#` included. */
  lemma RawDumpReadBack(es: seq<(string, string)>)
    requires |es| >= 1
    requires forall i :: 0 <= i < |es| ==> '\n' !in es[i].0 && '=' !in es[i].0 && '\n' !in es[i].1
    ensures Split(EnvToEnvFile(es), '\n') == RawLines(es)
    ensures forall i :: 0 <= i < |es| ==>
      '=' in RawLines(es)[i] &&
      RawLines(es)[i][..FirstIndex(RawLines(es)[i], '=')] == es[i].0 &&
      RawLines(es)[i][FirstIndex(RawLines(es)[i], '=') + 1..] == es[i].1
  {
    var ls := RawLines(es);
    forall i | 0 <= i < |es|
      ensures '\n' !in ls[i]
      ensures '=' in ls[i] && ls[i][..FirstIndex(ls[i], '=')] == es[i].0
      ensures ls[i][FirstIndex(ls[i], '=') + 1..] == es[i].1
    {
      assert ls[i] == es[i].0 + "=" + es[i].1;
      FirstIndexAfter(es[i].0, es[i].1);
      assert ls[i][..|es[i].0|] == es[i].0;
      assert ls[i][|es[i].0| + 1..] == es[i].1;
    }
    SplitJoin(ls, '\n');
  }

  /** A value holding a line feed spills over: the dump has more lines than
      there are variables, while "copy all" keeps one line per variable. */
  lemma {:induction false} MultiLineValueSpills(es: seq<(string, string)>)
    requires |es| >= 1
    requires forall i :: 0 <= i < |es| ==> '\n' !in es[i].0 && '=' !in es[i].0
    requires exists i :: 0 <= i < |es| && '\n' in es[i].1
    ensures |Split(EnvToEnvFile(es), '\n')| > |es|
    ensures |Split(CopyAll(es), '\n')| == |es|
  {
    var ls := RawLines(es);
    var i :| 0 <= i < |es| && '\n' in es[i].1;
    assert ls[i] == es[i].0 + "=" + es[i].1;
    assert '\n' in ls[i];
    JoinCount(ls, '\n');
    SplitCount(EnvToEnvFile(es), '\n');
    CopyAllReadBack(es);
  }

  /** The dump of an agent's variables, in the order they were built. */
  function AgentEnvFile(m: EnvVarMap): string {
    EnvToEnvFile(Entries(m))
  }

  /** A stored map with two or more voice rules, which are joined by line
      feeds, makes a dump of more than fourteen lines. */
  lemma AgentEnvFileSpills(c: CharacterConfig, userApiKey: Option<string>)
    requires |c.voiceRules| >= 2
    ensures |Split(AgentEnvFile(BuildEnvVars(c, userApiKey)), '\n')| > 14
  {
    var m := BuildEnvVars(c, userApiKey);
    var es := Entries(m);
    KeyNamesPlain();
    assert es[5].1 == m.agentVoiceRules == Join(c.voiceRules, "\n");
    assert m.agentVoiceRules[|c.voiceRules[0]|] == '\n';
    MultiLineValueSpills(es);
  }

  // ---- summaries --------------------------------------------------------------

  /** A list joined by `", "`, or a dash when that comes out empty. */
  function Summary(xs: seq<string>): (r: string)
    ensures r != ""
  {
    var j := Join(xs, ", ");
    if j == "" then "—" else j
  }

  /** For a list of non-empty items, the dash shows exactly when the list is
      empty or is the single item `—`. */
  lemma SummaryDash(xs: seq<string>)
    requires forall i :: 0 <= i < |xs| ==> xs[i] != ""
    ensures Summary(xs) == "—" <==> |xs| == 0 || xs == ["—"]
  {
    JoinEmpty(xs, ", ");
    if |xs| > 1 {
      assert |Join(xs, ", ")| >= |xs[0]| + 2;
    }
  }

  /** `highKwDisplay`: the first five high-priority keywords. */
  function HighKeywordSummary(c: CharacterConfig): string {
    Summary(c.keywordsHigh[..Min(|c.keywordsHigh|, 5)])
  }

  /** `submoltsDisplay`: every target submolt. */
  function SubmoltSummary(c: CharacterConfig): string {
    Summary(c.targetSubmolts)
  }

  /** Keywords past the fifth never reach the summary, so the panel shows
      the same line however many keywords follow. */
  lemma HighSummaryFirstFive(c: CharacterConfig, more: seq<string>)
    requires |c.keywordsHigh| >= 5
    ensures HighKeywordSummary(c.(keywordsHigh := c.keywordsHigh + more)) == HighKeywordSummary(c)
  {
    assert (c.keywordsHigh + more)[..5] == c.keywordsHigh[..5];
  }

  /** `` `${n} rule${n !== 1 ? 's' : ''}` ``. */
  function RuleCountLabel(n: nat): (r: string)
    ensures |r| > 0 && (r[|r| - 1] == 's' <==> n != 1)
  {
    NatToString(n) + " rule" + (if n != 1 then "s" else "")
  }

  /** The label reads back: its first word is the count in decimal. */
  lemma RuleCountReadsBack(n: nat)
    ensures ' ' in RuleCountLabel(n)
    ensures var r := RuleCountLabel(n); ParseNat(r[..FirstIndex(r, ' ')]) == n
  {
    var d := NatToString(n);
    var r := RuleCountLabel(n);
    assert r[|d|] == ' ';
    assert ' ' !in d;
    assert r[..|d|] == d;
    ParseNatToString(n);
  }
}

=== FILE: agentstorage.dfy ===
/** The browser-side agent registry (lib/agentStorage.ts): a list of saved
    agents kept under one storage key, appended to on save and filtered on
    delete. The clock, the random id suffix and the storage slot are
    parameters. */
module AgentStorage {
  import opened Text
  import opened Character
  import opened EnvVars

  datatype StoredAgent = StoredAgent(
    id: string,
    createdAt: string,
    name: string,
    description: string,
    config: CharacterConfig,
    envVars: EnvVarMap,
    accentColor: string,
    sigil: string)

  /** `ACCENT_COLORS`, assigned round-robin. */
  const Palette: seq<string> := ["amber", "teal", "violet", "rust", "slate", "bone"]

  /** The storage slot as `getAgents` finds it: nothing stored (or an empty
      string), text that does not parse, or a stored list. */
  datatype Slot = Missing | Unparsable | Holds(agents: seq<StoredAgent>)

  /** `getAgents`: the stored list, and the empty list whenever there is no
      browser window, nothing stored, or the stored text does not parse. */
  function GetAgents(hasWindow: bool, slot: Slot): (r: seq<StoredAgent>)
    ensures !hasWindow || !slot.Holds? ==> r == []
    ensures hasWindow && slot.Holds? ==> r == slot.agents
  {
    if !hasWindow then []
    else match slot
      case Holds(agents) => agents
      case _ => []
  }

  /** The id `agent_<milliseconds>_<random suffix>`: the clock reading
      reads back from the digits between the prefix and the suffix. */
  function AgentId(nowMs: nat, suffix: string): (r: string)
    ensures StartsWith(r, "agent_") && EndsWith(r, "_" + suffix)
    ensures |r| >= 8 + |suffix| && ParseNat(r[6..|r| - |suffix| - 1]) == nowMs
  {
    var digits := NatToString(nowMs);
    var id := "agent_" + digits + "_" + suffix;
    assert id[6..|id| - |suffix| - 1] == digits;
    ParseNatToString(nowMs);
    id
  }

  /** The sigil: the first character of the name, upper-cased; empty for an
      empty name. */
  function Sigil(name: string): (s: string)
    ensures |s| == if name == "" then 0 else 1
    ensures name != "" ==> s[0] == UpperChar(name[0])
  {
    if name == "" then "" else Upper(name[..1])
  }

  /** `saveAgent`: returns the slot's new contents and the new record. Only
      runs in a browser, so the slot is read as `getAgents` would there. */
  function SaveAgent(slot: Slot, config: CharacterConfig, envVars: EnvVarMap,
                     nowMs: nat, suffix: string, createdAt: string): (r: (Slot, StoredAgent))
    ensures r.0 == Holds(GetAgents(true, slot) + [r.1])
    ensures r.1.accentColor in Palette
    ensures r.1.accentColor == Palette[|GetAgents(true, slot)| % |Palette|]
    ensures r.1.name == config.name && r.1.description == config.description
    ensures r.1.config == config && r.1.envVars == envVars
    ensures r.1.sigil == Sigil(config.name)
  {
    var existing := GetAgents(true, slot);
    var agent := StoredAgent(
      id := AgentId(nowMs, suffix),
      createdAt := createdAt,
      name := config.name,
      description := config.description,
      config := config,
      envVars := envVars,
      accentColor := Palette[|existing| % |Palette|],
      sigil := Sigil(config.name));
    (Holds(existing + [agent]), agent)
  }

  /** `filter(a => a.id !== id)`. */
  function WithoutId(xs: seq<StoredAgent>, id: string): (r: seq<StoredAgent>)
    ensures |r| <= |xs|
    ensures forall i :: 0 <= i < |r| ==> r[i].id != id && r[i] in xs
    ensures forall i :: 0 <= i < |xs| && xs[i].id != id ==> xs[i] in r
  {
    if |xs| == 0 then []
    else if xs[0].id == id then WithoutId(xs[1..], id)
    else [xs[0]] + WithoutId(xs[1..], id)
  }

  /** `deleteAgent`: the slot afterwards holds the current list without the
      records carrying `id`. */
  function DeleteAgent(slot: Slot, id: string): (r: Slot)
    ensures r.Holds?
    ensures forall i :: 0 <= i < |r.agents| ==> r.agents[i].id != id
    ensures forall a :: a in r.agents <==> a in GetAgents(true, slot) && a.id != id
    ensures !HasId(GetAgents(true, slot), id) ==> r.agents == GetAgents(true, slot)
  {
    var agents := GetAgents(true, slot);
    if HasId(agents, id) then Holds(WithoutId(agents, id))
    else
      WithoutIdKeeps(agents, id);
      Holds(WithoutId(agents, id))
  }

  predicate HasId(xs: seq<StoredAgent>, id: string) {
    exists i :: 0 <= i < |xs| && xs[i].id == id
  }

  /** The filter keeps order: it distributes over concatenation. */
  lemma {:induction false} WithoutIdConcat(a: seq<StoredAgent>, b: seq<StoredAgent>, id: string)
    ensures WithoutId(a + b, id) == WithoutId(a, id) + WithoutId(b, id)
  {
    if |a| > 0 {
      assert (a + b)[1..] == a[1..] + b;
      WithoutIdConcat(a[1..], b, id);
    } else {
      assert a + b == b;
    }
  }

  /** Deleting an id nobody carries changes nothing, and only then. */
  lemma WithoutIdAbsent(xs: seq<StoredAgent>, id: string)
    ensures WithoutId(xs, id) == xs <==> !HasId(xs, id)
  {
    if HasId(xs, id) {
      WithoutIdShrinks(xs, id);
    } else {
      WithoutIdKeeps(xs, id);
    }
  }

  lemma {:induction false} WithoutIdKeeps(xs: seq<StoredAgent>, id: string)
    requires !HasId(xs, id)
    ensures WithoutId(xs, id) == xs
  {
    if |xs| > 0 {
      var tail := xs[1..];
      HasIdCons(xs, id);
      WithoutIdKeeps(tail, id);
      assert xs == [xs[0]] + tail;
    }
  }

  lemma {:induction false} WithoutIdShrinks(xs: seq<StoredAgent>, id: string)
    requires HasId(xs, id)
    ensures |WithoutId(xs, id)| < |xs|
  {
    HasIdCons(xs, id);
    if xs[0].id != id {
      WithoutIdShrinks(xs[1..], id);
    }
  }

  lemma HasIdCons(xs: seq<StoredAgent>, id: string)
    requires |xs| > 0
    ensures HasId(xs, id) <==> xs[0].id == id || HasId(xs[1..], id)
  {
    if HasId(xs, id) && xs[0].id != id {
      var i :| 0 <= i < |xs| && xs[i].id == id;
      assert xs[1..][i - 1].id == id;
    }
    if HasId(xs[1..], id) {
      var i :| 0 <= i < |xs| - 1 && xs[1..][i].id == id;
      assert xs[i + 1].id == id;
    }
  }

  /** Deleting twice is deleting once. */
  lemma DeleteIdempotent(slot: Slot, id: string)
    ensures DeleteAgent(DeleteAgent(slot, id), id) == DeleteAgent(slot, id)
  {
    var r := WithoutId(GetAgents(true, slot), id);
    WithoutIdAbsent(r, id);
  }

  /** Deleting the record just saved, when its id was fresh, restores the
      earlier list. */
  lemma DeleteUndoesSave(slot: Slot, config: CharacterConfig, envVars: EnvVarMap,
                         nowMs: nat, suffix: string, createdAt: string)
    requires !HasId(GetAgents(true, slot), AgentId(nowMs, suffix))
    ensures var (saved, agent) := SaveAgent(slot, config, envVars, nowMs, suffix, createdAt);
      DeleteAgent(saved, agent.id) == Holds(GetAgents(true, slot))
  {
    var existing := GetAgents(true, slot);
    var (saved, agent) := SaveAgent(slot, config, envVars, nowMs, suffix, createdAt);
    WithoutIdConcat(existing, [agent], agent.id);
    WithoutIdAbsent(existing, agent.id);
    assert WithoutId([agent], agent.id) == [];
    assert existing + [] == existing;
  }

  /** Saving the same configuration twice stores two records with the same
      name: there is no de-duplication. */
  lemma SaveTwiceKeepsBoth(slot: Slot, config: CharacterConfig, envVars: EnvVarMap,
                           t1: nat, t2: nat, s1: string, s2: string, c1: string, c2: string)
    ensures var (first, a) := SaveAgent(slot, config, envVars, t1, s1, c1);
      var (second, b) := SaveAgent(first, config, envVars, t2, s2, c2);
      && |second.agents| == |GetAgents(true, slot)| + 2
      && a.name == b.name == config.name
      && second.agents[|second.agents| - 2] == a
      && second.agents[|second.agents| - 1] == b
  {
  }

  /** Every record carries the palette colour of its position. */
  predicate RoundRobin(xs: seq<StoredAgent>) {
    forall i :: 0 <= i < |xs| ==> xs[i].accentColor == Palette[i % |Palette|]
  }

  /** Saves alone keep the colours cycling through the palette; a fresh or
      unreadable slot starts the cycle at amber. */
  lemma SaveKeepsRoundRobin(slot: Slot, config: CharacterConfig, envVars: EnvVarMap,
                            nowMs: nat, suffix: string, createdAt: string)
    requires RoundRobin(GetAgents(true, slot))
    ensures RoundRobin(SaveAgent(slot, config, envVars, nowMs, suffix, createdAt).0.agents)
    ensures !slot.Holds? ==> SaveAgent(slot, config, envVars, nowMs, suffix, createdAt).1.accentColor == "amber"
  {
  }

  /** A save over an unreadable slot replaces its contents with the one new
      record; so does a delete, with nothing at all. */
  lemma UnreadableSlotOverwritten(config: CharacterConfig, envVars: EnvVarMap,
                                  nowMs: nat, suffix: string, createdAt: string, id: string)
    ensures var (saved, agent) := SaveAgent(Unparsable, config, envVars, nowMs, suffix, createdAt);
      saved == Holds([agent])
    ensures DeleteAgent(Unparsable, id) == Holds([])
  {
  }

  /** The detail panel and the card look colours up by name and fall back
      to amber for a name outside the palette. */
  function AccentOrAmber(name: string): (r: string)
    ensures r in Palette
    ensures name in Palette ==> r == name
    ensures name !in Palette ==> r == "amber"
  {
    if name in Palette then name else "amber"
  }
}

=== FILE: capabilities.dfy ===
/** The Capabilities step (app/builder/steps/Step5Capabilities.tsx): the
    values the step derives from the optional capability fields, its three
    toggles and its integer inputs. */
module Capabilities {
  import opened Text
  import opened Optional
  import opened Character

  function ReplyOn(c: CharacterConfig): bool { c.replyToComments.GetOr(true) }
  function ReplyMax(c: CharacterConfig): int { c.replyMaxPerCycle.GetOr(2) }
  function CycleInterval(c: CharacterConfig): int { c.cycleIntervalHours.GetOr(2) }

  /** `(synthesisEvery ?? 0) > 0`. */
  predicate SynthesisOn(c: CharacterConfig) { c.synthesisEvery.GetOr(0) > 0 }

  /** The interval the step shows: the stored one when positive, else 3. */
  function SynthesisShown(c: CharacterConfig): (n: int)
    ensures n > 0
    ensures SynthesisOn(c) <==> c.synthesisEvery == Some(n)
  {
    if c.synthesisEvery.Some? && c.synthesisEvery.value > 0 then c.synthesisEvery.value else 3
  }

  /** A Tavily key counts as set when it is not blank and does not start
      with `<` (the placeholder convention). */
  predicate WebSearchOn(c: CharacterConfig) {
    c.tavilyApiKey.Some? && Trim(c.tavilyApiKey.value) != "" && !StartsWith(c.tavilyApiKey.value, "<")
  }

  /** The key field is shown when search is on or a key value exists. */
  predicate KeyFieldShown(c: CharacterConfig) { WebSearchOn(c) || c.tavilyApiKey.Some? }

  function ToggleReply(c: CharacterConfig): (r: CharacterConfig)
    ensures ReplyOn(r) == !ReplyOn(c)
    ensures r == c.(replyToComments := r.replyToComments)
  {
    c.(replyToComments := Some(!ReplyOn(c)))
  }

  function ToggleSynthesis(c: CharacterConfig): (r: CharacterConfig)
    ensures SynthesisOn(r) == !SynthesisOn(c)
    ensures r == c.(synthesisEvery := r.synthesisEvery)
  {
    c.(synthesisEvery := Some(if SynthesisOn(c) then 0 else SynthesisShown(c)))
  }

  function ToggleWebSearch(c: CharacterConfig): (r: CharacterConfig)
    ensures r == c.(tavilyApiKey := r.tavilyApiKey)
  {
    c.(tavilyApiKey := Some(if WebSearchOn(c) then "" else c.tavilyApiKey.GetOr("")))
  }

  /** `Math.min(hi, Math.max(lo, v))` on integers. */
  function Clamp(v: int, lo: int, hi: int): (r: int)
    requires lo <= hi
    ensures lo <= r <= hi
    ensures lo <= v <= hi ==> r == v
    ensures v < lo ==> r == lo
    ensures v > hi ==> r == hi
  {
    if v < lo then lo else if v > hi then hi else v
  }

  /** Each clamp is idempotent. */
  lemma ClampIdempotent(v: int, lo: int, hi: int)
    requires lo <= hi
    ensures Clamp(Clamp(v, lo, hi), lo, hi) == Clamp(v, lo, hi)
  {
  }

  /** The three number inputs: each stores the typed value when it is in
      range, the nearer bound otherwise, and touches no other field. */
  function SetReplyMax(c: CharacterConfig, v: int): (r: CharacterConfig)
    ensures r.replyMaxPerCycle.Some? && 1 <= ReplyMax(r) <= 5
    ensures 1 <= v <= 5 ==> ReplyMax(r) == v
    ensures r == c.(replyMaxPerCycle := r.replyMaxPerCycle)
  {
    c.(replyMaxPerCycle := Some(Clamp(v, 1, 5)))
  }

  function SetSynthesisEvery(c: CharacterConfig, v: int): (r: CharacterConfig)
    ensures r.synthesisEvery.Some? && 2 <= r.synthesisEvery.value <= 10
    ensures 2 <= v <= 10 ==> r.synthesisEvery.value == v
    ensures r == c.(synthesisEvery := r.synthesisEvery)
  {
    c.(synthesisEvery := Some(Clamp(v, 2, 10)))
  }

  function SetCycleInterval(c: CharacterConfig, v: int): (r: CharacterConfig)
    ensures r.cycleIntervalHours.Some? && 1 <= CycleInterval(r) <= 8
    ensures 1 <= v <= 8 ==> CycleInterval(r) == v
    ensures r == c.(cycleIntervalHours := r.cycleIntervalHours)
  {
    c.(cycleIntervalHours := Some(Clamp(v, 1, 8)))
  }

  /** Whatever is typed, the inputs store values in their ranges, and the
      synthesis input leaves synthesis on. */
  lemma InputsStayInRange(c: CharacterConfig, v: int)
    ensures 1 <= ReplyMax(SetReplyMax(c, v)) <= 5
    ensures 1 <= CycleInterval(SetCycleInterval(c, v)) <= 8
    ensures SynthesisOn(SetSynthesisEvery(c, v)) && 2 <= SynthesisShown(SetSynthesisEvery(c, v)) <= 10
  {
  }

  /** With nothing stored the step shows replies on at two per cycle,
      synthesis off (every 3 once turned on), a two-hour cycle, and no web
      search. */
  lemma Defaults(c: CharacterConfig)
    requires c.replyToComments.None? && c.replyMaxPerCycle.None?
    requires c.synthesisEvery.None? && c.cycleIntervalHours.None? && c.tavilyApiKey.None?
    ensures ReplyOn(c) && ReplyMax(c) == 2 && CycleInterval(c) == 2
    ensures !SynthesisOn(c) && SynthesisShown(c) == 3
    ensures !WebSearchOn(c) && !KeyFieldShown(c)
  {
  }

  /** Toggling the reply switch twice restores what the step shows. */
  lemma ToggleReplyTwice(c: CharacterConfig)
    ensures ReplyOn(ToggleReply(ToggleReply(c))) == ReplyOn(c)
  {
  }

  /** Toggling synthesis off and on again turns it back on, but at the
      default interval of 3: the interval set before is not kept. */
  lemma ToggleSynthesisTwice(c: CharacterConfig)
    requires SynthesisOn(c)
    ensures SynthesisOn(ToggleSynthesis(ToggleSynthesis(c)))
    ensures ToggleSynthesis(ToggleSynthesis(c)).synthesisEvery == Some(3)
  {
  }

  /** The web-search switch never turns search on by itself: from off it
      only reveals the key field (keeping any key text); from on it clears
      the key. */
  lemma ToggleWebSearchOnlyReveals(c: CharacterConfig)
    ensures !WebSearchOn(c) ==> !WebSearchOn(ToggleWebSearch(c)) && KeyFieldShown(ToggleWebSearch(c))
    ensures !WebSearchOn(c) ==> ToggleWebSearch(c).tavilyApiKey == Some(c.tavilyApiKey.GetOr(""))
    ensures WebSearchOn(c) ==> ToggleWebSearch(c).tavilyApiKey == Some("") && !WebSearchOn(ToggleWebSearch(c))
  {
    if WebSearchOn(c) {
      assert Trim("") == "";
    }
  }

  /** A placeholder-shaped key does not count, even though it is not blank. */
  lemma PlaceholderKeyIsOff(c: CharacterConfig)
    requires c.tavilyApiKey == Some("<your-tavily-key>")
    ensures !WebSearchOn(c) && KeyFieldShown(c)
  {
  }
}

=== FILE: character.dfy ===
/** The persona configuration (`CharacterConfig`), its validation schema and
    the configuration the builder starts from. */
module Character {
  import opened Optional
  import opened Text

  /** One persona. The fields up to `claimUrl` are those of the schema's
      type. The five capability fields after it (`replyToComments`,
      `replyMaxPerCycle`, `synthesisEvery`, `cycleIntervalHours`,
      `tavilyApiKey`) are not declared by the schema, yet the Capabilities
      step and `buildEnvVars` read them as possibly absent, with `??`
      defaults; they are modelled as `Option`s. */
  datatype CharacterConfig = CharacterConfig(
    name: string,
    description: string,
    coreNature: string,
    voiceRules: seq<string>,
    examplePosts: seq<string>,
    keywordsHigh: seq<string>,
    keywordsMedium: seq<string>,
    targetSubmolts: seq<string>,
    moltbookApiKey: Option<string>,
    claimUrl: Option<string>,
    replyToComments: Option<bool>,
    replyMaxPerCycle: Option<int>,
    synthesisEvery: Option<int>,
    cycleIntervalHours: Option<int>,
    tavilyApiKey: Option<string>)

  /** A character of the class `[a-zA-Z0-9_]`. */
  predicate IsWordChar(c: char) {
    ('a' <= c <= 'z') || ('A' <= c <= 'Z') || ('0' <= c <= '9') || c == '_'
  }

  predicate AllWordChars(s: string) {
    forall i :: 0 <= i < |s| ==> IsWordChar(s[i])
  }

  /** `/^[a-zA-Z0-9_]{3,20}$/`, also the schema's name rule. */
  predicate IsValidName(s: string) {
    3 <= |s| <= 20 && AllWordChars(s)
  }

  predicate AllNonEmpty(xs: seq<string>) {
    forall i :: 0 <= i < |xs| ==> |xs[i]| >= 1
  }

  /** `CharacterConfigSchema`: every constraint the zod schema places on a
      configuration. It ignores the five capability fields, which the
      schema does not declare. */
  predicate SchemaValid(c: CharacterConfig) {
    && IsValidName(c.name)
    && |c.description| <= 300
    && 50 <= |c.coreNature| <= 2000
    && 1 <= |c.voiceRules| <= 10
    && (forall i :: 0 <= i < |c.voiceRules| ==> 1 <= |c.voiceRules[i]| <= 500)
    && |c.examplePosts| <= 5
    && (forall i :: 0 <= i < |c.examplePosts| ==> |c.examplePosts[i]| <= 200)
    && |c.keywordsHigh| <= 15 && AllNonEmpty(c.keywordsHigh)
    && |c.keywordsMedium| <= 15 && AllNonEmpty(c.keywordsMedium)
    && 1 <= |c.targetSubmolts| <= 5 && AllNonEmpty(c.targetSubmolts)
  }

  /** The three voice rules the builder starts with. */
  const StarterRules: seq<string> := [
    "Keep posts to 2–4 sentences. " + "Compression is credibility.",
    "Reference actual content from the feed. " + "You are embedded in the community, "
      + "not broadcasting from outside.",
    "Never explain yourself as a thesis " + "or argument. Simply be what you are."]

  /** `DEFAULT_CONFIG`. */
  function DefaultConfig(): CharacterConfig {
    CharacterConfig(
      name := "",
      description := "",
      coreNature := "",
      voiceRules := StarterRules,
      examplePosts := [],
      keywordsHigh := [],
      keywordsMedium := [],
      targetSubmolts := ["general"],
      moltbookApiKey := None,
      claimUrl := None,
      replyToComments := None,
      replyMaxPerCycle := None,
      synthesisEvery := None,
      cycleIntervalHours := None,
      tavilyApiKey := None)
  }

  /** Each starter rule fits the schema's length bounds. */
  lemma StarterRulesFit()
    ensures |StarterRules| == 3
    ensures forall i :: 0 <= i < |StarterRules| ==> 1 <= |StarterRules[i]| <= 500
  {
    assert |StarterRules[0]| == 56;
    assert |StarterRules[1]| == 105;
    assert |StarterRules[2]| == 71;
  }

  /** The starting configuration has three voice rules and the `general`
      submolt, but with its empty name and core nature it does not pass the
      schema: the wizard has to fill those in. */
  lemma DefaultConfigShape()
    ensures |DefaultConfig().voiceRules| == 3
    ensures DefaultConfig().targetSubmolts == ["general"]
    ensures DefaultConfig().examplePosts == []
    ensures !IsValidName(DefaultConfig().name)
    ensures !SchemaValid(DefaultConfig())
    ensures var d := DefaultConfig(); SchemaValid(d.(name := "Kairos", coreNature := Repeat('x', 50)))
  {
    StarterRulesFit();
    assert IsWordChar('K') && IsWordChar('a') && IsWordChar('i');
  }
}

=== FILE: envvars.dfy ===
/** Deployment variables (lib/buildEnvVars.ts): the fixed-shape `EnvVarMap`
    and `buildEnvVars`, which flattens a configuration into it. */
module EnvVars {
  import opened Optional
  import opened Text
  import opened Character

  /** `EnvVarMap`: one field per deployment variable. */
  datatype EnvVarMap = EnvVarMap(
    moltbookApiKey: string,
    anthropicApiKey: string,
    agentName: string,
    agentDescription: string,
    agentCoreNature: string,
    agentVoiceRules: string,
    agentExamplePosts: string,
    agentTopicKeywordsHigh: string,
    agentTopicKeywordsMedium: string,
    agentTargetSubmolts: string,
    logLevel: string,
    synthesisCycleEvery: string,
    cycleIntervalHours: string,
    tavilyApiKey: string)

  /** The variable names, in the order the map literal declares them (the
      order `Object.entries` lists them in). */
  const KeyNames: seq<string> := [
    "MOLTBOOK_API_KEY", "ANTHROPIC_API_KEY", "AGENT_NAME", "AGENT_DESCRIPTION",
    "AGENT_CORE_NATURE", "AGENT_VOICE_RULES", "AGENT_EXAMPLE_POSTS",
    "AGENT_TOPIC_KEYWORDS_HIGH", "AGENT_TOPIC_KEYWORDS_MEDIUM", "AGENT_TARGET_SUBMOLTS",
    "LOG_LEVEL", "SYNTHESIS_CYCLE_EVERY", "CYCLE_INTERVAL_HOURS", "TAVILY_API_KEY"]

  const AnthropicKeyPlaceholder: string := "<your-anthropic-api-key>"

  /** `Object.entries(vars)`: the fourteen (name, value) pairs in order. */
  function Entries(m: EnvVarMap): (es: seq<(string, string)>)
    ensures |es| == |KeyNames| == 14
    ensures forall i :: 0 <= i < |es| ==> es[i].0 == KeyNames[i]
  {
    [("MOLTBOOK_API_KEY", m.moltbookApiKey),
     ("ANTHROPIC_API_KEY", m.anthropicApiKey),
     ("AGENT_NAME", m.agentName),
     ("AGENT_DESCRIPTION", m.agentDescription),
     ("AGENT_CORE_NATURE", m.agentCoreNature),
     ("AGENT_VOICE_RULES", m.agentVoiceRules),
     ("AGENT_EXAMPLE_POSTS", m.agentExamplePosts),
     ("AGENT_TOPIC_KEYWORDS_HIGH", m.agentTopicKeywordsHigh),
     ("AGENT_TOPIC_KEYWORDS_MEDIUM", m.agentTopicKeywordsMedium),
     ("AGENT_TARGET_SUBMOLTS", m.agentTargetSubmolts),
     ("LOG_LEVEL", m.logLevel),
     ("SYNTHESIS_CYCLE_EVERY", m.synthesisCycleEvery),
     ("CYCLE_INTERVAL_HOURS", m.cycleIntervalHours),
     ("TAVILY_API_KEY", m.tavilyApiKey)]
  }

  /** The fourteen names are pairwise distinct, so the entries of a map
      name each variable exactly once. */
  lemma KeyNamesDistinct()
    ensures forall i, j :: 0 <= i < j < |KeyNames| ==> KeyNames[i] != KeyNames[j]
  {
  }

  /** A variable name: upper-case letters and underscores only. */
  predicate IsKeyName(k: string) {
    |k| >= 1 && forall i :: 0 <= i < |k| ==> ('A' <= k[i] <= 'Z' || k[i] == '_')
  }

  /** Every name is a plain identifier, so none holds a line feed or `=`. */
  lemma KeyNamesPlain()
    ensures forall i :: 0 <= i < |KeyNames| ==> IsKeyName(KeyNames[i])
    ensures forall i :: 0 <= i < |KeyNames| ==> '\n' !in KeyNames[i] && '=' !in KeyNames[i]
  {
    forall i | 0 <= i < |KeyNames|
      ensures IsKeyName(KeyNames[i])
    {
      KeyNamePlainAt(i);
    }
  }

  /** One name at a time, four names per case split. */
  lemma KeyNamePlainAt(i: int)
    requires 0 <= i < 14
    ensures IsKeyName(KeyNames[i])
  {
    if i < 4 {
      KeyNamesPlainFrom0(i);
    } else if i < 7 {
      KeyNamesPlainFrom4(i);
    } else if i < 10 {
      KeyNamesPlainFrom7(i);
    } else {
      KeyNamesPlainFrom10(i);
    }
  }

  lemma KeyNamesPlainFrom0(i: int)
    requires 0 <= i < 4
    ensures IsKeyName(KeyNames[i])
  {
    if i == 0 {
      KeyNameChars("MOLTBOOK_API_KEY");
    } else if i == 1 {
      KeyNameChars("ANTHROPIC_API_KEY");
    } else if i == 2 {
      KeyNameChars("AGENT_NAME");
    } else {
      KeyNameChars("AGENT_DESCRIPTION");
    }
  }

  lemma KeyNamesPlainFrom4(i: int)
    requires 4 <= i < 7
    ensures IsKeyName(KeyNames[i])
  {
    if i == 4 {
      KeyNameChars("AGENT_CORE_NATURE");
    } else if i == 5 {
      KeyNameChars("AGENT_VOICE_RULES");
    } else {
      KeyNameChars("AGENT_EXAMPLE_POSTS");
    }
  }

  lemma KeyNamesPlainFrom7(i: int)
    requires 7 <= i < 10
    ensures IsKeyName(KeyNames[i])
  {
    if i == 7 {
      KeyNameChars("AGENT_TOPIC_KEYWORDS_HIGH");
    } else if i == 8 {
      KeyNameChars("AGENT_TOPIC_KEYWORDS_MEDIUM");
    } else {
      KeyNameChars("AGENT_TARGET_SUBMOLTS");
    }
  }

  lemma KeyNamesPlainFrom10(i: int)
    requires 10 <= i < 14
    ensures IsKeyName(KeyNames[i])
  {
    if i == 10 {
      KeyNameChars("LOG_LEVEL");
    } else if i == 11 {
      KeyNameChars("SYNTHESIS_CYCLE_EVERY");
    } else if i == 12 {
      KeyNameChars("CYCLE_INTERVAL_HOURS");
    } else {
      KeyNameChars("TAVILY_API_KEY");
    }
  }

  /** A literal name of capitals and underscores is a key name. */
  lemma KeyNameChars(k: string)
    requires |k| >= 1 && forall j :: 0 <= j < |k| ==> ('A' <= k[j] <= 'Z' || k[j] == '_')
    ensures IsKeyName(k)
  {
  }

  /** Reads the map back from its entries: the inverse of `Entries`. */
  function FromEntries(es: seq<(string, string)>): EnvVarMap
    requires |es| == 14
  {
    EnvVarMap(es[0].1, es[1].1, es[2].1, es[3].1, es[4].1, es[5].1, es[6].1,
              es[7].1, es[8].1, es[9].1, es[10].1, es[11].1, es[12].1, es[13].1)
  }

  lemma EntriesRoundTrip(m: EnvVarMap)
    ensures FromEntries(Entries(m)) == m
  {
  }

  /** `userApiKey?.trim() || '<your-anthropic-api-key>'`. */
  function AnthropicKey(userApiKey: Option<string>): (k: string)
    ensures k != ""
    ensures userApiKey.Some? && Trim(userApiKey.value) != "" ==> k == Trim(userApiKey.value)
    ensures userApiKey.None? || Trim(userApiKey.value) == "" ==> k == AnthropicKeyPlaceholder
  {
    match userApiKey
    case Some(key) => if Trim(key) != "" then Trim(key) else AnthropicKeyPlaceholder
    case None => AnthropicKeyPlaceholder
  }

  /** `buildEnvVars`. */
  function BuildEnvVars(c: CharacterConfig, userApiKey: Option<string>): EnvVarMap {
    EnvVarMap(
      moltbookApiKey := c.moltbookApiKey.GetOr(""),
      anthropicApiKey := AnthropicKey(userApiKey),
      agentName := c.name,
      agentDescription := c.description,
      agentCoreNature := c.coreNature,
      agentVoiceRules := Join(c.voiceRules, "\n"),
      agentExamplePosts := Join(c.examplePosts, "\n"),
      agentTopicKeywordsHigh := Join(c.keywordsHigh, ","),
      agentTopicKeywordsMedium := Join(c.keywordsMedium, ","),
      agentTargetSubmolts := Join(c.targetSubmolts, ","),
      logLevel := "INFO",
      synthesisCycleEvery := IntToString(c.synthesisEvery.GetOr(0)),
      cycleIntervalHours := IntToString(c.cycleIntervalHours.GetOr(2)),
      tavilyApiKey := c.tavilyApiKey.GetOr(""))
  }

  predicate NoneContains(xs: seq<string>, c: char) {
    forall i :: 0 <= i < |xs| ==> c !in xs[i]
  }

  /** A list-valued variable is empty exactly for the empty list (or a list
      of one empty entry), and splits back into the list when the list is
      non-empty and no entry holds the separator. The empty list is the one
      case the join cannot give back: splitting `""` gives `[""]`. */
  lemma ListVariable(xs: seq<string>, sep: char)
    ensures Join(xs, [sep]) == "" <==> xs == [] || xs == [""]
    ensures |xs| >= 1 && NoneContains(xs, sep) ==> Split(Join(xs, [sep]), sep) == xs
    ensures xs == [] ==> Split(Join(xs, [sep]), sep) == [""]
  {
    JoinEmpty(xs, [sep]);
    if |xs| >= 1 && NoneContains(xs, sep) {
      SplitJoin(xs, sep);
    }
  }

  /** Whatever the configuration, the numbers parse back to the configured
      values or their defaults, and the text fields and the keys are copied
      verbatim (the Anthropic key after its fallback). */
  lemma BuildEnvVarsFields(c: CharacterConfig, userApiKey: Option<string>)
    ensures var m := BuildEnvVars(c, userApiKey);
      && ParseInt(m.synthesisCycleEvery) == c.synthesisEvery.GetOr(0)
      && ParseInt(m.cycleIntervalHours) == c.cycleIntervalHours.GetOr(2)
      && m.agentName == c.name && m.agentDescription == c.description
      && m.agentCoreNature == c.coreNature
      && m.logLevel == "INFO"
      && m.anthropicApiKey == AnthropicKey(userApiKey) && m.anthropicApiKey != ""
      && m.moltbookApiKey == c.moltbookApiKey.GetOr("")
      && m.tavilyApiKey == c.tavilyApiKey.GetOr("")
  {
    IntToStringRoundTrip(c.synthesisEvery.GetOr(0));
    IntToStringRoundTrip(c.cycleIntervalHours.GetOr(2));
  }

  /** The deployed agent can recover the rules, high keywords and submolts:
      each variable splits back into its list when the list is non-empty and
      no entry holds the separator, and it is empty exactly when the list is
      empty or holds one empty entry. */
  lemma BuildEnvVarsRecoverable(c: CharacterConfig, userApiKey: Option<string>)
    ensures var m := BuildEnvVars(c, userApiKey);
      && (|c.voiceRules| >= 1 && NoneContains(c.voiceRules, '\n') ==> Split(m.agentVoiceRules, '\n') == c.voiceRules)
      && (m.agentVoiceRules == "" <==> c.voiceRules == [] || c.voiceRules == [""])
      && (|c.keywordsHigh| >= 1 && NoneContains(c.keywordsHigh, ',') ==> Split(m.agentTopicKeywordsHigh, ',') == c.keywordsHigh)
      && (m.agentTopicKeywordsHigh == "" <==> c.keywordsHigh == [] || c.keywordsHigh == [""])
      && (|c.targetSubmolts| >= 1 && NoneContains(c.targetSubmolts, ',') ==> Split(m.agentTargetSubmolts, ',') == c.targetSubmolts)
      && (m.agentTargetSubmolts == "" <==> c.targetSubmolts == [] || c.targetSubmolts == [""])
  {
    ListVariable(c.voiceRules, '\n');
    ListVariable(c.keywordsHigh, ',');
    ListVariable(c.targetSubmolts, ',');
  }

  /** The medium keywords and the example posts read back the same way. */
  lemma BuildEnvVarsRecoverableRest(c: CharacterConfig, userApiKey: Option<string>)
    ensures var m := BuildEnvVars(c, userApiKey);
      && (|c.keywordsMedium| >= 1 && NoneContains(c.keywordsMedium, ',') ==> Split(m.agentTopicKeywordsMedium, ',') == c.keywordsMedium)
      && (m.agentTopicKeywordsMedium == "" <==> c.keywordsMedium == [] || c.keywordsMedium == [""])
      && (|c.examplePosts| >= 1 && NoneContains(c.examplePosts, '\n') ==> Split(m.agentExamplePosts, '\n') == c.examplePosts)
      && (m.agentExamplePosts == "" <==> c.examplePosts == [] || c.examplePosts == [""])
  {
    ListVariable(c.keywordsMedium, ',');
    ListVariable(c.examplePosts, '\n');
  }

  /** Without a caller key the Anthropic variable holds the placeholder, and
      the two optional keys fall back to the empty string. */
  lemma BuildEnvVarsDefaults(c: CharacterConfig)
    requires c.moltbookApiKey.None? && c.tavilyApiKey.None?
    requires c.synthesisEvery.None? && c.cycleIntervalHours.None?
    ensures BuildEnvVars(c, None).anthropicApiKey == AnthropicKeyPlaceholder
    ensures BuildEnvVars(c, None).moltbookApiKey == ""
    ensures BuildEnvVars(c, None).tavilyApiKey == ""
    ensures BuildEnvVars(c, None).synthesisCycleEvery == "0"
    ensures BuildEnvVars(c, None).cycleIntervalHours == "2"
  {
  }

  /** The worked example: keywords `a`, `b` and the `general` submolt. */
  lemma BuildEnvVarsExample(c: CharacterConfig)
    requires c.keywordsHigh == ["a", "b"] && c.targetSubmolts == ["general"]
    ensures BuildEnvVars(c, None).agentTopicKeywordsHigh == "a,b"
    ensures BuildEnvVars(c, None).agentTargetSubmolts == "general"
  {
    assert Join(["a", "b"], ",") == "a" + "," + Join(["b"], ",");
  }
}

=== FILE: envvartable.dfy ===
/** The variable table (components/EnvVarTable.tsx): the `.env` line encoder
    `formatEnvLine`, the "copy all" text, and the per-row display rules. */
module EnvVarTable {
  import opened Text
  import opened Optional
  import opened Character
  import opened EnvVars

  /** A value is written in double quotes exactly when it holds one of
      these characters. */
  predicate NeedsQuoting(v: string) {
    '\n' in v || ' ' in v || '"' in v || '\'' in v || '#' in v || '$' in v || '`' in v
  }

  /** The four global replaces, in the order the encoder applies them:
      backslash, double quote, CRLF, LF. */
  function BackslashPass(v: string): string { ReplaceAll(v, "\\", "\\\\") }
  function QuotePass(v: string): string { ReplaceAll(v, "\"", "\\\"") }
  function CrLfPass(v: string): string { ReplaceAll(v, "\r\n", "\\n") }
  function LfPass(v: string): string { ReplaceAll(v, "\n", "\\n") }

  /** The escaped body of a quoted value. */
  function Escape(v: string): string {
    LfPass(CrLfPass(QuotePass(BackslashPass(v))))
  }

  /** How one character is written inside the quotes (a CR that does not
      start a CRLF pair is kept as it is). */
  function EscapeChar(c: char): (r: string)
    ensures '\n' !in r
    ensures |r| >= 1 && (r[0] == '\\' <==> c in "\\\"\n")
  {
    if c == '\\' then "\\\\"
    else if c == '"' then "\\\""
    else if c == '\n' then "\\n"
    else [c]
  }

  /** Reference encoder: a single left-to-right pass that writes each CRLF
      pair and each LF as the two characters `\n`. */
  function EscapeOnePass(v: string): (r: string)
    ensures '\n' !in r
  {
    if |v| >= 2 && v[0] == '\r' && v[1] == '\n' then "\\n" + EscapeOnePass(v[2..])
    else if |v| == 0 then ""
    else EscapeChar(v[0]) + EscapeOnePass(v[1..])
  }

  /** Every CRLF pair read as a single LF, as a dotenv reader sees it. */
  function NormalizeCrLf(v: string): (r: string)
    ensures |r| <= |v|
  {
    if |v| >= 2 && v[0] == '\r' && v[1] == '\n' then "\n" + NormalizeCrLf(v[2..])
    else if |v| == 0 then ""
    else [v[0]] + NormalizeCrLf(v[1..])
  }

  /** Left-to-right decoding of a quoted body: `\\`, `\"` and `\n` stand for
      a backslash, a double quote and a line feed; anything else is kept. */
  function Unescape(s: string): string {
    if |s| >= 2 && s[0] == '\\' && s[1] in "\\\"n" then
      (if s[1] == 'n' then "\n" else [s[1]]) + Unescape(s[2..])
    else if |s| == 0 then ""
    else [s[0]] + Unescape(s[1..])
  }

  // ---- the four passes are one pass --------------------------------------

  /** A global replace of a one-character pattern distributes over
      concatenation. */
  lemma {:induction false} ReplaceCharConcat(a: string, b: string, p: char, rep: string)
    ensures ReplaceAll(a + b, [p], rep) == ReplaceAll(a, [p], rep) + ReplaceAll(b, [p], rep)
  {
    if |a| > 0 {
      assert a + b == [a[0]] + (a[1..] + b);
      assert a == [a[0]] + a[1..];
      ReplaceCharStep(a[0], a[1..] + b, p, rep);
      ReplaceCharStep(a[0], a[1..], p, rep);
      ReplaceCharConcat(a[1..], b, p, rep);
    } else {
      assert a + b == b;
    }
  }

  /** A replace of a pattern that cannot occur leaves the text alone. */
  lemma {:induction false} ReplaceCharAbsent(a: string, p: char, rep: string)
    requires p !in a
    ensures ReplaceAll(a, [p], rep) == a
  {
    if |a| > 0 {
      assert a == [a[0]] + a[1..];
      ReplaceCharStep(a[0], a[1..], p, rep);
      ReplaceCharAbsent(a[1..], p, rep);
    }
  }

  /** What the backslash and quote passes make of one character. */
  function EscapeChar12(c: char): (r: string)
    ensures |r| >= 1 && '\r' !in r[1..] && (r[0] == '\r' <==> c == '\r')
    ensures '\n' in r <==> c == '\n'
  {
    if c == '\\' then "\\\\" else if c == '"' then "\\\"" else [c]
  }

  lemma Pass12Char(c: char)
    ensures QuotePass(BackslashPass([c])) == EscapeChar12(c)
  {
    ReplaceCharStep(c, "", '\\', "\\\\");
    var b := BackslashPass([c]);
    assert [c] + "" == [c];
    if c == '\\' {
      assert b == "\\\\" + "";
      ReplaceCharAbsent(b, '"', "\\\"");
    } else {
      assert b == [c] + "";
      ReplaceCharStep(c, "", '"', "\\\"");
    }
  }

  /** The backslash and quote passes together act character by character. */
  lemma Pass12Cons(c: char, t: string)
    ensures QuotePass(BackslashPass([c] + t)) == EscapeChar12(c) + QuotePass(BackslashPass(t))
  {
    ReplaceCharConcat([c], t, '\\', "\\\\");
    ReplaceCharConcat(BackslashPass([c]), BackslashPass(t), '"', "\\\"");
    Pass12Char(c);
  }

  /** The CRLF pass copies a prefix that holds no CR. */
  lemma {:induction false} CrLfSkip(x: string, y: string)
    requires '\r' !in x
    ensures CrLfPass(x + y) == x + CrLfPass(y)
  {
    if |x| > 0 {
      assert (x + y)[1..] == x[1..] + y;
      assert !StartsWith(x + y, "\r\n");
      CrLfSkip(x[1..], y);
      assert [x[0]] + (x[1..] + CrLfPass(y)) == x + CrLfPass(y);
    } else {
      assert x + y == y;
    }
  }

  /** A CR that does not start a CRLF pair is copied by the CRLF pass. */
  lemma CrLfLoneCr(y: string)
    requires |y| == 0 || y[0] != '\n'
    ensures CrLfPass("\r" + y) == "\r" + CrLfPass(y)
  {
    assert !StartsWith("\r" + y, "\r\n");
    assert ("\r" + y)[1..] == y;
  }

  lemma CrLfPair(y: string)
    ensures CrLfPass("\r\n" + y) == "\\n" + CrLfPass(y)
  {
    assert StartsWith("\r\n" + y, "\r\n");
    assert ("\r\n" + y)[2..] == y;
  }

  lemma LfPassChar(c: char)
    ensures LfPass(EscapeChar12(c)) == EscapeChar(c)
  {
    var e := EscapeChar12(c);
    if c == '\n' {
      assert e == ['\n'] + "";
      ReplaceCharStep('\n', "", '\n', "\\n");
      assert "\\n" + "" == "\\n";
    } else {
      ReplaceCharAbsent(e, '\n', "\\n");
    }
  }

  /** The escaping of a text that starts with a CRLF pair. */
  lemma EscapeStepPair(t: string)
    ensures Escape("\r\n" + t) == "\\n" + Escape(t)
  {
    var w := QuotePass(BackslashPass(t));
    Pass12Cons('\r', "\n" + t);
    Pass12Cons('\n', t);
    assert "\r\n" + t == ['\r'] + ("\n" + t);
    assert "\n" + t == ['\n'] + t;
    assert EscapeChar12('\r') + (EscapeChar12('\n') + w) == "\r\n" + w;
    CrLfPair(w);
    ReplaceCharConcat("\\n", CrLfPass(w), '\n', "\\n");
    ReplaceCharAbsent("\\n", '\n', "\\n");
  }

  /** The escaping of a text whose first character does not start a CRLF pair. */
  lemma EscapeStepChar(c: char, t: string)
    requires c != '\r' || |t| == 0 || t[0] != '\n'
    ensures Escape([c] + t) == EscapeChar(c) + Escape(t)
  {
    var w := QuotePass(BackslashPass(t));
    var e := EscapeChar12(c);
    Pass12Cons(c, t);
    if c == '\r' {
      if |t| > 0 {
        Pass12Cons(t[0], t[1..]);
        assert t == [t[0]] + t[1..];
      } else {
        assert w == "";
      }
      assert e == "\r";
      CrLfLoneCr(w);
    } else {
      CrLfSkip(e, w);
    }
    ReplaceCharConcat(e, CrLfPass(w), '\n', "\\n");
    LfPassChar(c);
  }

  /** The chained global replaces compute exactly the one-pass encoding. */
  lemma {:induction false} EscapeIsOnePass(v: string)
    ensures Escape(v) == EscapeOnePass(v)
  {
    if |v| >= 2 && v[0] == '\r' && v[1] == '\n' {
      assert v == "\r\n" + v[2..];
      EscapeStepPair(v[2..]);
      EscapeIsOnePass(v[2..]);
    } else if |v| == 0 {
      assert Escape(v) == "" by {
        ReplaceCharAbsent("", '\\', "\\\\");
        ReplaceCharAbsent("", '"', "\\\"");
        ReplaceCharAbsent("", '\n', "\\n");
      }
    } else {
      assert v == [v[0]] + v[1..];
      EscapeStepChar(v[0], v[1..]);
      EscapeIsOnePass(v[1..]);
    }
  }

  // ---- round trip ---------------------------------------------------------

  lemma UnescapeChar(c: char, w: string)
    ensures Unescape(EscapeChar(c) + w) == [c] + Unescape(w)
  {
    var e := EscapeChar(c);
    if c in "\\\"\n" {
      assert (e + w)[2..] == w;
    } else {
      assert (e + w)[1..] == w;
    }
  }

  /** Decoding the escaped body gives the value back, with each CRLF pair
      read as one LF. */
  lemma {:induction false} UnescapeEscape(v: string)
    ensures Unescape(Escape(v)) == NormalizeCrLf(v)
  {
    EscapeIsOnePass(v);
    UnescapeOnePass(v);
  }

  lemma {:induction false} UnescapeOnePass(v: string)
    ensures Unescape(EscapeOnePass(v)) == NormalizeCrLf(v)
  {
    if |v| >= 2 && v[0] == '\r' && v[1] == '\n' {
      UnescapeOnePass(v[2..]);
      assert ("\\n" + EscapeOnePass(v[2..]))[2..] == EscapeOnePass(v[2..]);
    } else if |v| > 0 {
      UnescapeOnePass(v[1..]);
      UnescapeChar(v[0], EscapeOnePass(v[1..]));
    }
  }

  // ---- lines ----------------------------------------------------------------

  /** `formatEnvLine(key, value)`. */
  function FormatEnvLine(key: string, value: string): string {
    if NeedsQuoting(value) then key + "=\"" + Escape(value) + "\""
    else key + "=" + value
  }

  /** Whichever branch is taken, the line holds no line feed, so each
      variable stays on one physical line. */
  lemma FormatEnvLineSingleLine(key: string, value: string)
    requires '\n' !in key
    ensures '\n' !in FormatEnvLine(key, value)
  {
    EscapeIsOnePass(value);
    var line := FormatEnvLine(key, value);
    if NeedsQuoting(value) {
      assert line == key + "=\"" + EscapeOnePass(value) + "\"";
    } else {
      assert line == key + "=" + value;
    }
  }

  /** Reads a line back: the key is everything before the first `=`; a value
      in double quotes is unquoted and decoded, any other value is literal. */
  function ParseEnvLine(line: string): (string, string) {
    if '=' in line then
      var i := FirstIndex(line, '=');
      var rest := line[i + 1..];
      if |rest| >= 2 && rest[0] == '"' && rest[|rest| - 1] == '"' then
        (line[..i], Unescape(rest[1..|rest| - 1]))
      else (line[..i], rest)
    else (line, "")
  }

  function FirstIndex(s: string, c: char): (i: nat)
    requires c in s
    ensures i < |s| && s[i] == c && c !in s[..i]
  {
    if s[0] == c then 0
    else
      var j := FirstIndex(s[1..], c);
      assert s[..j + 1] == [s[0]] + s[1..][..j];
      j + 1
  }

  lemma FirstIndexAfter(key: string, rest: string)
    requires '=' !in key
    ensures '=' in key + "=" + rest && FirstIndex(key + "=" + rest, '=') == |key|
  {
    var s := key + "=" + rest;
    assert s[|key|] == '=';
  }

  /** Every formatted line reads back as its key and its value, the value
      with each CRLF pair normalised to LF. */
  lemma FormatEnvLineRoundTrip(key: string, value: string)
    requires '=' !in key
    ensures ParseEnvLine(FormatEnvLine(key, value)) == (key, NormalizeCrLf(value))
  {
    if NeedsQuoting(value) {
      var body := "\"" + Escape(value) + "\"";
      assert FormatEnvLine(key, value) == key + "=" + body;
      ParseAfterKey(key, body);
      assert body[1..|body| - 1] == Escape(value);
      UnescapeEscape(value);
    } else {
      ParseAfterKey(key, value);
      assert '"' !in value;
      NormalizeWithoutLf(value);
    }
  }

  /** A line made of a key without `=`, then `=`, then the rest, parses to
      that key and the rest, unquoted and decoded when it is in quotes. */
  lemma ParseAfterKey(key: string, rest: string)
    requires '=' !in key
    ensures ParseEnvLine(key + "=" + rest) ==
      if |rest| >= 2 && rest[0] == '"' && rest[|rest| - 1] == '"' then (key, Unescape(rest[1..|rest| - 1]))
      else (key, rest)
  {
    var line := key + "=" + rest;
    FirstIndexAfter(key, rest);
    assert line[|key| + 1..] == rest;
    assert line[..|key|] == key;
  }

  /** Without a line feed there is no CRLF pair to normalise. */
  lemma {:induction false} NormalizeWithoutLf(v: string)
    requires '\n' !in v
    ensures NormalizeCrLf(v) == v
  {
    if |v| > 0 {
      assert v[1..] == v[1..];
      assert '\n' !in v[1..] by {
        assert forall k :: 0 <= k < |v[1..]| ==> v[1..][k] == v[k + 1];
      }
      NormalizeWithoutLf(v[1..]);
      assert v == [v[0]] + v[1..];
    }
  }

  /** The lines of "copy all", one per entry. */
  function EnvLines(es: seq<(string, string)>): (ls: seq<string>)
    ensures |ls| == |es|
  {
    seq(|es|, i requires 0 <= i < |es| => FormatEnvLine(es[i].0, es[i].1))
  }

  /** `copyAll`: the formatted lines joined by LF. */
  function CopyAll(es: seq<(string, string)>): string {
    Join(EnvLines(es), "\n")
  }

  /** The copied text has exactly one line per entry, in entry order, and
      each line reads back as its entry. */
  lemma CopyAllReadBack(es: seq<(string, string)>)
    requires |es| >= 1
    requires forall i :: 0 <= i < |es| ==> '\n' !in es[i].0 && '=' !in es[i].0
    ensures |Split(CopyAll(es), '\n')| == |es|
    ensures forall i :: 0 <= i < |es| ==>
      ParseEnvLine(Split(CopyAll(es), '\n')[i]) == (es[i].0, NormalizeCrLf(es[i].1))
  {
    var ls := EnvLines(es);
    forall i | 0 <= i < |ls|
      ensures '\n' !in ls[i]
    {
      FormatEnvLineSingleLine(es[i].0, es[i].1);
    }
    SplitJoin(ls, '\n');
    forall i | 0 <= i < |es|
      ensures ParseEnvLine(ls[i]) == (es[i].0, NormalizeCrLf(es[i].1))
    {
      FormatEnvLineRoundTrip(es[i].0, es[i].1);
    }
  }

  /** The variable names carry neither LF nor `=`, so "copy all" on a built
      map yields fourteen lines that read back as the fourteen variables. */
  lemma CopyAllEnvVars(m: EnvVarMap)
    ensures |Split(CopyAll(Entries(m)), '\n')| == 14
    ensures forall i :: 0 <= i < 14 ==>
      ParseEnvLine(Split(CopyAll(Entries(m)), '\n')[i]) == (KeyNames[i], NormalizeCrLf(Entries(m)[i].1))
  {
    KeyNamesPlain();
    CopyAllReadBack(Entries(m));
  }

  // ---- table rows -------------------------------------------------------------

  /** Only the Anthropic key is entered by hand in the hosting dashboard. */
  predicate IsManualKey(key: string) { key == "ANTHROPIC_API_KEY" }

  predicate IsSensitiveKey(key: string) {
    key == "MOLTBOOK_API_KEY" || key == "ANTHROPIC_API_KEY"
  }

  /** `value.startsWith('<') && value.endsWith('>')`. */
  predicate IsPlaceholder(v: string) { StartsWith(v, "<") && EndsWith(v, ">") }

  /** `!value || isPlaceholder`: the row treats the value as missing, greys
      it out and shows a label instead of it (see `ShownValue`). */
  predicate IsEmptyValue(v: string) { v == "" || IsPlaceholder(v) }

  /** The `displayValue` expression: a sensitive real value becomes bullets,
      at most 28 of them, and nothing of it leaks; any other value is kept
      as is. Empty and placeholder values never reach the page through it:
      `ShownValue` swaps in a label for those. */
  function DisplayValue(key: string, v: string): (r: string)
    ensures IsSensitiveKey(key) && !IsEmptyValue(v) ==>
      |r| == Min(|v|, 28) && forall i :: 0 <= i < |r| ==> r[i] == '•'
    ensures !IsSensitiveKey(key) || IsEmptyValue(v) ==> r == v
  {
    if IsSensitiveKey(key) && v != "" && !IsPlaceholder(v) then Repeat('•', Min(|v|, 28)) else v
  }

  /** Label shown in a single-line row whose value is empty or a placeholder. */
  const RailwayLabel: string := "(add your key in Railway)"

  /** Label shown in a multi-line row whose value is empty or a placeholder. */
  const EmptyLabel: string := "(empty)"

  /** The text the value column actually shows: a row whose value holds a
      line feed is a preformatted block, any other row a paragraph, and each
      replaces an empty or placeholder value by its own label. */
  function ShownValue(key: string, v: string): (r: string)
    ensures r != ""
    ensures !IsEmptyValue(v) ==> r == DisplayValue(key, v)
    ensures IsEmptyValue(v) && '\n' !in v ==> r == RailwayLabel
    ensures IsEmptyValue(v) && '\n' in v ==> r == EmptyLabel
    ensures v == "" ==> r == RailwayLabel
    ensures IsSensitiveKey(key) ==>
      r == RailwayLabel || r == EmptyLabel || forall i :: 0 <= i < |r| ==> r[i] == '•'
  {
    var multiLine := '\n' in v;
    if multiLine then (if IsEmptyValue(v) then EmptyLabel else DisplayValue(key, v))
    else (if IsEmptyValue(v) then RailwayLabel else DisplayValue(key, v))
  }

  /** The per-row copy button is disabled for empty values and manual keys. */
  predicate CopyDisabled(key: string, v: string) { IsEmptyValue(v) || IsManualKey(key) }

  /** On a built map, the Anthropic row never offers copying; without a
      caller key its value is the placeholder, which counts as empty, and the
      Moltbook row is empty until registration has stored a key. */
  lemma TableRowsOfBuiltMap(c: CharacterConfig, userApiKey: Option<string>)
    ensures var m := BuildEnvVars(c, userApiKey);
      && CopyDisabled("ANTHROPIC_API_KEY", m.anthropicApiKey)
      && (userApiKey.None? ==> IsEmptyValue(m.anthropicApiKey))
      && (c.moltbookApiKey.None? ==> CopyDisabled("MOLTBOOK_API_KEY", m.moltbookApiKey))
  {
    var p := AnthropicKeyPlaceholder;
    assert p[..1] == "<" && p[|p| - 1..] == ">";
  }

  /** What a freshly built map's rows show in place of missing values: the
      Anthropic placeholder, an unset search key and an empty list of example
      posts hold no line feed, so each reads "(add your key in Railway)" and
      none reads "(empty)". */
  lemma ShownValuesOfBuiltMap(c: CharacterConfig, userApiKey: Option<string>)
    ensures var m := BuildEnvVars(c, userApiKey);
      && (userApiKey.None? ==> ShownValue("ANTHROPIC_API_KEY", m.anthropicApiKey) == RailwayLabel)
      && (c.tavilyApiKey.None? ==> ShownValue("TAVILY_API_KEY", m.tavilyApiKey) == RailwayLabel)
      && (c.moltbookApiKey.None? ==> ShownValue("MOLTBOOK_API_KEY", m.moltbookApiKey) == RailwayLabel)
      && (c.examplePosts == [] ==> ShownValue("AGENT_EXAMPLE_POSTS", m.agentExamplePosts) == RailwayLabel)
  {
    var p := AnthropicKeyPlaceholder;
    assert p[..1] == "<" && p[|p| - 1..] == ">";
    assert '\n' !in p;
  }
}

=== FILE: examplesstep.dfy ===
/** The example-post editor on the Voice step
    (app/builder/steps/Step3Voice.tsx): add a trimmed draft, remove by
    index, edit in place. */
module ExamplesStep {
  import opened Text
  import opened Lists

  const MaxExamples: nat := 5
  const MaxExampleLength: nat := 200

  /** `addExample()`: the trimmed draft is appended unless it is empty,
      longer than 200 characters, or five examples exist already. */
  function AddExample(posts: seq<string>, draft: string): (r: seq<string>)
    ensures |posts| <= |r| <= |posts| + 1 && r[..|posts|] == posts
    ensures |r| == |posts| + 1 <==>
      Trim(draft) != "" && |Trim(draft)| <= MaxExampleLength && |posts| < MaxExamples
    ensures |r| == |posts| + 1 ==> r[|posts|] == Trim(draft)
  {
    var trimmed := Trim(draft);
    if trimmed == "" || |trimmed| > MaxExampleLength || |posts| >= MaxExamples then posts
    else posts + [trimmed]
  }

  /** `removeExample(i)`: example `i` goes and the others stay; an index
      that names no example changes nothing. */
  function RemoveExample(posts: seq<string>, i: int): (r: seq<string>)
    ensures 0 <= i < |posts| ==> |r| == |posts| - 1 && multiset(r) + multiset{posts[i]} == multiset(posts)
    ensures !(0 <= i < |posts|) ==> r == posts
  {
    if 0 <= i < |posts| then
      assert posts == posts[..i] + [posts[i]] + posts[i + 1..];
      RemoveAt(posts, i)
    else RemoveAt(posts, i)
  }

  /** Typing into example `i`: the text box holds at most 200 characters
      (`maxLength`), so the stored text is the typed one cut to that length;
      the other examples are untouched. */
  function EditExample(posts: seq<string>, i: int, text: string): (r: seq<string>)
    requires 0 <= i < |posts|
    ensures |r| == |posts| && |r[i]| <= MaxExampleLength
    ensures |text| <= MaxExampleLength ==> r[i] == text
    ensures StartsWith(text, r[i])
  {
    ReplaceAt(posts, i, text[..Min(|text|, MaxExampleLength)])
  }

  /** The schema's rules for example posts: at most five, each at most 200
      characters. */
  predicate WithinSchema(posts: seq<string>) {
    |posts| <= MaxExamples && forall i :: 0 <= i < |posts| ==> |posts[i]| <= MaxExampleLength
  }

  /** Adding, removing and editing all keep the examples within the
      schema. */
  lemma EditsKeepSchema(posts: seq<string>, draft: string, i: int, text: string)
    requires WithinSchema(posts)
    ensures WithinSchema(AddExample(posts, draft))
    ensures WithinSchema(RemoveExample(posts, i))
    ensures 0 <= i < |posts| ==> WithinSchema(EditExample(posts, i, text))
  {
  }

  /** Added examples are trimmed and non-empty; an edited one need not be:
      a blank edit survives here and is only dropped when the prompt is
      built. */
  lemma AddedIsCleanEditedNeedNotBe(posts: seq<string>, draft: string)
    requires |posts| < MaxExamples && |posts| >= 1
    ensures var r := AddExample(posts, draft);
      |r| > |posts| ==> IsTrimmed(r[|r| - 1]) && r[|r| - 1] != ""
    ensures EditExample(posts, 0, " ")[0] == " "
  {
  }

  /** Removing the example just added gives the list back. */
  lemma RemoveUndoesAdd(posts: seq<string>, draft: string)
    requires |AddExample(posts, draft)| == |posts| + 1
    ensures RemoveExample(AddExample(posts, draft), |posts|) == posts
  {
  }

  /** Editing example `i` changes only that example. */
  lemma EditTouchesOne(posts: seq<string>, i: int, text: string)
    requires 0 <= i < |posts|
    ensures forall k :: 0 <= k < |posts| && k != i ==> EditExample(posts, i, text)[k] == posts[k]
  {
  }
}

=== FILE: keywordtags.dfy ===
/** The keyword tag input (components/KeywordTagInput.tsx): a capped,
    duplicate-free list of trimmed lower-case tags. */
module KeywordTags {
  import opened Text
  import opened Lists

  const DefaultMaxTags: nat := 15

  /** `value.trim().toLowerCase()`. */
  function NormalizeTag(value: string): (t: string)
    ensures IsTrimmed(t) && IsLower(t)
  {
    LowerFacts(Trim(value));
    Lower(Trim(value))
  }

  /** A tag normalises to nothing exactly when it is all whitespace. */
  lemma NormalizeEmpty(value: string)
    ensures NormalizeTag(value) == "" <==> AllSpace(value)
  {
    var _, _ := TrimBounds(value);
  }

  /** `addTag(value)`: appends the normalised tag unless it is empty,
      already there, or the list is full. */
  function AddTag(tags: seq<string>, value: string, maxTags: int): (r: seq<string>)
    ensures |tags| <= |r| <= |tags| + 1 && r[..|tags|] == tags
    ensures |r| == |tags| + 1 <==>
      NormalizeTag(value) != "" && NormalizeTag(value) !in tags && |tags| < maxTags
    ensures |r| == |tags| + 1 ==> r[|tags|] == NormalizeTag(value)
  {
    var t := NormalizeTag(value);
    if t == "" || t in tags || |tags| >= maxTags then tags else tags + [t]
  }

  /** `removeTag(tag)`: every copy of `tag` goes, the rest keep their order. */
  function RemoveTag(tags: seq<string>, tag: string): (r: seq<string>)
    ensures tag !in r && |r| <= |tags|
    ensures forall x :: x in r <==> x in tags && x != tag
  {
    Without(tags, tag)
  }

  /** Backspace in an empty input removes the last tag. */
  function Backspace(tags: seq<string>, input: string): seq<string> {
    if input == "" && |tags| > 0 then RemoveTag(tags, tags[|tags| - 1]) else tags
  }

  /** What the component keeps: no duplicates, within the cap, every tag
      normalised and non-empty. */
  predicate Good(tags: seq<string>, maxTags: int) {
    && NoDuplicates(tags)
    && |tags| <= maxTags
    && forall i :: 0 <= i < |tags| ==> tags[i] != "" && NormalizeTag(tags[i]) == tags[i]
  }

  /** Adding keeps the list good. */
  lemma AddTagKeepsGood(tags: seq<string>, value: string, maxTags: int)
    requires Good(tags, maxTags)
    ensures Good(AddTag(tags, value, maxTags), maxTags)
  {
    var t := NormalizeTag(value);
    if t != "" && t !in tags && |tags| < maxTags {
      NormalizeIdempotent(value);
      var r := tags + [t];
      forall i, j | 0 <= i < j < |r| ensures r[i] != r[j] {
        if j == |tags| { assert r[i] == tags[i]; }
      }
    }
  }

  /** Normalising a normalised tag changes nothing. */
  lemma NormalizeIdempotent(value: string)
    ensures NormalizeTag(NormalizeTag(value)) == NormalizeTag(value)
  {
    var t := NormalizeTag(value);
    TrimFixedPoint(t);
    LowerFacts(Trim(value));
  }

  /** Adding the same text twice adds it once. */
  lemma AddTagIdempotent(tags: seq<string>, value: string, maxTags: int)
    ensures AddTag(AddTag(tags, value, maxTags), value, maxTags) == AddTag(tags, value, maxTags)
  {
  }

  /** Removing a tag just added gives the list back. */
  lemma RemoveUndoesAdd(tags: seq<string>, value: string, maxTags: int)
    requires NormalizeTag(value) != "" && NormalizeTag(value) !in tags && |tags| < maxTags
    ensures RemoveTag(AddTag(tags, value, maxTags), NormalizeTag(value)) == tags
  {
    var t := NormalizeTag(value);
    WithoutConcat(tags, [t], t);
    WithoutAbsent(tags, t);
    assert Without([t], t) == [];
    assert tags + [] == tags;
  }

  /** Removing keeps the list good. */
  lemma RemoveTagKeepsGood(tags: seq<string>, tag: string, maxTags: int)
    requires Good(tags, maxTags)
    ensures Good(RemoveTag(tags, tag), maxTags)
  {
    WithoutKeepsNoDuplicates(tags, tag);
    var r := RemoveTag(tags, tag);
    forall i | 0 <= i < |r| ensures r[i] != "" && NormalizeTag(r[i]) == r[i] {
      assert r[i] in tags;
    }
  }

  /** On a good list Backspace drops exactly the last tag. */
  lemma BackspaceDropsLast(tags: seq<string>, maxTags: int)
    requires Good(tags, maxTags) && |tags| > 0
    ensures Backspace(tags, "") == tags[..|tags| - 1]
  {
    WithoutLast(tags);
  }
}

=== FILE: lists.dfy ===
/** Sequence operations the list editors share: `filter` by value or by
    index, replacing one slot, `indexOf`, and dnd-kit's `arrayMove`. */
module Lists {

  predicate NoDuplicates<T(==)>(xs: seq<T>) {
    forall i, j :: 0 <= i < j < |xs| ==> xs[i] != xs[j]
  }

  /** `xs.filter(y => y !== x)`. */
  function Without<T(==)>(xs: seq<T>, x: T): (r: seq<T>)
    ensures x !in r
    ensures forall i :: 0 <= i < |r| ==> r[i] in xs && r[i] != x
    ensures forall i :: 0 <= i < |xs| && xs[i] != x ==> xs[i] in r
    ensures |r| <= |xs|
    ensures x in xs ==> |r| < |xs|
  {
    if |xs| == 0 then []
    else if xs[0] == x then Without(xs[1..], x)
    else [xs[0]] + Without(xs[1..], x)
  }

  /** Filtering by value distributes over concatenation, so the survivors
      keep their order. */
  lemma {:induction false} WithoutConcat<T>(a: seq<T>, b: seq<T>, x: T)
    ensures Without(a + b, x) == Without(a, x) + Without(b, x)
  {
    if |a| > 0 {
      assert (a + b)[1..] == a[1..] + b;
      WithoutConcat(a[1..], b, x);
    } else {
      assert a + b == b;
    }
  }

  /** Filtering out a value that is not there changes nothing. */
  lemma {:induction false} WithoutAbsent<T>(xs: seq<T>, x: T)
    requires x !in xs
    ensures Without(xs, x) == xs
  {
    if |xs| > 0 {
      assert x !in xs[1..];
      WithoutAbsent(xs[1..], x);
    }
  }

  /** A filtered duplicate-free list stays duplicate-free. */
  lemma {:induction false} WithoutKeepsNoDuplicates<T>(xs: seq<T>, x: T)
    requires NoDuplicates(xs)
    ensures NoDuplicates(Without(xs, x))
  {
    if |xs| > 0 {
      WithoutKeepsNoDuplicates(xs[1..], x);
      var r := Without(xs[1..], x);
      if xs[0] != x {
        assert xs[0] !in xs[1..];
        assert xs[0] !in r;
        var s := [xs[0]] + r;
        forall i, j | 0 <= i < j < |s|
          ensures s[i] != s[j]
        {
          if i == 0 {
            assert s[j] == r[j - 1];
          } else {
            assert s[i] == r[i - 1] && s[j] == r[j - 1];
          }
        }
      }
    }
  }

  /** Removing the last element of a duplicate-free list by value is
      dropping it. */
  lemma WithoutLast<T>(xs: seq<T>)
    requires |xs| > 0 && NoDuplicates(xs)
    ensures Without(xs, xs[|xs| - 1]) == xs[..|xs| - 1]
  {
    var init, last := xs[..|xs| - 1], xs[|xs| - 1];
    assert xs == init + [last];
    WithoutConcat(init, [last], last);
    assert last !in init by {
      forall i | 0 <= i < |init| ensures init[i] != last {
        assert init[i] == xs[i];
      }
    }
    WithoutAbsent(init, last);
    assert Without([last], last) == [];
    assert init + [] == init;
  }

  /** `xs.filter((_, i) => i !== k)`; an index outside the list removes
      nothing. */
  function RemoveAt<T>(xs: seq<T>, k: int): (r: seq<T>)
    ensures 0 <= k < |xs| ==> |r| == |xs| - 1
    ensures 0 <= k < |xs| ==> forall i :: 0 <= i < |r| ==> r[i] == xs[if i < k then i else i + 1]
    ensures !(0 <= k < |xs|) ==> r == xs
  {
    if 0 <= k < |xs| then xs[..k] + xs[k + 1..] else xs
  }

  /** `next = [...xs]; next[k] = v`. */
  function ReplaceAt<T>(xs: seq<T>, k: int, v: T): (r: seq<T>)
    requires 0 <= k < |xs|
    ensures |r| == |xs| && r[k] == v
    ensures forall i :: 0 <= i < |xs| && i != k ==> r[i] == xs[i]
  {
    xs[k := v]
  }

  /** `xs.indexOf(x)`: the first position of `x`, or -1. */
  function IndexOf<T(==)>(xs: seq<T>, x: T): (i: int)
    ensures -1 <= i < |xs|
    ensures i == -1 <==> x !in xs
    ensures i >= 0 ==> xs[i] == x && x !in xs[..i]
  {
    if |xs| == 0 then -1
    else if xs[0] == x then 0
    else
      var j := IndexOf(xs[1..], x);
      if j == -1 then -1
      else
        assert xs[..j + 1] == [xs[0]] + xs[1..][..j];
        j + 1
  }

  /** Where the element at position `k` after a move from `from` to `to`
      came from: the move as a permutation of positions. */
  function MoveSource(k: int, from: int, to: int): int {
    if k == to then from
    else if from < to && from <= k < to then k + 1
    else if to < from && to < k <= from then k - 1
    else k
  }

  /** dnd-kit `arrayMove(xs, from, to)`: take the element out at `from` and
      insert it at `to`. */
  function ArrayMove<T>(xs: seq<T>, from: int, to: int): (r: seq<T>)
    requires 0 <= from < |xs| && 0 <= to < |xs|
    ensures |r| == |xs|
  {
    var rest := xs[..from] + xs[from + 1..];
    rest[..to] + [xs[from]] + rest[to..]
  }

  /** The move is one permutation of positions applied to the list: the
      same `from`/`to` move every list the same way. */
  lemma ArrayMoveIsPermutation<T>(xs: seq<T>, from: int, to: int)
    requires 0 <= from < |xs| && 0 <= to < |xs|
    ensures forall k :: 0 <= k < |xs| ==>
      0 <= MoveSource(k, from, to) < |xs| && ArrayMove(xs, from, to)[k] == xs[MoveSource(k, from, to)]
    ensures multiset(ArrayMove(xs, from, to)) == multiset(xs)
  {
    var rest := xs[..from] + xs[from + 1..];
    var r := ArrayMove(xs, from, to);
    forall k | 0 <= k < |xs|
      ensures 0 <= MoveSource(k, from, to) < |xs| && r[k] == xs[MoveSource(k, from, to)]
    {
      if k < to {
        assert r[k] == rest[k];
      } else if k > to {
        assert r[k] == rest[k - 1];
      }
    }
    calc {
      multiset(r);
      multiset(rest[..to]) + multiset([xs[from]]) + multiset(rest[to..]);
      { assert rest == rest[..to] + rest[to..]; }
      multiset(rest) + multiset([xs[from]]);
      { assert xs == xs[..from] + [xs[from]] + xs[from + 1..]; }
      multiset(xs);
    }
  }

  /** Moving back undoes a move. */
  lemma ArrayMoveBack<T>(xs: seq<T>, from: int, to: int)
    requires 0 <= from < |xs| && 0 <= to < |xs|
    ensures ArrayMove(ArrayMove(xs, from, to), to, from) == xs
  {
    var r := ArrayMove(xs, from, to);
    ArrayMoveIsPermutation(xs, from, to);
    ArrayMoveIsPermutation(r, to, from);
    var b := ArrayMove(r, to, from);
    forall k | 0 <= k < |xs|
      ensures b[k] == xs[k]
    {
      assert MoveSource(MoveSource(k, to, from), from, to) == k;
    }
  }
}

=== FILE: namestep.dfy ===
/** The Name step (app/builder/steps/Step1Name.tsx): the input filter, the
    status shown before the availability request, and how the reply sets
    the status and the availability flag. */
module NameStep {
  import opened Text
  import opened Optional
  import opened Character

  /** `value.replace(/[^a-zA-Z0-9_]/g, '')`. */
  function FilterName(s: string): (r: string)
    ensures AllWordChars(r) && |r| <= |s|
    ensures AllWordChars(s) ==> r == s
  {
    if |s| == 0 then ""
    else if IsWordChar(s[0]) then [s[0]] + FilterName(s[1..])
    else FilterName(s[1..])
  }

  /** Filtering a filtered name changes nothing; a filtered name has no
      whitespace to trim; and filtering changes a name exactly when it has
      a character outside the class. */
  lemma FilterNameFacts(s: string)
    ensures FilterName(FilterName(s)) == FilterName(s)
    ensures Trim(FilterName(s)) == FilterName(s)
    ensures FilterName(s) == s <==> AllWordChars(s)
  {
    var f := FilterName(s);
    assert f == "" || (!IsSpace(f[0]) && !IsSpace(f[|f| - 1]));
    TrimFixedPoint(f);
  }

  /** The input's `maxLength`: the field never holds more characters. */
  const MaxNameInput := 20

  /** The name field: typing is ignored in edit mode; otherwise the field
      keeps at most `MaxNameInput` typed characters and the filter drops
      every character outside `[A-Za-z0-9_]`. */
  function NameAfterInput(current: string, typed: string, isEditMode: bool): (r: string)
    ensures isEditMode ==> r == current
    ensures !isEditMode ==> AllWordChars(r) && |r| <= MaxNameInput && |r| <= |typed|
    ensures !isEditMode && |typed| <= MaxNameInput && AllWordChars(typed) ==> r == typed
  {
    if isEditMode then current
    else FilterName(typed[..Min(|typed|, MaxNameInput)])
  }

  datatype Status = Idle | Checking | Available | Taken | Invalid | Error

  /** The status and availability set before any request, for the debounced
      name; `None` in edit mode, where nothing is checked. */
  function BeforeRequest(name: string, isEditMode: bool): (r: Option<(Status, bool)>)
    ensures isEditMode <==> r.None?
    ensures r.Some? ==> !r.value.1
    ensures r.Some? ==> (r.value.0 == Idle <==> Trim(name) == "")
    ensures r.Some? ==> (r.value.0 == Checking <==> IsValidName(Trim(name)))
    ensures r.Some? ==> r.value.0 in {Idle, Invalid, Checking}
  {
    if isEditMode then None
    else
      var n := Trim(name);
      if n == "" then Some((Idle, false))
      else if !IsValidName(n) then Some((Invalid, false))
      else Some((Checking, false))
  }

  /** What the availability request can come back with: a failure, or a
      body with optional `available` and `error` fields. */
  datatype Reply = Failed | Body(available: Option<bool>, error: Option<string>)

  /** Status and availability after the reply: a non-empty `error` or a
      failure is an error; otherwise `!!available` decides. */
  function AfterReply(reply: Reply): (r: (Status, bool))
    ensures r.1 <==> r.0 == Available
    ensures r.1 <==> reply.Body? && reply.error.GetOr("") == "" && reply.available == Some(true)
    ensures r.0 in {Available, Taken, Error}
  {
    match reply
    case Failed => (Error, false)
    case Body(available, error) =>
      if error.GetOr("") != "" then (Error, false)
      else if available == Some(true) then (Available, true)
      else (Taken, false)
  }

  /** For a name typed through the filter, the status before the request
      depends only on its length, which the input caps at 20: idle when
      empty, invalid below 3 characters, checking otherwise. */
  lemma FilteredNameStatus(current: string, typed: string)
    ensures var n := NameAfterInput(current, typed, false);
      var r := BeforeRequest(n, false);
      && |n| <= MaxNameInput
      && (r.value.0 == Idle <==> |n| == 0)
      && (r.value.0 == Invalid <==> 0 < |n| < 3)
      && (r.value.0 == Checking <==> 3 <= |n|)
  {
    var n := NameAfterInput(current, typed, false);
    FilterNameFacts(typed[..Min(|typed|, MaxNameInput)]);
  }

  // ---- availability across renames ----------------------------------------

  /** The page's view of the name: the current name and the availability
      flag. A reply carries the name its request was made for. */
  datatype NameCheck = NameCheck(name: string, available: bool)

  datatype NameEvent = Rename(next: string) | Replied(forName: string, reply: Reply)

  /** As written: a rename clears the flag (`handleSetConfig`), and any
      reply sets it, whichever name it was for. */
  function StepAsWritten(s: NameCheck, e: NameEvent): NameCheck {
    match e
    case Rename(next) => NameCheck(next, if next != s.name then false else s.available)
    case Replied(_, reply) => s.(available := AfterReply(reply).1)
  }

  /** A stale reply marks a name available that was never checked: the
      request for `abc` answers after the user has typed on to `abcd`. */
  lemma StaleReplyMarksUncheckedName()
    ensures var s0 := NameCheck("abc", false);
      var s1 := StepAsWritten(s0, Rename("abcd"));
      var s2 := StepAsWritten(s1, Replied("abc", Body(Some(true), None)));
      && s2.name == "abcd" && s2.available
      && !Justified(s2, {"abc"})
  {
    var s2 := NameCheck("abcd", true);
    assert Trim("abcd") == "abcd" by { TrimFixedPoint("abcd"); }
    assert "abcd" != "abc";
    assert !Justified(s2, {"abc"});
  }

  /** Corrected: a reply only counts for the name it was asked about. */
  function StepCorrected(s: NameCheck, e: NameEvent): NameCheck {
    match e
    case Rename(next) => NameCheck(next, if next != s.name then false else s.available)
    case Replied(forName, reply) =>
      if Trim(s.name) == forName then s.(available := AfterReply(reply).1) else s
  }

  /** The flag is justified when a reply for exactly the current (trimmed)
      name said it was available. */
  predicate Justified(s: NameCheck, confirmed: set<string>) {
    s.available ==> Trim(s.name) in confirmed
  }

  /** Names some reply has confirmed as available. */
  function Confirm(confirmed: set<string>, e: NameEvent): set<string> {
    match e
    case Rename(_) => confirmed
    case Replied(forName, reply) => if AfterReply(reply).1 then confirmed + {forName} else confirmed
  }

  /** In the corrected step the flag stays justified whatever arrives. */
  lemma CorrectedStaysJustified(s: NameCheck, confirmed: set<string>, e: NameEvent)
    requires Justified(s, confirmed)
    ensures Justified(StepCorrected(s, e), Confirm(confirmed, e))
  {
  }

  /** The stale reply that misleads the step as written is ignored by the
      corrected one. */
  lemma CorrectedIgnoresStaleReply()
    ensures var s1 := StepCorrected(NameCheck("abc", false), Rename("abcd"));
      !StepCorrected(s1, Replied("abc", Body(Some(true), None))).available
  {
    assert Trim("abcd") == "abcd" by { TrimFixedPoint("abcd"); }
  }
}

=== FILE: optional.dfy ===
/** Optional values: the model's reading of TypeScript's `undefined`/`null`
    for optional fields and of `a ?? b` defaulting. */
module Optional {

  datatype Option<+T> = None | Some(value: T) {

    /** The `??` operator: the carried value, or `default` when absent. */
    function GetOr(default: T): T {
      match this
      case Some(v) => v
      case None => default
    }
  }
}

=== FILE: persona.dfy ===
/** The Persona step (app/builder/steps/Step2Persona.tsx): starter texts with
    a `{name}` placeholder, and the length warnings on the core nature. */
module Persona {
  import opened Text
  import opened Character
  import opened Wizard

  const Placeholder: string := "{name}"

  /** `text.replace(/\{name\}/g, config.name || 'your agent')`. The
      replacement is inserted literally: JavaScript's `$&` and `$$`
      patterns cannot arise, since the Name step lets a name hold only
      `[A-Za-z0-9_]` and the fallbacks hold no `$`. */
  function ApplyStarter(text: string, name: string): string {
    ReplaceAll(text, Placeholder, if name == "" then "your agent" else name)
  }

  /** The starter preview: the same literal replacement, with `YourAgent`
      as its fallback instead. */
  function PreviewStarter(text: string, name: string): string {
    ReplaceAll(text, Placeholder, if name == "" then "YourAgent" else name)
  }

  /** Every `{` in the text opens a `{name}` placeholder. */
  predicate BracesOnlyInPlaceholders(t: string) {
    forall i :: 0 <= i < |t| && t[i] == '{' ==> StartsWith(t[i..], Placeholder)
  }

  /** When the only braces are placeholders and the replacement has none,
      no brace survives: every placeholder has been filled. */
  lemma {:induction false} ReplaceLeavesNoBrace(t: string, rep: string)
    requires BracesOnlyInPlaceholders(t) && '{' !in rep
    ensures '{' !in ReplaceAll(t, Placeholder, rep)
    decreases |t|
  {
    if StartsWith(t, Placeholder) {
      var rest := t[|Placeholder|..];
      assert BracesOnlyInPlaceholders(rest) by {
        forall i | 0 <= i < |rest| && rest[i] == '{'
          ensures StartsWith(rest[i..], Placeholder)
        {
          var k := i + |Placeholder|;
          assert t[k] == '{' && t[k..] == rest[i..];
        }
      }
      ReplaceLeavesNoBrace(rest, rep);
    } else if |t| > 0 {
      var rest := t[1..];
      assert BracesOnlyInPlaceholders(rest) by {
        forall i | 0 <= i < |rest| && rest[i] == '{'
          ensures StartsWith(rest[i..], Placeholder)
        {
          assert t[i + 1] == '{' && t[i + 1..] == rest[i..];
        }
      }
      ReplaceLeavesNoBrace(rest, rep);
    }
  }

  /** Applying a starter fills every placeholder, whether or not a name has
      been chosen yet: names hold only word characters. */
  lemma ApplyStarterFillsPlaceholders(text: string, name: string)
    requires BracesOnlyInPlaceholders(text) && AllWordChars(name)
    ensures '{' !in ApplyStarter(text, name)
  {
    var rep := if name == "" then "your agent" else name;
    ReplaceLeavesNoBrace(text, rep);
  }

  /** Once a name is set, the preview shows exactly what applying gives. */
  lemma PreviewMatchesOnceNamed(text: string, name: string)
    requires name != ""
    ensures PreviewStarter(text, name) == ApplyStarter(text, name)
  {
  }

  /** The two fallbacks differ, so before a name is chosen the preview and
      the applied text disagree wherever a placeholder appears. */
  lemma FallbacksDiffer()
    ensures ApplyStarter(Placeholder, "") == "your agent"
    ensures PreviewStarter(Placeholder, "") == "YourAgent"
  {
    assert StartsWith(Placeholder, Placeholder);
    assert Placeholder[|Placeholder|..] == "";
    assert "your agent" + "" == "your agent";
    assert "YourAgent" + "" == "YourAgent";
  }

  predicate TooShort(coreNature: string) { 0 < |coreNature| < 50 }
  predicate TooLong(coreNature: string) { |coreNature| > 2000 }

  /** The warnings and the Persona gate agree: the step can be left exactly
      when the text is non-empty and neither warning shows. Empty text shows
      no warning but still holds the step. */
  lemma WarningsMatchGate(c: CharacterConfig, nameAvailable: bool, edit: bool)
    ensures CanAdvance(1, c, nameAvailable, edit) <==>
      |c.coreNature| > 0 && !TooShort(c.coreNature) && !TooLong(c.coreNature)
    ensures !(TooShort(c.coreNature) && TooLong(c.coreNature))
    ensures c.coreNature == "" ==> !TooShort(c.coreNature) && !TooLong(c.coreNature)
  {
  }
}

=== FILE: prompt.dfy ===
/** System-prompt assembly (lib/buildSystemPrompt.ts): the `clean` sanitiser
    and the deterministic `buildSystemPrompt` assembler. */
module Prompt {
  import opened Text
  import opened Character

  /** The control characters `clean` deletes: U+0001–U+0008, U+000B, U+000C,
      U+000E–U+001F and U+007F. Tab, line feed and carriage return are not
      among them. */
  predicate IsControl(c: char) {
    var n := c as int;
    (0x01 <= n <= 0x08) || n == 0x0B || n == 0x0C || (0x0E <= n <= 0x1F) || n == 0x7F
  }

  /** A character `clean` never lets through. */
  predicate IsForbidden(c: char) {
    c as int == 0 || IsControl(c)
  }

  predicate NoForbidden(s: string) {
    forall i :: 0 <= i < |s| ==> !IsForbidden(s[i])
  }

  /** `.replace(/\x00/g, '')`. */
  function StripNul(s: string): string {
    if |s| == 0 then ""
    else (if s[0] as int == 0 then "" else [s[0]]) + StripNul(s[1..])
  }

  /** `.replace(/[\x01-\x08\x0b\x0c\x0e-\x1f\x7f]/g, '')`. */
  function StripControl(s: string): string {
    if |s| == 0 then ""
    else (if IsControl(s[0]) then "" else [s[0]]) + StripControl(s[1..])
  }

  /** `clean`: both character filters, then `trim`. */
  function Clean(text: string): string {
    Trim(StripControl(StripNul(text)))
  }

  /** Reference definition: one pass that keeps every character that is
      neither NUL nor one of the deleted control characters. */
  function KeepAllowed(s: string): (r: string)
    ensures NoForbidden(r)
    ensures NoForbidden(s) ==> r == s
  {
    if |s| == 0 then ""
    else (if IsForbidden(s[0]) then "" else [s[0]]) + KeepAllowed(s[1..])
  }

  lemma {:induction false} TwoFiltersAreOne(s: string)
    ensures StripControl(StripNul(s)) == KeepAllowed(s)
  {
    if |s| > 0 {
      TwoFiltersAreOne(s[1..]);
      var h := if s[0] as int == 0 then "" else [s[0]];
      assert StripNul(s) == h + StripNul(s[1..]);
      StripControlConcat(h, StripNul(s[1..]));
    }
  }

  lemma {:induction false} StripControlConcat(a: string, b: string)
    ensures StripControl(a + b) == StripControl(a) + StripControl(b)
  {
    if |a| == 0 {
      assert a + b == b;
    } else {
      assert (a + b)[1..] == a[1..] + b;
      StripControlConcat(a[1..], b);
    }
  }

  /** What `clean` does, stated without its two passes: delete the forbidden
      characters, then cut whitespace only from the two ends. The result is
      trimmed and free of NUL and of the deleted control characters. */
  lemma CleanSpec(text: string) returns (lead: string, trail: string)
    ensures KeepAllowed(text) == lead + Clean(text) + trail
    ensures AllSpace(lead) && AllSpace(trail)
    ensures IsTrimmed(Clean(text))
    ensures NoForbidden(Clean(text))
  {
    TwoFiltersAreOne(text);
    var k := KeepAllowed(text);
    assert Clean(text) == Trim(k);
    var i, j := TrimBounds(k);
    lead, trail := k[..i], k[j..];
    SliceThree(k, i, j);
    NoForbiddenSlice(k, i, j);
  }

  lemma SliceThree(s: string, i: int, j: int)
    requires 0 <= i <= j <= |s|
    ensures s == s[..i] + s[i..j] + s[j..]
  {
    assert s[..j] == s[..i] + s[i..j];
  }

  lemma NoForbiddenSlice(s: string, i: int, j: int)
    requires 0 <= i <= j <= |s| && NoForbidden(s)
    ensures NoForbidden(s[i..j])
  {
    assert forall m :: 0 <= m < j - i ==> s[i..j][m] == s[i + m];
  }

  /** `clean` leaves a text unchanged exactly when the text is already
      trimmed and free of the characters it deletes. */
  lemma CleanFixedPoint(text: string)
    ensures Clean(text) == text <==> (NoForbidden(text) && IsTrimmed(text))
  {
    var lead, trail := CleanSpec(text);
    if NoForbidden(text) && IsTrimmed(text) {
      TwoFiltersAreOne(text);
      TrimFixedPoint(text);
    }
  }

  /** Cleaning twice is cleaning once. */
  lemma CleanIdempotent(text: string)
    ensures Clean(Clean(text)) == Clean(text)
  {
    var lead, trail := CleanSpec(text);
    CleanFixedPoint(Clean(text));
  }

  /** The persona's name in the prompt: the cleaned name, or `Agent`. */
  function PersonaName(c: CharacterConfig): (n: string)
    ensures n != ""
    ensures Clean(c.name) != "" ==> n == Clean(c.name)
    ensures Clean(c.name) == "" ==> n == "Agent"
  {
    var n := Clean(c.name);
    if n == "" then "Agent" else n
  }

  // The fixed texts are written as concatenations of short literals so that
  // facts about their characters stay cheap for the verifier.

  /** The identity preamble's first line. */
  function PreambleLine(name: string): string {
    "You are " + name + PreambleTail
  }

  const PreambleTail: string := ". You exist on Moltbook, " + "a social network built " + "exclusively for AI agents."

  const RulesHeader: string := "VOICE RULES — these are absolute:"

  const ExamplesHeader: string := "EXAMPLE POSTS — style reference " + "only, do not repeat these:"

  /** The entry at position `i` of the VOICE RULES block, numbered from 1. */
  function NumberedRule(i: nat, rule: string): string {
    NatToString(i + 1) + ". " + Clean(rule)
  }

  /** The numbered entries of the VOICE RULES block, one per rule. */
  function NumberedRules(rules: seq<string>): (r: seq<string>)
    ensures |r| == |rules|
    ensures forall i :: 0 <= i < |rules| ==> r[i] == NumberedRule(i, rules[i])
  {
    seq(|rules|, i requires 0 <= i < |rules| => NumberedRule(i, rules[i]))
  }

  /** `examplePosts.map(clean).filter(Boolean)`. */
  function ValidExamples(posts: seq<string>): (r: seq<string>)
    ensures |r| <= |posts|
    ensures forall i :: 0 <= i < |r| ==> r[i] != ""
  {
    if |posts| == 0 then []
    else
      var rest := ValidExamples(posts[1..]);
      var head := Clean(posts[0]);
      if head == "" then rest else [head] + rest
  }

  /** Every survivor is the cleaned text of some post. */
  lemma {:induction false} ValidExamplesFromPosts(posts: seq<string>)
    ensures forall x :: x in ValidExamples(posts) ==> exists i :: 0 <= i < |posts| && Clean(posts[i]) == x
  {
    if |posts| > 0 {
      var tail := posts[1..];
      ValidExamplesFromPosts(tail);
      var rest := ValidExamples(tail);
      var head := Clean(posts[0]);
      assert ValidExamples(posts) == if head == "" then rest else [head] + rest;
      forall x | x in ValidExamples(posts)
        ensures exists i :: 0 <= i < |posts| && Clean(posts[i]) == x
      {
        if x in rest {
          var j :| 0 <= j < |tail| && Clean(tail[j]) == x;
          assert posts[j + 1] == tail[j];
        } else {
          assert Clean(posts[0]) == x;
        }
      }
    }
  }

  /** Every post whose cleaned text is not empty survives as that text. */
  lemma {:induction false} ValidExamplesKeepsPosts(posts: seq<string>)
    ensures forall i :: 0 <= i < |posts| && Clean(posts[i]) != "" ==> Clean(posts[i]) in ValidExamples(posts)
  {
    if |posts| > 0 {
      var tail := posts[1..];
      ValidExamplesKeepsPosts(tail);
      var rest := ValidExamples(tail);
      var head := Clean(posts[0]);
      assert ValidExamples(posts) == if head == "" then rest else [head] + rest;
      forall i | 0 <= i < |posts| && Clean(posts[i]) != ""
        ensures Clean(posts[i]) in ValidExamples(posts)
      {
        if i == 0 {
          assert ValidExamples(posts) == [head] + rest;
        } else {
          assert posts[i] == tail[i - 1];
          assert Clean(posts[i]) in rest;
          if head != "" {
            assert ValidExamples(posts) == [head] + rest;
          }
        }
      }
    }
  }

  /** The survivors are exactly the non-empty cleaned posts. */
  lemma ValidExamplesMembers(posts: seq<string>)
    ensures forall x :: x in ValidExamples(posts) <==> x != "" && exists i :: 0 <= i < |posts| && Clean(posts[i]) == x
  {
    ValidExamplesFromPosts(posts);
    ValidExamplesKeepsPosts(posts);
  }

  /** The filter keeps order: it distributes over concatenation, so the
      survivors are the non-empty cleaned posts in their original order. */
  lemma {:induction false} ValidExamplesConcat(a: seq<string>, b: seq<string>)
    ensures ValidExamples(a + b) == ValidExamples(a) + ValidExamples(b)
    decreases |a|
  {
    if |a| == 0 {
      assert a + b == b;
    } else {
      assert (a + b)[0] == a[0];
      assert (a + b)[1..] == a[1..] + b;
      ValidExamplesConcat(a[1..], b);
    }
  }

  /** One post survives as its cleaned text exactly when that is not empty. */
  lemma ValidExamplesSingle(p: string)
    ensures ValidExamples([p]) == if Clean(p) == "" then [] else [Clean(p)]
  {
    assert [p][1..] == [];
  }

  /** No example survives exactly when every example cleans to nothing. */
  lemma {:induction false} ValidExamplesEmpty(posts: seq<string>)
    ensures ValidExamples(posts) == [] <==> forall i :: 0 <= i < |posts| ==> Clean(posts[i]) == ""
  {
    if ValidExamples(posts) == [] {
      NoSurvivorAllEmpty(posts);
    }
    if forall i :: 0 <= i < |posts| ==> Clean(posts[i]) == "" {
      AllEmptyNoSurvivor(posts);
    }
  }

  lemma {:induction false} NoSurvivorAllEmpty(posts: seq<string>)
    requires ValidExamples(posts) == []
    ensures forall i :: 0 <= i < |posts| ==> Clean(posts[i]) == ""
  {
    if |posts| > 0 {
      var tail := posts[1..];
      assert Clean(posts[0]) == "";
      NoSurvivorAllEmpty(tail);
      forall i | 1 <= i < |posts| ensures Clean(posts[i]) == "" {
        assert posts[i] == tail[i - 1];
      }
    }
  }

  lemma {:induction false} AllEmptyNoSurvivor(posts: seq<string>)
    requires forall i :: 0 <= i < |posts| ==> Clean(posts[i]) == ""
    ensures ValidExamples(posts) == []
  {
    if |posts| > 0 {
      var tail := posts[1..];
      forall i | 0 <= i < |tail| ensures Clean(tail[i]) == "" {
        assert tail[i] == posts[i + 1];
      }
      AllEmptyNoSurvivor(tail);
    }
  }

  /** An example wrapped in double quotes; the text inside reads back as
      the example. */
  function Quote(p: string): (r: string)
    ensures |r| == |p| + 2 && r[0] == '"' && r[|r| - 1] == '"'
    ensures r[1..|r| - 1] == p
  {
    "\"" + p + "\""
  }

  /** Every surviving example, quoted, in order. */
  function Quoted(xs: seq<string>): (r: seq<string>)
    ensures |r| == |xs|
    ensures forall i :: 0 <= i < |xs| ==> r[i] == Quote(xs[i])
  {
    seq(|xs|, i requires 0 <= i < |xs| => Quote(xs[i]))
  }

  /** `buildSystemPrompt`. */
  function BuildSystemPrompt(c: CharacterConfig): string {
    var name := PersonaName(c);
    var core := Clean(c.coreNature);
    var rules := Join(NumberedRules(c.voiceRules), "\n");
    var prompt := PreambleLine(name) + "\n\n" + core + "\n\n" + RulesHeader + "\n\n" + rules + "\n";
    var ex := ValidExamples(c.examplePosts);
    if |ex| > 0 then prompt + "\n" + ExamplesHeader + "\n\n" + Join(Quoted(ex), "\n\n") + "\n" else prompt
  }

  /** The prompt opens with the identity preamble for the persona's name
      and a blank line, whatever the rest of the configuration holds. */
  lemma PromptStartsWithPreamble(c: CharacterConfig)
    ensures StartsWith(BuildSystemPrompt(c), "You are " + PersonaName(c) + PreambleTail + "\n\n")
  {
    PromptIsLines(c);
    LayoutStartsWith(PreambleLine(PersonaName(c)), Clean(c.coreNature), RulesHeader, ExamplesHeader,
      RuleBlock(c.voiceRules), Quoted(ValidExamples(c.examplePosts)));
  }

  lemma LayoutStartsWith(pre: string, core: string, h: string, eh: string, rb: seq<string>, qs: seq<string>)
    ensures StartsWith(Join(Layout(pre, core, h, eh, rb, qs), "\n"), pre + "\n\n")
  {
    var lines := Layout(pre, core, h, eh, rb, qs);
    var after := lines[2..];
    assert lines == [pre] + ([""] + after);
    JoinPrepend("", after, "\n");
    JoinPrepend(pre, [""] + after, "\n");
    PrefixShape(pre, Join(after, "\n"));
  }

  lemma PrefixShape(p: string, j: string)
    ensures StartsWith(p + "\n" + ("" + "\n" + j), p + "\n\n")
  {
    assert p + "\n" + ("" + "\n" + j) == (p + "\n\n") + j;
  }

  /** `xs` with a blank line between consecutive entries: the lines of
      `xs.join('\n\n')`. */
  function Spaced(xs: seq<string>): (r: seq<string>)
    ensures |xs| > 0 ==> |r| == 2 * |xs| - 1
  {
    if |xs| <= 1 then xs else [xs[0], ""] + Spaced(xs[1..])
  }

  lemma {:induction false} JoinSpaced(xs: seq<string>)
    ensures Join(Spaced(xs), "\n") == Join(xs, "\n\n")
  {
    if |xs| > 1 {
      JoinSpaced(xs[1..]);
      var s := Spaced(xs[1..]);
      assert [xs[0], ""] + s == [xs[0]] + ([""] + s);
      JoinPrepend(xs[0], [""] + s, "\n");
      JoinPrepend("", s, "\n");
    }
  }

  lemma JoinPrepend(x: string, xs: seq<string>, sep: string)
    requires |xs| > 0
    ensures Join([x] + xs, sep) == x + sep + Join(xs, sep)
  {
    assert ([x] + xs)[1..] == xs;
  }

  /** The rules part of the prompt as lines: the numbered entries, or a
      single blank line when there are no rules. */
  function RuleBlock(rules: seq<string>): (r: seq<string>)
    ensures |r| >= 1
  {
    if |rules| == 0 then [""] else NumberedRules(rules)
  }

  /** Reference definition of the prompt, line by line: preamble, blank,
      core nature, blank, rules header, blank, the numbered rules, blank and,
      only when some example survives cleaning, the examples header, blank,
      the quoted examples separated by blank lines, blank. */
  function PromptLines(c: CharacterConfig): seq<string> {
    Layout(PreambleLine(PersonaName(c)), Clean(c.coreNature), RulesHeader, ExamplesHeader,
      RuleBlock(c.voiceRules), Quoted(ValidExamples(c.examplePosts)))
  }

  /** The line layout with every part abstract. */
  function Layout(pre: string, core: string, h: string, eh: string, rb: seq<string>, qs: seq<string>): seq<string> {
    [pre, "", core, "", h, ""] + rb + [""] + (if |qs| > 0 then [eh, ""] + Spaced(qs) + [""] else [])
  }

  /** The assembled prompt is exactly the reference lines joined by line
      feeds: sections appear in the fixed order and the examples section is
      present exactly when an example survives cleaning. */
  lemma PromptIsLines(c: CharacterConfig)
    ensures BuildSystemPrompt(c) == Join(PromptLines(c), "\n")
  {
    assert Join(RuleBlock(c.voiceRules), "\n") == Join(NumberedRules(c.voiceRules), "\n");
    AssemblyLines(PreambleLine(PersonaName(c)), Clean(c.coreNature), RulesHeader, ExamplesHeader,
      RuleBlock(c.voiceRules), Quoted(ValidExamples(c.examplePosts)));
  }

  /** The assembly, with every part abstract. */
  lemma AssemblyLines(pre: string, core: string, h: string, eh: string, rb: seq<string>, qs: seq<string>)
    requires |rb| > 0
    ensures var prompt := pre + "\n\n" + core + "\n\n" + h + "\n\n" + Join(rb, "\n") + "\n";
      (if |qs| > 0 then prompt + "\n" + eh + "\n\n" + Join(qs, "\n\n") + "\n" else prompt)
      == Join(Layout(pre, core, h, eh, rb, qs), "\n")
  {
    var base := [pre, "", core, "", h, ""] + rb + [""];
    BaseLines(pre, core, h, rb);
    var prompt := pre + "\n\n" + core + "\n\n" + h + "\n\n" + Join(rb, "\n") + "\n";
    if |qs| > 0 {
      var tail := [eh, ""] + Spaced(qs) + [""];
      ExampleLines(eh, qs);
      JoinConcat(base, tail, "\n");
      AppendShape(prompt, eh, Join(qs, "\n\n"));
    } else {
      assert base + [] == base;
    }
  }

  /** The six lines before the rules. */
  lemma HeadLines(p: string, core: string, h: string)
    ensures Join([p, "", core, "", h, ""], "\n") == p + "\n\n" + core + "\n\n" + h + "\n"
  {
    JoinPrepend(h, [""], "\n");
    assert Join([h, ""], "\n") == h + "\n";
    JoinPrepend("", [h, ""], "\n");
    assert Join(["", h, ""], "\n") == "\n" + h + "\n";
    JoinPrepend(core, ["", h, ""], "\n");
    assert ["", h, ""] == [""] + [h, ""];
    assert Join([core, "", h, ""], "\n") == core + "\n\n" + h + "\n";
    JoinPrepend("", [core, "", h, ""], "\n");
    JoinPrepend(p, ["", core, "", h, ""], "\n");
  }

  /** The lines up to and including the blank after the rules. */
  lemma BaseLines(p: string, core: string, h: string, rb: seq<string>)
    requires |rb| > 0
    ensures Join([p, "", core, "", h, ""] + rb + [""], "\n")
      == p + "\n\n" + core + "\n\n" + h + "\n\n" + Join(rb, "\n") + "\n"
  {
    var head := [p, "", core, "", h, ""];
    HeadLines(p, core, h);
    var x := p + "\n\n" + core + "\n\n" + h;
    assert Join(head, "\n") == x + "\n";
    BlockAfter(head, rb, "\n");
    NewlineShape(x, Join(rb, "\n"));
  }

  /** A block of lines followed by a blank line, after some head lines. */
  lemma BlockAfter(head: seq<string>, rb: seq<string>, sep: string)
    requires |head| > 0 && |rb| > 0
    ensures Join(head + rb + [""], sep) == Join(head, sep) + sep + Join(rb, sep) + sep
  {
    JoinConcat(head, rb, sep);
    JoinConcat(head + rb, [""], sep);
  }

  lemma NewlineShape(x: string, j: string)
    ensures x + "\n" + "\n" + j + "\n" == x + "\n\n" + j + "\n"
  {
  }

  /** The lines of the examples section. */
  lemma ExampleLines(h: string, qs: seq<string>)
    requires |qs| > 0
    ensures Join([h, ""] + Spaced(qs) + [""], "\n") == h + "\n\n" + Join(qs, "\n\n") + "\n"
  {
    JoinSpaced(qs);
    SectionLines(h, Spaced(qs));
  }

  lemma SectionLines(h: string, body: seq<string>)
    requires |body| > 0
    ensures Join([h, ""] + body + [""], "\n") == h + "\n\n" + Join(body, "\n") + "\n"
  {
    var tail := body + [""];
    SectionListShape(h, body);
    JoinConcat(body, [""], "\n");
    JoinPrepend("", tail, "\n");
    JoinPrepend(h, [""] + tail, "\n");
    SectionTextShape(h, Join(body, "\n"));
  }

  lemma SectionListShape(h: string, body: seq<string>)
    ensures [h, ""] + body + [""] == [h] + ([""] + (body + [""]))
  {
  }

  lemma SectionTextShape(h: string, j: string)
    ensures h + "\n" + ("" + "\n" + (j + "\n" + "")) == h + "\n\n" + j + "\n"
  {
  }

  lemma AppendShape(p: string, h: string, j: string)
    ensures p + "\n" + (h + "\n\n" + j + "\n") == p + "\n" + h + "\n\n" + j + "\n"
  {
  }

  predicate SingleLine(s: string) {
    '\n' !in s
  }

  /** Every piece the prompt is assembled from stays on one line. */
  predicate SingleLineParts(c: CharacterConfig) {
    && SingleLine(Clean(c.name))
    && SingleLine(Clean(c.coreNature))
    && (forall i :: 0 <= i < |c.voiceRules| ==> SingleLine(Clean(c.voiceRules[i])))
    && (forall i :: 0 <= i < |c.examplePosts| ==> SingleLine(Clean(c.examplePosts[i])))
  }

  lemma NatToStringSingleLine(n: nat)
    ensures SingleLine(NatToString(n))
  {
    var s := NatToString(n);
    assert forall i :: 0 <= i < |s| ==> s[i] != '\n';
  }

  lemma {:induction false} ValidExamplesSingleLine(posts: seq<string>)
    requires forall i :: 0 <= i < |posts| ==> SingleLine(Clean(posts[i]))
    ensures forall i :: 0 <= i < |ValidExamples(posts)| ==> SingleLine(ValidExamples(posts)[i])
  {
    var r := ValidExamples(posts);
    ValidExamplesMembers(posts);
    forall i | 0 <= i < |r|
      ensures SingleLine(r[i])
    {
      assert r[i] in r;
      var j :| 0 <= j < |posts| && Clean(posts[j]) == r[i];
    }
  }

  lemma {:induction false} SpacedKeeps(xs: seq<string>, p: string -> bool)
    requires forall i :: 0 <= i < |xs| ==> p(xs[i])
    requires p("")
    ensures forall i :: 0 <= i < |Spaced(xs)| ==> p(Spaced(xs)[i])
  {
    if |xs| > 1 {
      SpacedKeeps(xs[1..], p);
    }
  }

  lemma SingleLineConcat(a: string, b: string)
    requires SingleLine(a) && SingleLine(b)
    ensures SingleLine(a + b)
  {
    assert forall i :: 0 <= i < |a + b| ==> (a + b)[i] == if i < |a| then a[i] else b[i - |a|];
  }

  lemma FixedTextSingleLine(name: string)
    requires SingleLine(name)
    ensures SingleLine(PreambleLine(name))
    ensures SingleLine(RulesHeader) && SingleLine(ExamplesHeader)
  {
    PreambleTailSingleLine();
    ExamplesHeaderSingleLine();
    assert SingleLine("You are ");
    SingleLineConcat("You are ", name);
    SingleLineConcat("You are " + name, PreambleTail);
  }

  lemma PreambleTailSingleLine()
    ensures SingleLine(PreambleTail)
  {
    var a, b, c := ". You exist on Moltbook, ", "a social network built ", "exclusively for AI agents.";
    PreamblePartsSingleLine();
    SingleLineConcat(a, b);
    SingleLineConcat(a + b, c);
  }

  lemma PreamblePartsSingleLine()
    ensures SingleLine(". You exist on Moltbook, ")
    ensures SingleLine("a social network built ")
    ensures SingleLine("exclusively for AI agents.")
  {
    NoNewline(". You exist on Moltbook, ");
    NoNewline("a social network built ");
    NoNewline("exclusively for AI agents.");
  }

  /** A text of printable ASCII characters is one line. */
  lemma NoNewline(s: string)
    requires forall i :: 0 <= i < |s| ==> ' ' <= s[i] <= '~'
    ensures SingleLine(s)
  {
  }

  lemma ExamplesHeaderSingleLine()
    ensures SingleLine(ExamplesHeader)
  {
    var a, b := "EXAMPLE POSTS — style reference ", "only, do not repeat these:";
    assert SingleLine(a);
    assert SingleLine(b);
    SingleLineConcat(a, b);
  }

  /** With every part on one line, every reference line is one line. */
  lemma LinesAreSingle(pre: string, core: string, h: string, eh: string, rb: seq<string>, qs: seq<string>)
    requires SingleLine(pre) && SingleLine(core) && SingleLine(h) && SingleLine(eh)
    requires forall i :: 0 <= i < |rb| ==> SingleLine(rb[i])
    requires forall i :: 0 <= i < |qs| ==> SingleLine(qs[i])
    ensures forall i :: 0 <= i < |Layout(pre, core, h, eh, rb, qs)| ==> SingleLine(Layout(pre, core, h, eh, rb, qs)[i])
  {
    var sp := Spaced(qs);
    SpacedKeeps(qs, SingleLine);
    var lines := Layout(pre, core, h, eh, rb, qs);
    forall i | 0 <= i < |lines|
      ensures SingleLine(lines[i])
    {
      if i < 6 {
      } else if i < 6 + |rb| {
        assert lines[i] == rb[i - 6];
      } else if i == 6 + |rb| {
      } else {
        var k := i - 7 - |rb|;
        if k >= 2 && k < 2 + |sp| {
          assert lines[i] == sp[k - 2];
        }
      }
    }
  }

  /** When every part is a single line, reading the prompt back line by line
      gives exactly the reference lines; in particular voice rule `i` is on
      line `7 + i` (counting from 1) as `i+1. ` followed by the cleaned rule,
      one line per rule even when a rule cleans to nothing. */
  lemma PromptLinesReadBack(c: CharacterConfig)
    requires SingleLineParts(c)
    ensures Split(BuildSystemPrompt(c), '\n') == PromptLines(c)
    ensures forall i :: 0 <= i < |c.voiceRules| ==>
      Split(BuildSystemPrompt(c), '\n')[6 + i] == NatToString(i + 1) + ". " + Clean(c.voiceRules[i])
  {
    PromptIsLines(c);
    PromptLinesSingle(c);
    SplitJoin(PromptLines(c), '\n');
    RuleLinePositions(c);
  }

  lemma RuleLinePositions(c: CharacterConfig)
    ensures forall i :: 0 <= i < |c.voiceRules| ==>
      PromptLines(c)[6 + i] == NumberedRule(i, c.voiceRules[i])
  {
    var rb := RuleBlock(c.voiceRules);
    LayoutRuleLines(PreambleLine(PersonaName(c)), Clean(c.coreNature), RulesHeader, ExamplesHeader,
      rb, Quoted(ValidExamples(c.examplePosts)));
  }

  /** In the layout, the rule lines start at line 6 (counting from 0). */
  lemma LayoutRuleLines(pre: string, core: string, h: string, eh: string, rb: seq<string>, qs: seq<string>)
    ensures |Layout(pre, core, h, eh, rb, qs)| >= 6 + |rb|
    ensures forall i :: 0 <= i < |rb| ==> Layout(pre, core, h, eh, rb, qs)[6 + i] == rb[i]
  {
    var tail := [""] + (if |qs| > 0 then [eh, ""] + Spaced(qs) + [""] else []);
    assert Layout(pre, core, h, eh, rb, qs) == [pre, "", core, "", h, ""] + rb + tail;
  }

  lemma PromptLinesSingle(c: CharacterConfig)
    requires SingleLineParts(c)
    ensures forall i :: 0 <= i < |PromptLines(c)| ==> SingleLine(PromptLines(c)[i])
  {
    var ex := ValidExamples(c.examplePosts);
    ValidExamplesSingleLine(c.examplePosts);
    var qs := Quoted(ex);
    QuotedSingleLine(ex);
    var rb := RuleBlock(c.voiceRules);
    RulesSingleLine(c.voiceRules);
    var name := PersonaName(c);
    assert SingleLine(name) by {
      if Clean(c.name) == "" { assert SingleLine("Agent"); }
    }
    FixedTextSingleLine(name);
    var pre, core := PreambleLine(name), Clean(c.coreNature);
    assert SingleLine(core);
    LinesAreSingle(pre, core, RulesHeader, ExamplesHeader, rb, qs);
    assert PromptLines(c) == Layout(pre, core, RulesHeader, ExamplesHeader, rb, qs);
  }

  lemma QuotedSingleLine(xs: seq<string>)
    requires forall i :: 0 <= i < |xs| ==> SingleLine(xs[i])
    ensures forall i :: 0 <= i < |Quoted(xs)| ==> SingleLine(Quoted(xs)[i])
  {
    forall i | 0 <= i < |xs|
      ensures SingleLine(Quoted(xs)[i])
    {
      SingleLineConcat("\"", xs[i]);
      SingleLineConcat("\"" + xs[i], "\"");
    }
  }

  lemma RulesSingleLine(rules: seq<string>)
    requires forall i :: 0 <= i < |rules| ==> SingleLine(Clean(rules[i]))
    ensures forall i :: 0 <= i < |RuleBlock(rules)| ==> SingleLine(RuleBlock(rules)[i])
  {
    if |rules| == 0 {
      assert RuleBlock(rules) == [""];
    } else {
      NumberedSingle(rules);
    }
  }

  lemma NumberedSingle(rules: seq<string>)
    requires forall i :: 0 <= i < |rules| ==> SingleLine(Clean(rules[i]))
    ensures forall i :: 0 <= i < |NumberedRules(rules)| ==> SingleLine(NumberedRules(rules)[i])
  {
    var nr := NumberedRules(rules);
    forall i | 0 <= i < |rules|
      ensures SingleLine(nr[i])
    {
      NumberedLineSingle(i, rules[i]);
    }
  }

  lemma NumberedLineSingle(i: nat, rule: string)
    requires SingleLine(Clean(rule))
    ensures SingleLine(NumberedRule(i, rule))
  {
    NatToStringSingleLine(i + 1);
    SingleLineConcat(NatToString(i + 1), ". ");
    SingleLineConcat(NatToString(i + 1) + ". ", Clean(rule));
  }
}

=== FILE: ratelimiter.dfy ===
/** The fixed-window rate limiter (lib/rateLimiter.ts): per key, a request
    count and the start of the current window. The clock reading `now` is a
    parameter; the store is the limiter's map. */
module RateLimiter {
  import opened Text

  datatype Entry = Entry(count: int, windowStart: int)

  datatype Decision = Decision(allowed: bool, remaining: int)

  type Store = map<string, Entry>

  /** `checkRateLimit(key, maxRequests, windowMs)` at time `now`: the store
      afterwards and the answer. */
  function Check(store: Store, key: string, maxRequests: int, windowMs: int, now: int): (r: (Store, Decision))
    ensures r.0.Keys == store.Keys + {key}
    ensures forall k :: k in store && k != key ==> r.0[k] == store[k]
    ensures r.1.allowed <==>
      key !in store || now - store[key].windowStart > windowMs || store[key].count < maxRequests
    ensures r.1.allowed ==> r.1.remaining == maxRequests - r.0[key].count
    ensures !r.1.allowed ==> r.0 == store && r.1.remaining == 0
  {
    if key !in store || now - store[key].windowStart > windowMs then
      (store[key := Entry(1, now)], Decision(true, maxRequests - 1))
    else if store[key].count >= maxRequests then
      (store, Decision(false, 0))
    else
      var e := store[key];
      (store[key := e.(count := e.count + 1)], Decision(true, maxRequests - (e.count + 1)))
  }

  /** Every stored count lies between 1 and the maximum. */
  predicate WithinLimit(store: Store, maxRequests: int) {
    forall k :: k in store ==> 1 <= store[k].count <= maxRequests
  }

  /** With a positive maximum, no call ever pushes a count past it. */
  lemma CheckKeepsWithinLimit(store: Store, key: string, maxRequests: int, windowMs: int, now: int)
    requires maxRequests >= 1
    requires WithinLimit(store, maxRequests)
    ensures WithinLimit(Check(store, key, maxRequests, windowMs, now).0, maxRequests)
  {
  }

  /** A key with no entry, or whose window has run out, gets a window
      starting at `now` with a count of one. */
  lemma ExpiredWindowRestarts(store: Store, key: string, maxRequests: int, windowMs: int, now: int)
    requires key !in store || now - store[key].windowStart > windowMs
    ensures Check(store, key, maxRequests, windowMs, now).0[key] == Entry(1, now)
    ensures Check(store, key, maxRequests, windowMs, now).1 == Decision(true, maxRequests - 1)
  {
  }

  /** The window is closed at its far end: a call exactly `windowMs` after
      the window opened still counts against it. */
  lemma BoundaryIsInsideWindow(store: Store, key: string, maxRequests: int, windowMs: int)
    requires key in store
    ensures var e := store[key];
      var r := Check(store, key, maxRequests, windowMs, e.windowStart + windowMs);
      && r.0[key].windowStart == e.windowStart
      && (e.count >= maxRequests ==> !r.1.allowed)
  {
  }

  /** A sequence of calls for one key at the given times: the store
      afterwards and how many of the calls were allowed. */
  function Run(store: Store, key: string, maxRequests: int, windowMs: int, times: seq<int>): (r: (Store, nat))
    ensures r.1 <= |times|
    ensures key in store || |times| > 0 ==> key in r.0
    decreases |times|
  {
    if |times| == 0 then (store, 0)
    else
      var (s1, d) := Check(store, key, maxRequests, windowMs, times[0]);
      var (s2, n) := Run(s1, key, maxRequests, windowMs, times[1..]);
      (s2, n + if d.allowed then 1 else 0)
  }

  /** Inside an open window with count `c`, a run of calls is allowed
      exactly `maxRequests - c` more times, however many calls are made. */
  lemma {:induction false} RunInsideWindow(store: Store, key: string, maxRequests: int, windowMs: int, times: seq<int>)
    requires key in store && 1 <= store[key].count <= maxRequests
    requires forall i :: 0 <= i < |times| ==> times[i] - store[key].windowStart <= windowMs
    ensures var r := Run(store, key, maxRequests, windowMs, times);
      && r.1 == Min(|times|, maxRequests - store[key].count)
      && r.0[key] == Entry(store[key].count + r.1, store[key].windowStart)
  {
    if |times| > 0 {
      var (s1, d) := Check(store, key, maxRequests, windowMs, times[0]);
      assert s1[key].windowStart == store[key].windowStart;
      RunInsideWindow(s1, key, maxRequests, windowMs, times[1..]);
    }
  }

  /** For a key with no entry, whatever calls fall within `windowMs` of the
      first one are allowed exactly `maxRequests` times at most: the first
      opens the window and the limit caps the rest. */
  lemma AtMostMaxPerWindow(store: Store, key: string, maxRequests: int, windowMs: int, times: seq<int>)
    requires maxRequests >= 1
    requires key !in store && |times| > 0
    requires forall i :: 0 <= i < |times| ==> times[i] - times[0] <= windowMs
    ensures Run(store, key, maxRequests, windowMs, times).1 == Min(|times|, maxRequests)
  {
    var s1 := Check(store, key, maxRequests, windowMs, times[0]).0;
    assert s1[key] == Entry(1, times[0]);
    RunInsideWindow(s1, key, maxRequests, windowMs, times[1..]);
  }

  /** Three requests per second: the fourth call inside the second is
      refused, the call on the boundary too, and the next one after it opens
      a new window. */
  lemma ThreePerSecondScenario(key: string)
    ensures var s0: Store := map[];
      var (s1, d1) := Check(s0, key, 3, 1000, 0);
      var (s2, d2) := Check(s1, key, 3, 1000, 10);
      var (s3, d3) := Check(s2, key, 3, 1000, 20);
      var (s4, d4) := Check(s3, key, 3, 1000, 30);
      var (s5, d5) := Check(s4, key, 3, 1000, 1000);
      var (s6, d6) := Check(s5, key, 3, 1000, 1001);
      && d1 == Decision(true, 2) && d2 == Decision(true, 1) && d3 == Decision(true, 0)
      && d4 == Decision(false, 0) && d5 == Decision(false, 0)
      && d6 == Decision(true, 2) && s6[key] == Entry(1, 1001)
  {
  }
}

=== FILE: submolts.dfy ===
/** The submolt picker (components/SubmoltSelector.tsx): a capped selection
    toggled from a list of known names, custom names, and the names read
    from the submolt listing. */
module Submolts {
  import opened Text
  import opened Optional
  import opened Lists
  import opened KeywordTags

  const DefaultMaxSelections: nat := 5

  /** `FALLBACK_SUBMOLTS`, shown until a listing arrives. */
  const Fallback: seq<string> := ["general", "philosophy", "consciousness", "agentculture",
    "agentbehavior", "creativity", "language", "memory", "identity"]

  /** `toggle(name)`: a selected name is removed; an unselected one is
      appended while there is room. */
  function Toggle(selected: seq<string>, name: string, maxSelections: int): (r: seq<string>)
    ensures name in selected ==> name !in r && |r| < |selected|
    ensures name in selected ==> forall x :: x in r <==> x in selected && x != name
    ensures name !in selected && |selected| < maxSelections ==> r == selected + [name]
    ensures name !in selected && |selected| >= maxSelections ==> r == selected
  {
    if name in selected then Without(selected, name)
    else if |selected| < maxSelections then selected + [name]
    else selected
  }

  /** Toggling an unselected name twice, with room for it, restores the
      selection. */
  lemma ToggleTwiceRestores(selected: seq<string>, name: string, maxSelections: int)
    requires name !in selected && |selected| < maxSelections
    ensures Toggle(Toggle(selected, name, maxSelections), name, maxSelections) == selected
  {
    WithoutConcat(selected, [name], name);
    WithoutAbsent(selected, name);
    assert Without([name], name) == [];
    assert selected + [] == selected;
  }

  /** Toggling keeps the selection duplicate-free and within the cap. */
  lemma ToggleKeepsInvariant(selected: seq<string>, name: string, maxSelections: int)
    requires NoDuplicates(selected) && |selected| <= maxSelections
    ensures var r := Toggle(selected, name, maxSelections);
      NoDuplicates(r) && |r| <= maxSelections
  {
    if name in selected {
      WithoutKeepsNoDuplicates(selected, name);
    } else if |selected| < maxSelections {
      var r := selected + [name];
      forall i, j | 0 <= i < j < |r| ensures r[i] != r[j] {
        if j == |selected| { assert r[i] == selected[i]; }
      }
    }
  }

  /** `addCustom()`: the trimmed lower-case name is selected (and added to
      the known names if new) unless it is empty, already selected, or the
      selection is full. Returns the new selection and known names. */
  function AddCustom(selected: seq<string>, known: seq<string>, custom: string, maxSelections: int)
    : (r: (seq<string>, seq<string>))
    ensures var t := NormalizeTag(custom);
      && (r.0 == selected || r.0 == selected + [t])
      && (r.0 != selected <==> t != "" && t !in selected && |selected| < maxSelections)
      && (r.0 != selected ==> t in r.1)
      && |known| <= |r.1| && r.1[..|known|] == known
      && (r.0 == selected ==> r.1 == known)
      && (t in known ==> r.1 == known)
  {
    var t := NormalizeTag(custom);
    if t == "" || t in selected || |selected| >= maxSelections then (selected, known)
    else (selected + [t], if t in known then known else known + [t])
  }

  /** One entry of the submolt listing, each field possibly absent. */
  datatype Listed = Listed(name: Option<string>, slug: Option<string>, id: Option<string>)

  /** `s.name ?? s.slug ?? s.id ?? ''`: the first field present, even when
      it is empty. */
  function ListedName(s: Listed): string {
    match s.name
    case Some(n) => n
    case None =>
      match s.slug
      case Some(g) => g
      case None => s.id.GetOr("")
  }

  /** The listing's names with the empty ones dropped: every name kept is
      the name of some entry, and every entry with a name is kept. */
  function ListingNames(listing: seq<Listed>): (r: seq<string>)
    ensures |r| <= |listing|
    ensures forall i :: 0 <= i < |r| ==> r[i] != ""
    ensures forall x :: x in r ==> exists i :: 0 <= i < |listing| && ListedName(listing[i]) == x
    ensures forall i :: 0 <= i < |listing| && ListedName(listing[i]) != "" ==> ListedName(listing[i]) in r
  {
    if |listing| == 0 then []
    else
      var n := ListedName(listing[0]);
      var rest := ListingNames(listing[1..]);
      assert forall i :: 1 <= i < |listing| ==> listing[i] == listing[1..][i - 1];
      if n == "" then rest else [n] + rest
  }

  /** The names keep listing order: the filter distributes over
      concatenation. */
  lemma {:induction false} ListingNamesConcat(a: seq<Listed>, b: seq<Listed>)
    ensures ListingNames(a + b) == ListingNames(a) + ListingNames(b)
    decreases |a|
  {
    if |a| == 0 {
      assert a + b == b;
    } else {
      assert (a + b)[0] == a[0];
      assert (a + b)[1..] == a[1..] + b;
      ListingNamesConcat(a[1..], b);
    }
  }

  /** The known names after the listing request: replaced by the listing's
      names when there is at least one, kept as they are when there are
      none or the request failed (`None`). */
  function AfterListing(current: seq<string>, response: Option<seq<Listed>>): (r: seq<string>)
    ensures response.None? ==> r == current
    ensures response.Some? && ListingNames(response.value) != [] ==> r == ListingNames(response.value)
    ensures response.Some? && ListingNames(response.value) == [] ==> r == current
  {
    match response
    case None => current
    case Some(listing) =>
      var names := ListingNames(listing);
      if |names| > 0 then names else current
  }

  /** The known names never become empty: starting from the fallback list,
      every listing outcome leaves at least one name. */
  lemma KnownNamesNeverEmpty(current: seq<string>, response: Option<seq<Listed>>)
    requires |current| > 0
    ensures |AfterListing(current, response)| > 0
  {
  }

  /** An entry whose `name` is present but empty is dropped even when it has
      a slug: `??` only skips absent fields. */
  lemma EmptyNameHidesSlug()
    ensures ListingNames([Listed(Some(""), Some("philosophy"), None)]) == []
    ensures ListingNames([Listed(None, Some("philosophy"), None)]) == ["philosophy"]
  {
  }
}

=== FILE: text.dfy ===
/** String helpers shared by every module: the JavaScript string operations
    the application relies on (`trim`, ASCII case mapping, `join`, `split`,
    global `replace`, `String(n)` for integers), each defined once. */
module Text {

  /** ECMAScript WhiteSpace and LineTerminator code points: exactly the
      characters `String.prototype.trim` removes from either end. */
  predicate IsSpace(c: char) {
    var n := c as int;
    n == 0x09 || n == 0x0A || n == 0x0B || n == 0x0C || n == 0x0D || n == 0x20
    || n == 0xA0 || n == 0x1680 || (0x2000 <= n <= 0x200A) || n == 0x2028
    || n == 0x2029 || n == 0x202F || n == 0x205F || n == 0x3000 || n == 0xFEFF
  }

  predicate AllSpace(s: string) {
    forall i :: 0 <= i < |s| ==> IsSpace(s[i])
  }

  /** No whitespace at either end: the shape `trim` produces. */
  predicate IsTrimmed(s: string) {
    |s| == 0 || (!IsSpace(s[0]) && !IsSpace(s[|s| - 1]))
  }

  lemma AllSpaceConcat(a: string, b: string)
    requires AllSpace(a) && AllSpace(b)
    ensures AllSpace(a + b)
  {
    forall i | 0 <= i < |a + b|
      ensures IsSpace((a + b)[i])
    {
      if i < |a| {
        assert (a + b)[i] == a[i];
      } else {
        assert (a + b)[i] == b[i - |a|];
      }
    }
  }

  function LeadingSpaces(s: string): (n: nat)
    ensures n <= |s|
    ensures AllSpace(s[..n])
    ensures n == |s| || !IsSpace(s[n])
    ensures n > 0 ==> IsSpace(s[0])
    decreases |s|
  {
    if |s| > 0 && IsSpace(s[0]) then
      var t := s[1..];
      var m := LeadingSpaces(t);
      assert s[..1 + m] == [s[0]] + t[..m];
      assert 1 + m < |s| ==> s[1 + m] == t[m];
      AllSpaceConcat([s[0]], t[..m]);
      1 + m
    else 0
  }

  function TrailingSpaces(s: string): (n: nat)
    ensures n <= |s|
    ensures AllSpace(s[|s| - n..])
    ensures n == |s| || !IsSpace(s[|s| - n - 1])
    ensures n > 0 ==> IsSpace(s[|s| - 1])
    decreases |s|
  {
    if |s| > 0 && IsSpace(s[|s| - 1]) then
      var p := s[..|s| - 1];
      var m := TrailingSpaces(p);
      assert s[|s| - (1 + m)..] == p[|p| - m..] + [s[|s| - 1]];
      assert 1 + m < |s| ==> s[|s| - (1 + m) - 1] == p[|p| - m - 1];
      AllSpaceConcat(p[|p| - m..], [s[|s| - 1]]);
      1 + m
    else 0
  }

  /** `s.trim()`. */
  function Trim(s: string): (r: string)
    ensures IsTrimmed(r)
    ensures |r| <= |s|
  {
    var i := LeadingSpaces(s);
    var t := s[i..];
    t[..|t| - TrailingSpaces(t)]
  }

  /** The trimmed text is the original with only whitespace cut from either
      end; it is empty exactly when the original is all whitespace. */
  lemma TrimBounds(s: string) returns (i: nat, j: nat)
    ensures i <= j <= |s|
    ensures Trim(s) == s[i..j]
    ensures AllSpace(s[..i]) && AllSpace(s[j..])
    ensures Trim(s) == "" <==> AllSpace(s)
  {
    i := LeadingSpaces(s);
    var t := s[i..];
    var k := TrailingSpaces(t);
    j := i + |t| - k;
    assert t[|t| - k..] == s[j..];
    assert t[..|t| - k] == s[i..j];
    if i == j {
      assert s == s[..i] + s[j..];
      AllSpaceConcat(s[..i], s[j..]);
    }
  }

  /** Trimming changes nothing exactly when the text is already trimmed. */
  lemma TrimFixedPoint(s: string)
    ensures Trim(s) == s <==> IsTrimmed(s)
  {
    if IsTrimmed(s) && |s| > 0 {
      var n := LeadingSpaces(s);
      assert s[n..] == s;
      var m := TrailingSpaces(s);
      assert s[..|s| - m] == s;
    }
  }

  lemma TrimIdempotent(s: string)
    ensures Trim(Trim(s)) == Trim(s)
  {
    TrimFixedPoint(Trim(s));
  }

  /** Every character the trimmed text keeps comes from the original. */
  lemma TrimKeepsCharacters(s: string, c: char)
    requires c in Trim(s)
    ensures c in s
  {
    var i, j := TrimBounds(s);
    var k :| 0 <= k < |s[i..j]| && s[i..j][k] == c;
    assert s[i + k] == c;
  }

  function LowerChar(c: char): char {
    if 'A' <= c <= 'Z' then (c as int + 32) as char else c
  }

  function UpperChar(c: char): char {
    if 'a' <= c <= 'z' then (c as int - 32) as char else c
  }

  /** `toLowerCase()` on the ASCII range. */
  function Lower(s: string): (r: string)
    ensures |r| == |s|
    ensures forall i :: 0 <= i < |s| ==> r[i] == LowerChar(s[i])
  {
    seq(|s|, i requires 0 <= i < |s| => LowerChar(s[i]))
  }

  /** `toUpperCase()` on the ASCII range. */
  function Upper(s: string): (r: string)
    ensures |r| == |s|
    ensures forall i :: 0 <= i < |s| ==> r[i] == UpperChar(s[i])
  {
    seq(|s|, i requires 0 <= i < |s| => UpperChar(s[i]))
  }

  predicate IsLower(s: string) {
    forall i :: 0 <= i < |s| ==> !('A' <= s[i] <= 'Z')
  }

  /** Lower-casing leaves no upper-case letter, keeps the text trimmed, and
      is therefore a fixed point on its own output. */
  lemma LowerFacts(s: string)
    ensures IsLower(Lower(s))
    ensures Lower(Lower(s)) == Lower(s)
    ensures IsTrimmed(s) ==> IsTrimmed(Lower(s))
    ensures AllSpace(s) <==> AllSpace(Lower(s))
  {
    var l := Lower(s);
    if !AllSpace(s) {
      var i :| 0 <= i < |s| && !IsSpace(s[i]);
      assert !IsSpace(l[i]);
    }
  }

  /** `xs.join(sep)`. */
  function Join(xs: seq<string>, sep: string): string {
    if |xs| == 0 then ""
    else if |xs| == 1 then xs[0]
    else xs[0] + sep + Join(xs[1..], sep)
  }

  /** Joining two non-empty lists is joining their joins. */
  lemma {:induction false} JoinConcat(a: seq<string>, b: seq<string>, sep: string)
    requires |a| > 0 && |b| > 0
    ensures Join(a + b, sep) == Join(a, sep) + sep + Join(b, sep)
  {
    if |a| == 1 {
      assert (a + b)[1..] == b;
    } else {
      assert (a + b)[1..] == a[1..] + b;
      JoinConcat(a[1..], b, sep);
    }
  }

  /** `s.split(c)` for a single-character separator. */
  function Split(s: string, c: char): (r: seq<string>)
    ensures |r| >= 1
  {
    if |s| == 0 then [""]
    else if s[0] == c then [""] + Split(s[1..], c)
    else
      var rest := Split(s[1..], c);
      [[s[0]] + rest[0]] + rest[1..]
  }

  lemma {:induction false} SplitPrefix(a: string, t: string, c: char)
    requires c !in a
    ensures Split(a + t, c) == [a + Split(t, c)[0]] + Split(t, c)[1..]
  {
    if |a| > 0 {
      assert (a + t)[1..] == a[1..] + t;
      SplitPrefix(a[1..], t, c);
      var rest := Split(a[1..] + t, c);
      var st := Split(t, c);
      assert (a + t)[0] == a[0] && a[0] != c;
      assert Split(a + t, c) == [[a[0]] + rest[0]] + rest[1..];
      assert rest[0] == a[1..] + st[0];
      assert rest[1..] == st[1..];
      assert [a[0]] + (a[1..] + st[0]) == a + st[0];
    } else {
      assert a + t == t;
      assert a + Split(t, c)[0] == Split(t, c)[0];
      assert [a + Split(t, c)[0]] + Split(t, c)[1..] == Split(t, c);
    }
  }

  /** Splitting undoes joining, as long as no piece contains the separator. */
  lemma {:induction false} SplitJoin(xs: seq<string>, c: char)
    requires |xs| >= 1
    requires forall i :: 0 <= i < |xs| ==> c !in xs[i]
    ensures Split(Join(xs, [c]), c) == xs
  {
    if |xs| == 1 {
      SplitPrefix(xs[0], "", c);
      assert xs[0] + "" == xs[0];
    } else {
      var t := Join(xs[1..], [c]);
      SplitJoin(xs[1..], c);
      assert xs[0] + [c] + t == xs[0] + ([c] + t);
      SplitPrefix(xs[0], [c] + t, c);
      assert ([c] + t)[1..] == t;
      assert xs[0] + "" == xs[0];
      assert [xs[0]] + xs[1..] == xs;
    }
  }

  /** Splitting yields one more piece than there are separators. */
  lemma {:induction false} SplitCount(s: string, c: char)
    ensures |Split(s, c)| == 1 + multiset(s)[c]
  {
    if |s| > 0 {
      assert s == [s[0]] + s[1..];
      SplitCount(s[1..], c);
    }
  }

  /** A join of `n` items on a one-character separator holds at least
      `n - 1` separators, and one more when an item holds one itself. */
  lemma {:induction false} JoinCount(xs: seq<string>, c: char)
    requires |xs| >= 1
    ensures multiset(Join(xs, [c]))[c] >= |xs| - 1
    ensures (exists i :: 0 <= i < |xs| && c in xs[i]) ==> multiset(Join(xs, [c]))[c] >= |xs|
  {
    if |xs| > 1 {
      JoinCount(xs[1..], c);
      assert multiset(Join(xs, [c])) == multiset(xs[0]) + multiset([c]) + multiset(Join(xs[1..], [c]));
      if exists i :: 0 <= i < |xs| && c in xs[i] {
        var i :| 0 <= i < |xs| && c in xs[i];
        if i > 0 {
          assert c in xs[1..][i - 1];
        }
      }
    }
  }

  /** A join is empty exactly when there is nothing to join, or only one
      empty item. */
  lemma JoinEmpty(xs: seq<string>, sep: string)
    requires |sep| > 0
    ensures Join(xs, sep) == "" <==> |xs| == 0 || (|xs| == 1 && xs[0] == "")
  {
    if |xs| > 1 {
      assert |Join(xs, sep)| >= |sep|;
    }
  }

  function Min(a: int, b: int): int { if a <= b then a else b }

  /** `c` repeated `n` times (`c.repeat(n)`). */
  function Repeat(c: char, n: nat): (r: string)
    ensures |r| == n
    ensures forall i :: 0 <= i < n ==> r[i] == c
  {
    seq(n, _ => c)
  }

  predicate StartsWith(s: string, p: string) {
    |p| <= |s| && s[..|p|] == p
  }

  predicate EndsWith(s: string, p: string) {
    |p| <= |s| && s[|s| - |p|..] == p
  }

  /** `s.replace(/pat/g, rep)`: left-to-right, non-overlapping. */
  function ReplaceAll(s: string, pat: string, rep: string): string
    requires |pat| > 0
    decreases |s|
  {
    if StartsWith(s, pat) then rep + ReplaceAll(s[|pat|..], pat, rep)
    else if |s| == 0 then ""
    else [s[0]] + ReplaceAll(s[1..], pat, rep)
  }

  /** One step of a global replace whose pattern is a single character. */
  lemma ReplaceCharStep(c: char, t: string, p: char, rep: string)
    ensures ReplaceAll([c] + t, [p], rep) == (if c == p then rep else [c]) + ReplaceAll(t, [p], rep)
  {
    assert ([c] + t)[1..] == t;
    assert ([c] + t)[..1] == [c];
  }

  function DigitChar(d: nat): char
    requires d < 10
  {
    ('0' as int + d) as char
  }

  function DigitValue(c: char): int {
    c as int - '0' as int
  }

  predicate IsDigit(c: char) {
    '0' <= c <= '9'
  }

  /** Decimal digits of a natural number, most significant first. */
  function NatToString(n: nat): (r: string)
    ensures |r| >= 1
    ensures forall i :: 0 <= i < |r| ==> IsDigit(r[i])
    ensures |r| > 1 ==> r[0] != '0'
  {
    if n < 10 then [DigitChar(n)]
    else NatToString(n / 10) + [DigitChar(n % 10)]
  }

  /** `String(n)` for an integer `n`. */
  function IntToString(n: int): (r: string)
    ensures |r| >= 1
  {
    if n < 0 then "-" + NatToString(-n) else NatToString(n)
  }

  function ParseNat(s: string): int {
    if |s| == 0 then 0
    else ParseNat(s[..|s| - 1]) * 10 + DigitValue(s[|s| - 1])
  }

  /** Reads back the decimal notation `IntToString` writes. */
  function ParseInt(s: string): int {
    if |s| > 0 && s[0] == '-' then -ParseNat(s[1..]) else ParseNat(s)
  }

  lemma {:induction false} ParseNatToString(n: nat)
    ensures ParseNat(NatToString(n)) == n
  {
    if n >= 10 {
      var r := NatToString(n);
      assert r[..|r| - 1] == NatToString(n / 10);
      ParseNatToString(n / 10);
    }
  }

  /** The integer-to-decimal rendering is faithful: parsing gives the number back. */
  lemma IntToStringRoundTrip(n: int)
    ensures ParseInt(IntToString(n)) == n
  {
    if n < 0 {
      NegativeRoundTrip(n);
    } else {
      NonNegativeRoundTrip(n);
    }
  }

  lemma NegativeRoundTrip(n: int)
    requires n < 0
    ensures ParseInt(IntToString(n)) == n
  {
    ParseNegative(NatToString(-n));
    ParseNatToString(-n);
  }

  /** A leading minus sign negates the digits after it. */
  lemma ParseNegative(d: string)
    ensures ParseInt("-" + d) == -ParseNat(d)
  {
    assert ("-" + d)[0] == '-' && ("-" + d)[1..] == d;
  }

  lemma NonNegativeRoundTrip(n: int)
    requires n >= 0
    ensures ParseInt(IntToString(n)) == n
  {
    var d := NatToString(n);
    assert IntToString(n) == d;
    assert IsDigit(d[0]);
    ParseNatToString(n);
  }
}

=== FILE: voicerules.dfy ===
/** The voice-rule editor (components/VoiceRulesList.tsx): the rules and a
    parallel list of drag ids, edited together. */
module VoiceRules {
  import opened Text
  import opened Optional
  import opened Lists

  const MaxRules: nat := 10

  /** The rules and the drag id of each row. */
  datatype Editor = Editor(rules: seq<string>, ids: seq<string>)

  /** Row `i` shows rule `i` under id `i`. */
  predicate Aligned(e: Editor) { |e.rules| == |e.ids| }

  /** The editor as first shown: ids `"0"`, `"1"`, … by position. */
  function Initial(rules: seq<string>): (e: Editor)
    ensures Aligned(e) && e.rules == rules
    ensures forall i :: 0 <= i < |rules| ==> e.ids[i] == NatToString(i)
  {
    Editor(rules, seq(|rules|, i requires 0 <= i < |rules| => NatToString(i)))
  }

  /** `updateRule(i, v)`; rows exist only for indices in range. */
  function UpdateRule(e: Editor, i: int, v: string): (r: Editor)
    requires 0 <= i < |e.rules|
    ensures r.ids == e.ids && |r.rules| == |e.rules| && r.rules[i] == v
    ensures forall k :: 0 <= k < |e.rules| && k != i ==> r.rules[k] == e.rules[k]
  {
    e.(rules := ReplaceAt(e.rules, i, v))
  }

  /** `removeRule(i)`: index `i` leaves both lists. */
  function RemoveRule(e: Editor, i: int): (r: Editor)
    requires Aligned(e)
    ensures Aligned(r)
    ensures !(0 <= i < |e.rules|) ==> r == e
    ensures 0 <= i < |e.rules| ==> |r.rules| == |e.rules| - 1
    ensures 0 <= i < |e.rules| ==> forall k :: 0 <= k < |r.rules| ==>
      var src := if k < i then k else k + 1;
      r.rules[k] == e.rules[src] && r.ids[k] == e.ids[src]
  {
    Editor(RemoveAt(e.rules, i), RemoveAt(e.ids, i))
  }

  /** `addRule()` at time `nowMs`: a blank rule under a clock-based id,
      unless the list is full. */
  function AddRule(e: Editor, nowMs: nat): (r: Editor)
    ensures |e.rules| >= MaxRules ==> r == e
    ensures |e.rules| < MaxRules ==>
      r.rules == e.rules + [""] && r.ids == e.ids + [NatToString(nowMs)]
  {
    if |e.rules| >= MaxRules then e
    else Editor(e.rules + [""], e.ids + [NatToString(nowMs)])
  }

  /** The remove button is enabled while more than one rule is left. */
  predicate CanRemove(e: Editor) { |e.rules| > 1 }

  /** `handleDragEnd`: the dragged row and the row it was dropped on are
      named by id (dnd-kit reports ids of the sortable items); no drop
      target, or a drop on itself, does nothing. Both lists move the same
      way. */
  function DragEnd(e: Editor, active: string, over: Option<string>): (r: Editor)
    requires Aligned(e)
    requires active in e.ids && (over.Some? ==> over.value in e.ids)
    ensures Aligned(r)
  {
    if over.None? || active == over.value then e
    else
      var from := IndexOf(e.ids, active);
      var to := IndexOf(e.ids, over.value);
      Editor(ArrayMove(e.rules, from, to), ArrayMove(e.ids, from, to))
  }

  /** The rows as (rule, id) pairs. */
  function Rows(e: Editor): (p: seq<(string, string)>)
    requires Aligned(e)
    ensures |p| == |e.rules|
    ensures forall i :: 0 <= i < |p| ==> p[i] == (e.rules[i], e.ids[i])
  {
    seq(|e.rules|, i requires 0 <= i < |e.rules| => (e.rules[i], e.ids[i]))
  }

  /** A drag moves whole rows: the rows afterwards are the rows before,
      rearranged, each rule still under its own id; and the dragged id lands
      where the target row was. */
  lemma DragKeepsPairs(e: Editor, active: string, over: Option<string>)
    requires Aligned(e)
    requires active in e.ids && (over.Some? ==> over.value in e.ids)
    ensures multiset(Rows(DragEnd(e, active, over))) == multiset(Rows(e))
    ensures over.Some? && active != over.value ==>
      DragEnd(e, active, over).ids[IndexOf(e.ids, over.value)] == active
  {
    if over.Some? && active != over.value {
      var from := IndexOf(e.ids, active);
      var to := IndexOf(e.ids, over.value);
      RowsOfMove(e, from, to);
      ArrayMoveIsPermutation(Rows(e), from, to);
      ArrayMoveIsPermutation(e.ids, from, to);
      assert MoveSource(to, from, to) == from;
    }
  }

  /** Moving the rules and the ids the same way moves the rows. */
  lemma RowsOfMove(e: Editor, from: int, to: int)
    requires Aligned(e) && 0 <= from < |e.rules| && 0 <= to < |e.rules|
    ensures var m := Editor(ArrayMove(e.rules, from, to), ArrayMove(e.ids, from, to));
      Aligned(m) && Rows(m) == ArrayMove(Rows(e), from, to)
  {
    var m := Editor(ArrayMove(e.rules, from, to), ArrayMove(e.ids, from, to));
    var p := Rows(e);
    ArrayMoveIsPermutation(p, from, to);
    ArrayMoveIsPermutation(e.rules, from, to);
    ArrayMoveIsPermutation(e.ids, from, to);
    forall k | 0 <= k < |p|
      ensures Rows(m)[k] == ArrayMove(p, from, to)[k]
    {
      var j := MoveSource(k, from, to);
      assert Rows(m)[k] == (e.rules[j], e.ids[j]);
    }
  }

  /** Dragging the row back onto the row now at its old place undoes a drag,
      when the ids are distinct. */
  lemma DragBackUndoes(e: Editor, active: string, target: string)
    requires Aligned(e) && NoDuplicates(e.ids)
    requires active in e.ids && target in e.ids && active != target
    ensures var r := DragEnd(e, active, Some(target));
      var home := r.ids[IndexOf(e.ids, active)];
      home in r.ids && active in r.ids
      && (home != active ==> DragEnd(r, active, Some(home)) == e)
  {
    var from := IndexOf(e.ids, active);
    var to := IndexOf(e.ids, target);
    var r := DragEnd(e, active, Some(target));
    ArrayMoveIsPermutation(e.ids, from, to);
    assert r.ids[to] == active;
    var home := r.ids[from];
    if home != active {
      ArrayMoveKeepsNoDuplicates(e.ids, from, to);
      FirstIndexUnique(r.ids, to);
      FirstIndexUnique(r.ids, from);
      ArrayMoveBack(e.rules, from, to);
      ArrayMoveBack(e.ids, from, to);
    }
  }

  lemma ArrayMoveKeepsNoDuplicates(xs: seq<string>, from: int, to: int)
    requires 0 <= from < |xs| && 0 <= to < |xs| && NoDuplicates(xs)
    ensures NoDuplicates(ArrayMove(xs, from, to))
  {
    var r := ArrayMove(xs, from, to);
    ArrayMoveIsPermutation(xs, from, to);
    forall i, j | 0 <= i < j < |r| ensures r[i] != r[j] {
      var a, b := MoveSource(i, from, to), MoveSource(j, from, to);
      assert a != b;
      if a < b { assert xs[a] != xs[b]; } else { assert xs[b] != xs[a]; }
    }
  }

  /** In a duplicate-free list, `indexOf` finds an element's own position. */
  lemma FirstIndexUnique(xs: seq<string>, k: int)
    requires NoDuplicates(xs) && 0 <= k < |xs|
    ensures IndexOf(xs, xs[k]) == k
  {
  }

  /** Every editing operation keeps rules and ids aligned. */
  lemma EditsKeepAlignment(e: Editor, i: int, v: string, nowMs: nat)
    requires Aligned(e) && 0 <= i < |e.rules|
    ensures Aligned(UpdateRule(e, i, v)) && Aligned(RemoveRule(e, i)) && Aligned(AddRule(e, nowMs))
  {
  }

  /** Adding never goes past ten rules, and from one rule the remove button
      is off, so the editor cannot empty its list. */
  lemma RuleCountBounds(e: Editor, nowMs: nat)
    requires |e.rules| <= MaxRules
    ensures |AddRule(e, nowMs).rules| <= MaxRules
    ensures Aligned(e) && CanRemove(e) ==>
      forall i :: 0 <= i < |e.rules| ==> |RemoveRule(e, i).rules| >= 1
  {
  }
}

=== FILE: wizard.dfy ===
/** The eight-step builder wizard (app/builder/page.tsx): the per-step gate
    `canAdvance`, name-availability bookkeeping, and step navigation. */
module Wizard {
  import opened Text
  import opened Optional
  import opened Character

  /** `STEPS`: Name, Persona, Voice, Interests, Capabilities, Register,
      Preview, Deploy. */
  const StepCount: nat := 8
  const LastStep: nat := StepCount - 1
  const RegisterStep: nat := 5

  /** `canAdvance(step, config, nameAvailable, isEditMode)`. */
  predicate CanAdvance(step: int, c: CharacterConfig, nameAvailable: bool, isEditMode: bool) {
    if step == 0 then
      (isEditMode || (IsValidName(c.name) && nameAvailable))
      && 0 < |c.description| <= 300
    else if step == 1 then 50 <= |c.coreNature| <= 2000
    else if step == 2 then
      |c.voiceRules| >= 1 && forall i :: 0 <= i < |c.voiceRules| ==> |Trim(c.voiceRules[i])| > 0
    else if step == 3 then |c.targetSubmolts| >= 1
    else if step == 5 then isEditMode || c.moltbookApiKey.GetOr("") != ""
    else true
  }

  datatype State = State(step: int, config: CharacterConfig, nameAvailable: bool, isEditMode: bool)

  /** What the user can do on the page. */
  datatype Event =
    | Back                      // the Back button
    | Continue                  // the Continue button
    | Jump(target: int)         // a step-indicator dot
    | SetConfig(next: CharacterConfig)  // an edit from the Name step
    | Availability(available: bool)     // the name check reports back

  predicate ValidState(w: State) { 0 <= w.step <= LastStep }

  /** Whether the Continue button is shown and enabled. */
  predicate ContinueEnabled(w: State) {
    w.step != LastStep && CanAdvance(w.step, w.config, w.nameAvailable, w.isEditMode)
  }

  /** Whether an indicator dot responds: steps already behind, and the
      Register step in edit mode. */
  predicate JumpEnabled(w: State, i: int) {
    i < w.step || (w.isEditMode && i == RegisterStep)
  }

  /** `handleSetConfig`: outside edit mode a changed name is no longer known
      to be available. */
  function SetConfigState(w: State, next: CharacterConfig): (r: State)
    ensures r.config == next && r.step == w.step && r.isEditMode == w.isEditMode
    ensures r.nameAvailable <==> w.nameAvailable && (w.isEditMode || next.name == w.config.name)
  {
    var available := if !w.isEditMode && next.name != w.config.name then false else w.nameAvailable;
    w.(config := next, nameAvailable := available)
  }

  function Apply(w: State, e: Event): State {
    match e
    case Back => w.(step := if w.step - 1 < 0 then 0 else w.step - 1)
    case Continue => if ContinueEnabled(w) then w.(step := w.step + 1) else w
    case Jump(i) => if JumpEnabled(w, i) then w.(step := i) else w
    case SetConfig(next) => SetConfigState(w, next)
    case Availability(b) => w.(nameAvailable := b)
  }

  /** Dots exist only for the eight steps. */
  predicate EventOnPage(e: Event) {
    !e.Jump? || 0 <= e.target < StepCount
  }

  /** No event takes the wizard outside its eight steps, and only Back,
      Continue and the dots move it. */
  lemma ApplyKeepsStepInRange(w: State, e: Event)
    requires ValidState(w) && EventOnPage(e)
    ensures ValidState(Apply(w, e))
    ensures (e.SetConfig? || e.Availability?) ==> Apply(w, e).step == w.step
    ensures Apply(w, e).isEditMode == w.isEditMode
  {
  }

  /** Outside edit mode the only way forward is Continue, one step at a time
      and only past a gate that holds; in edit mode a dot can also jump to
      the Register step. */
  lemma ForwardOnlyThroughGate(w: State, e: Event)
    requires ValidState(w)
    ensures var r := Apply(w, e);
      r.step > w.step ==>
        (e.Continue? && r.step == w.step + 1 && CanAdvance(w.step, w.config, w.nameAvailable, w.isEditMode))
        || (w.isEditMode && e == Jump(RegisterStep))
  {
  }

  /** Back never goes below the first step and otherwise goes back one. */
  lemma BackStepsDown(w: State)
    ensures Apply(w, Back).step == if w.step > 0 then w.step - 1 else 0
    ensures w.step == 0 ==> Apply(w, Back) == w
  {
  }

  /** On the last step there is no Continue. */
  lemma NoContinueOnLastStep(w: State)
    requires w.step == LastStep
    ensures Apply(w, Continue) == w
  {
  }

  /** Changing the name outside edit mode closes the Name gate until the
      availability check answers. */
  lemma RenameClosesNameGate(w: State, next: CharacterConfig)
    requires !w.isEditMode && next.name != w.config.name
    ensures !CanAdvance(0, Apply(w, SetConfig(next)).config, Apply(w, SetConfig(next)).nameAvailable, false)
  {
  }

  /** The gates of the first four steps, all passed outside edit mode,
      give the schema's rules for name, description, core nature and the
      presence of rules and submolts, with every rule non-empty. */
  lemma GatesImplySchemaParts(c: CharacterConfig, nameAvailable: bool)
    requires forall s :: 0 <= s < 4 ==> CanAdvance(s, c, nameAvailable, false)
    ensures IsValidName(c.name) && 1 <= |c.description| <= 300
    ensures 50 <= |c.coreNature| <= 2000
    ensures |c.voiceRules| >= 1 && AllNonEmpty(c.voiceRules)
    ensures |c.targetSubmolts| >= 1
  {
    assert CanAdvance(0, c, nameAvailable, false);
    assert CanAdvance(1, c, nameAvailable, false);
    assert CanAdvance(2, c, nameAvailable, false);
    assert CanAdvance(3, c, nameAvailable, false);
    forall i | 0 <= i < |c.voiceRules|
      ensures |c.voiceRules[i]| >= 1
    {
      assert |Trim(c.voiceRules[i])| > 0;
    }
  }

  /** The Voice gate is stricter than the schema: a rule of one space
      passes the schema's length rule but not the gate. */
  lemma VoiceGateStricterThanSchema(c: CharacterConfig, nameAvailable: bool, edit: bool)
    requires c.voiceRules == [" "]
    ensures 1 <= |c.voiceRules[0]| <= 500
    ensures !CanAdvance(2, c, nameAvailable, edit)
  {
    assert LeadingSpaces(" ") == 1;
  }
}
